=== FILE: README.md ===
# Dynamic field-schema engine of a classifieds backend, in Dafny

A classifieds backend lets every category of ads declare its own fields
(text, number, select, checkbox, ...). The categories, their fields and the
fields' options are mirrored from an upstream marketplace. Each ad stores one
typed value per (ad, field) pair. This project models that engine as pure
functions over an immutable store, and proves what the engine promises.

The model has these parts:

- **Field types** (`field_types.dfy`): the nine types of the `field_type` enum
  column, an `Other` escape for any other tag a field may carry, and the
  case-insensitive mapper from upstream type names.
- **Store** (`schema.dfy`, `tables.dfy`): categories, fields, options, ads and
  value rows as tables of rows in primary-key order, each with an
  auto-increment counter. The store carries the database invariants: unique
  ids below their counters, one value row per (ad, field), and enum types
  only. It also models column defaults and the cascade, set-null and restrict
  foreign-key actions. `updateOrCreate` is a first-match upsert, `where` is a
  filter, and `orderBy` is a sort by an integer column.
- **Taxonomy sync** (`category_sync.dfy`): the store transformer that upserts
  categories, fields and options from upstream records. It prunes stale
  options and builds bound-rule strings. A whole pass either commits or
  leaves the store as it was.
- **Canonical key and rule derivation** (`store_ad_request.dfy`,
  `update_ad_request.dfy`, `category_field.dfy`, `rule_tokens.dfy`,
  `rule_comparison.dfy`): the payload key `external_id ?: name ?: id`, and
  three derivers of validation rules: new ad, ad update and the field model.
  Rules are opaque tokens. The three derivers are compared type by type.
  Only the `required` rule is evaluated, which is enough to produce the 422
  response.
- **Typed value store** (`field_values.dfy`): `setValue` and `getValue`
  over the seven nullable typed columns of a value row.
- **Persistence and read side** (`ad_service.dfy`, `ads.dfy`,
  `field_value_resource.dfy`): saving a payload of dynamic values, creating
  and updating ads, the listing scopes, the `dynamic_fields` attribute,
  `getFieldValue`, the view counter and the API shape of one value.
- **PHP semantics** (`php.dfy`): the runtime behaviour these rely on.
  - String truthiness: `""` and `"0"` are falsy.
  - `strtolower`, `explode` and `implode`.
  - `trim(...) === ''`, `is_numeric`, `(string)` of an integer and `(int)`
    casts.

Upstream records are PHP arrays. Each slot the sync reads is absent, null or
a value. A plain read of an absent slot raises, and that aborts the pass.
The upstream fetches, `Str::slug` and the clock are inputs: a sequence of
category records, a fields response that may be a failure, a slug function
and a `now` timestamp.

## Model

| member | source | states |
|---|---|---|
| FieldTypes.MapFieldType | app/Services/OlxApiService.php:155-169 | total; the result is always one of the nine enum names and never `decimal` or `boolean`; a lower-cased input outside the recognised names gives `text` |
| FieldTypes.MapFieldTypeCaseInsensitive | app/Services/OlxApiService.php:157 | mapping a string equals mapping its lower-case form |
| FieldTypes.MapFieldTypeSynonyms | app/Services/OlxApiService.php:158-163 | input/string, integer/number, dropdown/select and multiselect/checkbox collapse onto one type, in any letter case |
| FieldTypes.MapFieldTypeOnEnumName | app/Services/OlxApiService.php:158-166 | every enum name maps to the type it names |
| FieldTypes.MapFieldTypeIdempotent | app/Services/OlxApiService.php:158-167 | mapping the name of an already-mapped type returns that type |
| FieldTypes.FromName | database/migrations/2025_12_11_182824_create_category_fields_table.php:20 | a stored tag reads back as the type whose name it is; it is an enum type exactly when the tag is one of the nine enum names |
| FieldTypes.FromNameOfName | database/migrations/2025_12_11_182824_create_category_fields_table.php:20 | tags and types correspond one to one |
| Php.LowerIdempotent | app/Services/OlxApiService.php:157 | lower-casing twice is lower-casing once |
| Php.Split | app/Models/CategoryField.php:119 | `explode` yields at least one piece, no piece holds the delimiter, and `implode` of the pieces gives the input back |
| Php.SplitJoin | app/Services/CategorySyncService.php:244 | `explode` of an `implode` of delimiter-free pieces gives the pieces back |
| Php.NatToString | app/Http/Requests/StoreAdRequest.php:59 | `(string)` of an id is a non-empty run of digits, with no leading zero, that parses back to the id |
| Php.NatToStringTruthy | app/Http/Requests/StoreAdRequest.php:59 | a rendered id is falsy exactly when the id is 0 |
| Php.NatToStringIsNumeric | app/Services/CategorySyncService.php:103 | a rendered id passes `is_numeric` |
| Php.CommonFieldsKeyNotNumeric | app/Services/CategorySyncService.php:103 | the group key skipped by name also fails `is_numeric` |
| Php.IsNumeric | app/Services/CategorySyncService.php:103 | a non-empty run of digits is numeric, and the empty string is not |
| Php.ToIntOfRenderedNat | app/Models/AdFieldValue.php:114 | `(int)` of a rendered id is the id |
| Php.LeadingIntOfDigits | app/Models/AdFieldValue.php:114 | `(int)` of a string of digits is the number it spells |
| Php.ToInt | app/Models/AdFieldValue.php:114 | every falsy value casts to 0; a value other than a string casts to non-zero exactly when it is truthy; a string of digits casts to the number it spells |
| Tables.FindFirst | app/Services/CategorySyncService.php:217 | `where(...)->first()`: the index of a matching row with no match before it, or none exactly when no row matches |
| Tables.Upsert | app/Services/CategorySyncService.php:71-83 | `updateOrCreate`: the first matching row is rewritten and all others are kept; with no match the created row is appended |
| Tables.UpsertKeepsKeysUnique | app/Services/CategorySyncService.php:152-156 | an upsert by a key keeps that key unique, and the only row under it is the updated or the created one |
| Tables.UpsertKeepsIds | app/Services/CategorySyncService.php:188-200 | an upsert keeps ids unique and below the counter, which moves on only when a row was created |
| Tables.UpsertHasMatch | app/Services/CategorySyncService.php:188-200 | after an upsert some row matches its key |
| Tables.Filter | app/Models/Category.php:80-83 | `where`: exactly the rows satisfying the condition, each as often as in the table |
| Tables.SortBy | app/Models/CategoryField.php:49 | `orderBy`: a permutation of the rows in non-decreasing key order |
| Tables.Select | app/Models/CategoryField.php:129-132 | `where(...)->orderBy(...)`: exactly the matching rows, with multiplicity, in key order |
| Tables.SelectKeepsKeysUnique | app/Models/CategoryField.php:129-132 | a filtered and sorted table with a unique key still has a unique key |
| Tables.FilterKeepsSorted | app/Models/Category.php:56-59 | filtering a sorted list keeps it sorted |
| Schema.Valid | database/migrations/2025_12_11_183038_create_ad_field_values_table.php:15-33 | the invariants the database enforces: ids unique and below their counters, one value row per (ad, field) pair, and field types from the enum |
| Schema.InsertField | database/migrations/2025_12_11_182824_create_category_fields_table.php:21-23 | an inserted field takes the next id; an omitted `is_required` or `is_searchable` is false and an omitted `order` is 0 |
| Schema.FieldKeyNotEnforced | database/migrations/2025_12_11_182824_create_category_fields_table.php:17-30 | two inserts of one (category, external id) pair both succeed, so that pair is not unique by the schema |
| Schema.InsertOption | database/migrations/2025_12_11_182855_create_category_field_options_table.php:17-21 | an inserted option takes the next id and any external id, NULL included; omitted `order` is 0 and omitted `is_default` is false |
| Schema.ClearOptionRef | database/migrations/2025_12_11_183038_create_ad_field_values_table.php:28 | `ON DELETE SET NULL`: the row keeps its id and pair and no longer points at a deleted option |
| Schema.DeleteOptionsWhere | database/migrations/2025_12_11_183038_create_ad_field_values_table.php:28 | the deleted options are gone; every value row survives, with the same id and pair, pointing at none of them; the invariants and unique (field, external id) option keys are kept |
| Schema.DeleteOption | database/migrations/2025_12_11_183038_create_ad_field_values_table.php:28 | deleting an option removes no value row, and none still points at it |
| Schema.DeleteFieldsWhere | database/migrations/2025_12_11_182855_create_category_field_options_table.php:16 | exactly the matching fields are removed; no option or value row of theirs remains and no option is added; categories and ads are untouched |
| Schema.DeleteField | database/migrations/2025_12_11_183038_create_ad_field_values_table.php:17 | after deleting a field, no option and no value row of it remains |
| Schema.DeleteAd | database/migrations/2025_12_11_183038_create_ad_field_values_table.php:16 | deleting an ad deletes exactly its value rows |
| Schema.DeleteCategory | database/migrations/2025_12_11_182824_create_category_fields_table.php:16 | refused exactly when an ad is in the category; otherwise the category and exactly its fields are removed |
| Taxonomy.Children | app/Models/Category.php:40-43 | exactly the categories whose parent is the given one, with multiplicity, by `order` |
| Taxonomy.Roots | app/Models/Category.php:72-75 | exactly the categories without a parent, with multiplicity, by `order` |
| Taxonomy.RootOrChild | app/Models/Category.php:40-75 | a root is nobody's child, and a category is a child of the category its parent link names |
| Taxonomy.ByExternalId | app/Models/Category.php:80-83 | exactly the categories with that external id |
| Taxonomy.FieldsOf | app/Models/Category.php:48-51 | exactly the category's fields, by `order`, with unique ids when the table has them |
| Taxonomy.RequiredFields | app/Models/Category.php:56-59 | exactly the required fields of the category, by `order` |
| Taxonomy.RequiredFieldsWithinFields | app/Models/Category.php:56-59 | the required fields are a sub-multiset of the fields |
| Taxonomy.OptionsOf | app/Models/CategoryField.php:47-50 | exactly the field's options, by `order` |
| Taxonomy.FindCategory | app/Http/Requests/StoreAdRequest.php:52 | the category with that id, or none exactly when no category has it |
| FieldValues.ColumnFor | app/Models/AdFieldValue.php:105-128 | each of the nine types writes one of the text, integer, date, json and option columns; other types write none |
| FieldValues.SetValue | app/Models/AdFieldValue.php:94-130 | at most one column is set afterwards, and only the column of the field's type; it is set for a non-null value, for a number and for a checkbox; decimal and boolean are never set; another type leaves all seven NULL |
| FieldValues.SelectedOption | app/Models/AdFieldValue.php:52-55 | the option the row points at, or none exactly when no option has that id |
| FieldValues.GetValue | app/Models/AdFieldValue.php:60-89 | an option triple comes back exactly for a select or radio whose reference resolves, and it is the triple of an option the row points at; an unresolved reference reads null; text-like types and types outside the nine read `value_text`, a date reads `value_date`, a number reads `value_integer` and a checkbox reads `value_json`, NULL reading as null |
| FieldValues.RoundTripText | app/Models/AdFieldValue.php:62-119 | text, textarea, email and url values read back unchanged; a date, an opaque value here, reads back as the value written |
| FieldValues.RoundTripNumber | app/Models/AdFieldValue.php:69-115 | a number reads back as its `(int)` conversion: an integer as itself, null as 0 |
| FieldValues.RoundTripCheckbox | app/Models/AdFieldValue.php:75-123 | a checkbox array reads back unchanged; any other value reads back wrapped in a one-element array |
| FieldValues.RoundTripChoice | app/Models/AdFieldValue.php:78-127 | selecting an option by id reads back that option's {id, value, label} |
| FieldValues.RoundTripOther | app/Models/AdFieldValue.php:86-129 | a type outside the nine stores nothing and reads back null |
| CategoryFieldRules.HasOptions | app/Models/CategoryField.php:63-66 | true exactly for select, radio and checkbox |
| CategoryFieldRules.IsMultiple | app/Models/CategoryField.php:71-74 | true exactly for checkbox |
| CategoryFieldRules.MultipleHasOptions | app/Models/CategoryField.php:63-74 | a multiple field takes options; single-choice option fields are select and radio |
| CategoryFieldRules.ModelTypeTokens | app/Models/CategoryField.php:91-115 | one type token for each enum type and none otherwise; it is the option check, on this field's id, exactly for select and radio |
| CategoryFieldRules.GetValidationRules | app/Models/CategoryField.php:79-123 | `required` exactly when the field is required, else `nullable`; then at most one type token; then the field's own rules in order |
| CategoryFieldRules.SyncedBoundsBecomeRules | app/Models/CategoryField.php:117-121 | a field whose rules came from synced bounds ends its rule list with exactly those bound rules |
| RuleTokens.CustomTokens | app/Models/CategoryField.php:118-121 | no tokens for a falsy column; otherwise delimiter-free pieces that join back to the column |
| RuleTokens.CustomTokensOfJoin | app/Http/Requests/StoreAdRequest.php:142-145 | delimiter-free rule strings joined by `\|` come back one token each, in order |
| StoreAdRequest.CanonicalKey | app/Http/Requests/StoreAdRequest.php:59 | the external id when truthy, else the name when truthy, else the id rendered in decimal, so `""` and `"0"` fall through; the key is falsy only for id 0 |
| StoreAdRequest.DynamicPaths | app/Http/Requests/StoreAdRequest.php:79-126 | the base and element paths both start with `fields.` and differ |
| StoreAdRequest.StoreTypeTokens | app/Http/Requests/StoreAdRequest.php:90-120 | no type token for checkbox or a type outside the nine; option checks name this field; never a `required`, `nullable` or custom token |
| StoreAdRequest.StoreFieldRules | app/Http/Requests/StoreAdRequest.php:76-149 | the base path starts with `required` exactly when the field is required, else `nullable`, and ends with the field's own rules; a checkbox adds `array`, `min:1` only when required, and an element path holding integer plus the option check |
| StoreAdRequest.DynamicRules | app/Http/Requests/StoreAdRequest.php:57-67 | every merged path starts with `fields.` |
| StoreAdRequest.DynamicRulesPaths | app/Http/Requests/StoreAdRequest.php:57-67 | the merged map has exactly the paths some field produces |
| StoreAdRequest.DynamicRulesLastWins | app/Http/Requests/StoreAdRequest.php:57-67 | the rules at a path are those of the last field producing it |
| StoreAdRequest.SharedKeyLaterWins | app/Http/Requests/StoreAdRequest.php:57-67 | of two fields with one canonical key, the later one's rules are in force |
| StoreAdRequest.SubmittedId | app/Http/Requests/StoreAdRequest.php:52 | an integer is looked up as itself, a string only when it is a non-empty run of digits, nothing else at all; the id looked up is the value's `(int)` cast |
| StoreAdRequest.RequestCategory | app/Http/Requests/StoreAdRequest.php:47-55 | no category for a falsy `category_id`; a found category is a stored one with the submitted id; a truthy id that some stored category has finds a category |
| StoreAdRequest.StoreDynamicRules | app/Http/Requests/StoreAdRequest.php:43-70 | no rules without a category; otherwise every field of the category has its base path, and every path starts with `fields.` |
| StoreAdRequest.BaseRulesNotDynamic | app/Http/Requests/StoreAdRequest.php:26-32 | no fixed path starts with `fields.` |
| StoreAdRequest.StoreBaseRulesRequired | app/Http/Requests/StoreAdRequest.php:26-32 | the fixed paths are `category_id`, `title`, `description` and `price`, and all but `price` are required |
| StoreAdRequest.StoreRules | app/Http/Requests/StoreAdRequest.php:24-38 | the fixed rules survive the merge unchanged, and every other path holds its dynamic rules |
| StoreAdRequest.Walk | app/Http/Requests/StoreAdRequest.php:79 | with no segment left the value itself; below anything but a list there is nothing |
| StoreAdRequest.Lookup | app/Http/Requests/StoreAdRequest.php:79 | a `fields.` path reads nothing unless `fields` is an array; otherwise the entry under the path's first `.`-separated segment, walked down by the others; any other path reads a top-level input exactly when it is present |
| StoreAdRequest.LookupPlainKey | app/Http/Requests/StoreAdRequest.php:79 | a key without `.` reads its own entry of `fields` |
| StoreAdRequest.DottedKeyInvisible | app/Http/Requests/StoreAdRequest.php:79 | the entry under a key that holds `.` is never read at that key's path: changing it changes nothing there |
| StoreAdRequest.Missing | app/Http/Requests/StoreAdRequest.php:83-85 | `required` is not truthiness: integers and booleans always pass, a list fails exactly when empty, `"0"` passes and `""` fails |
| StoreAdRequest.RequiredErrors | app/Http/Requests/StoreAdRequest.php:83-85 | exactly the paths with a `required` rule whose value is absent, null, blank or an empty array |
| StoreAdRequest.FailedValidation | app/Http/Requests/StoreAdRequest.php:218-228 | status 422, `success` false, message "Validation failed", and the given errors |
| StoreAdRequest.ValidateStore | app/Http/Requests/StoreAdRequest.php:218-228 | rejected exactly when some `required` rule fails, with the 422 response listing those paths |
| StoreAdRequest.RequiredPathInForce | app/Http/Requests/StoreAdRequest.php:57-87 | a required field's path is in force with a `required` rule unless a later field takes it over |
| StoreAdRequest.MissingRequiredFieldRejected | tests/Feature/AdPostTest.php:78-113 | a required field with nothing in `fields` under its key's first segment gives a 422 with an error under `fields.<canonical key>` |
| StoreAdRequest.DottedKeySentLiterally | app/Http/Requests/StoreAdRequest.php:57-87 | a required field whose key holds `.` is rejected with an error at its path even when the payload sends a value under exactly that key |
| UpdateAdRequest.Authorize | app/Http/Requests/UpdateAdRequest.php:16-22 | true exactly when an ad is bound and the user owns it |
| UpdateAdRequest.AuthorizeOwnerOnly | app/Http/Requests/UpdateAdRequest.php:16-22 | at most one user may update an ad |
| UpdateAdRequest.UpdateBaseRulesShape | app/Http/Requests/UpdateAdRequest.php:31-36 | every fixed rule starts with `sometimes` and requires nothing; the status must be draft, active, sold or expired |
| UpdateAdRequest.UpdateTypeTokens | app/Http/Requests/UpdateAdRequest.php:74-105 | one or two type tokens, never a length bound; option checks name this field |
| UpdateAdRequest.UpdateFieldRules | app/Http/Requests/UpdateAdRequest.php:60-110 | `required` exactly for a required field without a stored value, else `nullable`; custom rules go on the base path for every type; a checkbox gets `array` without `min:1` and the element path |
| UpdateAdRequest.HasStoredValue | app/Http/Requests/UpdateAdRequest.php:67 | true exactly when one of the ad's value rows (its `fieldValues` relation) is for the field |
| UpdateAdRequest.UpdateMerged | app/Http/Requests/UpdateAdRequest.php:60-113 | every merged path starts with `fields.` |
| UpdateAdRequest.UpdateMergedLastWins | app/Http/Requests/UpdateAdRequest.php:112 | the rules at a path are those of the last field producing it |
| UpdateAdRequest.UpdateDynamicRules | app/Http/Requests/UpdateAdRequest.php:50-58 | nothing when the ad's category is missing; every path starts with `fields.` |
| UpdateAdRequest.UpdateRules | app/Http/Requests/UpdateAdRequest.php:27-45 | dynamic rules are added only when the body has a `fields` key (whatever its value, null included) and an ad is bound; fixed rules are never replaced |
| UpdateAdRequest.StoredFieldRulesOptional | app/Http/Requests/UpdateAdRequest.php:67-71 | with a stored value the base path is `nullable` and requires nothing, unless its own rules say `required` |
| UpdateAdRequest.StoredPathInForce | app/Http/Requests/UpdateAdRequest.php:60-113 | the rules in force at such a field's path are its stored-value rules |
| UpdateAdRequest.StoredRequiredFieldNotRequired | app/Http/Requests/UpdateAdRequest.php:63-71 | leaving out a required field the ad already has a value for raises no error for it |
| UpdateAdRequest.UnstoredRequiredFieldRejected | app/Http/Requests/UpdateAdRequest.php:63-71 | a required field the ad has no value for, left out of a body that has `fields`, is reported under its path |
| RuleComparison.SameKeyAndBase | app/Http/Requests/UpdateAdRequest.php:61 | both requests key a field by the same path, and without a stored value all three derivers start with the same token |
| RuleComparison.AgreeOnPlainTypes | app/Models/CategoryField.php:91-106 | text, textarea and date fields get identical rules from all three derivers |
| RuleComparison.NumberDiffers | app/Models/CategoryField.php:96-98 | numbers: both requests say `numeric`, the model says `integer`, and nothing else differs |
| RuleComparison.EmailUrlBounds | app/Http/Requests/StoreAdRequest.php:101-109 | email and url: only the new-ad request adds the length bound, right after the type token |
| RuleComparison.ChoiceTypesDiffer | app/Http/Requests/StoreAdRequest.php:115-120 | select and radio: the requests put `integer` before the option check, the model has the option check only |
| RuleComparison.CheckboxDiffers | app/Http/Requests/StoreAdRequest.php:122-138 | checkbox: the model and the update request agree; the new-ad request adds `min:1` when required; both requests give the same element rules |
| RuleComparison.OtherTypeDiffers | app/Http/Requests/UpdateAdRequest.php:103-104 | a type outside the nine: no type token for the model and the new-ad request, `string` for the update request |
| RuleComparison.StoredValueRelaxes | app/Http/Requests/UpdateAdRequest.php:67-71 | a stored value turns only the update's `required` into `nullable`, leaving the rest as it was |
| CategorySync.Read | app/Services/CategorySyncService.php:72 | a plain read fails exactly on an absent slot |
| CategorySync.FindParentId | app/Services/CategorySyncService.php:211-219 | no parent when the upstream parent is unset or falsy or not yet stored; otherwise the first category carrying it |
| CategorySync.CategoryKey | app/Services/CategorySyncService.php:72 | fails exactly when the record has no `id`; a null id gives the empty key |
| CategorySync.SyncInvariant | app/Services/CategorySyncService.php:71-83 | what the sync keeps: the database invariants, one category per external id, one field per (category, external id) key, and one option per (field, external id) key |
| CategorySync.OptionKeysDistinct | app/Services/CategorySyncService.php:187-191 | under the invariant a field has at most one option with a given external id |
| CategorySync.UpsertCategory | app/Services/CategorySyncService.php:71-83 | the first row under the key holds name or `Unknown`, the given slug or the slug of the name, the description, the parent found before the write and order or 0; a matched row keeps its id and a new one takes the next; rows under other keys are unchanged; the key joins the stored external ids; a known key adds no row; other tables are untouched; the sync invariant is kept |
| CategorySync.FirstIndexOf | app/Services/CategorySyncService.php:71-72 | the row an upsert writes, and the category a group is looked up in, is an existing one exactly when the key is already stored |
| CategorySync.UpsertCategoryRow | app/Services/CategorySyncService.php:71-83 | `updateOrCreate` by external id rewrites the first row under the key, or appends the created row, and leaves rows under other keys alone |
| CategorySync.ParentWrittenFirstLinks | app/Services/CategorySyncService.php:71-83 | a child written after its parent points at the parent's row |
| CategorySync.ChildWrittenFirstUnlinked | app/Services/CategorySyncService.php:71-83 | a child written before its parent is stored gets a null parent |
| CategorySync.UpsertExternalIds | app/Services/CategorySyncService.php:71-72 | an upsert by external id adds exactly that id, and no row when it was present |
| CategorySync.SyncCategories | app/Services/CategorySyncService.php:66-90 | fails exactly when a record has no `id`; counts every record; stores exactly the old and the new external ids; keeps the invariant |
| CategorySync.SyncCategoriesRerun | app/Services/CategorySyncService.php:70-89 | a second run on the same records adds no external id and no row |
| CategorySync.ChoiceKey | app/Services/CategorySyncService.php:191 | fails exactly when `id` is unset or null and `value` is absent; a set id is the key |
| CategorySync.ChoiceColumns | app/Services/CategorySyncService.php:194-195 | succeeds exactly when a value or a label is set; value falls back to label and label to value |
| CategorySync.UpsertChoice | app/Services/CategorySyncService.php:187-199 | existing options keep their identity; new ones belong to the field under the choice's key; the key is present afterwards; ids stay unique; a key the field already carries adds no row and leaves the counter, any other key adds exactly one row and moves the counter by one; (field, external id) keys stay unique |
| CategorySync.MatchIffExternalId | app/Services/CategorySyncService.php:187-191 | `updateOrCreate` finds a match for a key exactly when an option of the field already carries it |
| CategorySync.UpsertKeepsOptionKeys | app/Services/CategorySyncService.php:187-199 | one option upsert keeps (field, external id) keys unique |
| CategorySync.UpsertChoices | app/Services/CategorySyncService.php:187-203 | succeeds exactly when every choice is acceptable |
| CategorySync.UpsertChoicesSpec | app/Services/CategorySyncService.php:186-202 | identities kept, new options carry an accepted key the field did not carry before, every accepted key ends up present, the counter moves once per new option, ids and (field, external id) keys stay unique |
| CategorySync.UpsertChoicesKnownKeys | app/Services/CategorySyncService.php:186-202 | choices whose keys the field already carries create no option and leave the counter |
| CategorySync.UpsertChoicesRerun | app/Services/CategorySyncService.php:186-202 | running the same choices again over the result creates no option |
| CategorySync.SyncFieldOptions | app/Services/CategorySyncService.php:175-206 | succeeds exactly when every choice is acceptable; returns the number of choices; touches only options and value rows; keeps the invariants and unique (field, external id) option keys |
| CategorySync.UpsertChoicesKeepsOptionKeys | app/Services/CategorySyncService.php:186-202 | the choice upserts keep (field, external id) keys unique |
| CategorySync.UpsertChoicesKeepsValid | app/Services/CategorySyncService.php:187-203 | replacing the options by the upsert result keeps the invariants |
| CategorySync.TruthyIds | app/Services/CategorySyncService.php:180 | never `""` or `"0"`; every truthy choice id is in it, and nothing that is not some choice's id |
| CategorySync.Stale | app/Services/CategorySyncService.php:182-184 | an option of another field or with a NULL external id is never stale; an option of the field with an external id is stale exactly when that id is not listed |
| CategorySync.SyncFieldOptionsNoPrune | app/Services/CategorySyncService.php:180-185 | without a truthy choice id, every option keeps existing |
| CategorySync.SyncFieldOptionsKeeps | app/Services/CategorySyncService.php:180-203 | options of other fields, with a NULL external id, or under a truthy choice id, keep existing in place |
| CategorySync.ChoiceKeysAllTruthy | app/Services/CategorySyncService.php:180-191 | when every choice id is truthy, the upsert keys are the truthy ids |
| CategorySync.SyncFieldOptionsExact | app/Services/CategorySyncService.php:180-203 | when every choice id is truthy, the field's option external ids are exactly the choice ids |
| CategorySync.PrunedThenUpserted | app/Services/CategorySyncService.php:180-203 | pruning to a set of ids, then upserting exactly those, leaves exactly those ids |
| CategorySync.BoundRules | app/Services/CategorySyncService.php:226-242 | one rule for each set bound: `min:<min>` first, then `max:<max>`, `min:<min_length>`, and `max:<max_length>` last; every rule is a `min:` or `max:` rule |
| CategorySync.ExtractValidationRules | app/Services/CategorySyncService.php:224-245 | null exactly when no bound is set; otherwise splitting on `\|` gives the bound rules back |
| CategorySync.FieldName | app/Services/CategorySyncService.php:149 | a field with an attribute is named by it; with neither attribute nor name it is `unknown_field` |
| CategorySync.FieldExternalId | app/Services/CategorySyncService.php:155 | the upstream id when set; otherwise the field's name, which is the attribute for every synced field |
| CategorySync.SyncedType | app/Services/CategorySyncService.php:150 | always one of the nine enum types; `filterType` wins over `type`, and with neither the field is a text field |
| CategorySync.SyncCategoryField | app/Services/CategorySyncService.php:146-170 | the field is stored under (category, `id ?? attribute ?? name`) with the mapped type and the extracted rules; it is the only field under that key; the invariant is kept |
| CategorySync.UpsertFieldKeepsInvariant | app/Services/CategorySyncService.php:152-156 | an upsert by the field key keeps the sync invariant and leaves one field under the key |
| CategorySync.SyncFieldEntry | app/Services/CategorySyncService.php:125-132 | options are synced only for a `choices` list, and their count is its length; fails exactly on an unacceptable choice |
| CategorySync.SyncEntries | app/Services/CategorySyncService.php:123-134 | the field count is the number of list entries with an `attribute`; a list without such entries changes nothing |
| CategorySync.SyncGroup | app/Services/CategorySyncService.php:101-118 | a group is skipped for a non-numeric or common key, an unknown category, or no `flatFields` list; a kept group counts its field entries |
| CategorySync.SyncGroupKept | app/Services/CategorySyncService.php:107-124 | a kept group's entries are synced into the first category carrying its key |
| CategorySync.SyncGroups | app/Services/CategorySyncService.php:101-141 | groups leave categories and ads untouched and keep the invariant; the field count is the number of field entries in the kept groups |
| CategorySync.IdColumn | app/Services/CategorySyncService.php:38 | one id per record that has one |
| CategorySync.SyncAll | app/Services/CategorySyncService.php:21-61 | fails when a record has no `id`; counts every record; stores every record's external id; keeps the invariant; the field count is that of the kept groups |
| CategorySync.FieldsResponse | app/Services/CategorySyncService.php:42 | a failed fields request becomes a sync failure with its message |
| CategorySync.SyncAllSkipsFetch | app/Services/CategorySyncService.php:41-46 | without records the fields response is never used and the store is unchanged |
| CategorySync.SyncAllFetchFailure | app/Services/CategorySyncService.php:30-60 | a failed fields request aborts the pass and rolls the store back |
| CategorySync.Commit | app/Services/CategorySyncService.php:30-60 | a failed pass leaves the store it started from; a successful one commits its own store |
| CategorySync.SyncAllNoDuplicateOptions | app/Services/CategorySyncService.php:21-61 | after a successful pass no field has two options with one external id, however often the pass ran before |
| CategorySync.SyncAllAtomic | app/Services/CategorySyncService.php:30-60 | the committed store is the input one after a failure, and one keeping the invariant with every record's id after a success |
| FieldValueResource.LabelsOf | app/Http/Resources/AdFieldValueResource.php:43 | the labels of the options, one per option, in order |
| FieldValueResource.ListsId | app/Http/Resources/AdFieldValueResource.php:41 | an id listed as an integer is matched, and every matched id is one that some listed item casts to with `(int)` |
| FieldValueResource.CheckedOptions | app/Http/Resources/AdFieldValueResource.php:40-42 | exactly the field's options the array lists, each at most as often as stored, by `order` |
| FieldValueResource.DisplayValue | app/Http/Resources/AdFieldValueResource.php:29-53 | option label for select/radio, the checked labels (or none for a non-array) for checkbox, a formatted date unless null, the value itself otherwise |
| FieldValueResource.CheckboxDisplay | app/Http/Resources/AdFieldValueResource.php:38-45 | a non-array value shows no labels; an array shows exactly the labels of the field's options it lists |
| FieldValueResource.ChoiceDisplay | app/Http/Resources/AdFieldValueResource.php:34-36 | an option triple shows its label; anything else shows itself |
| FieldValueResource.ToArray | app/Http/Resources/AdFieldValueResource.php:15-24 | the field's name, label and type, the value `getValue` gives, and its display form |
| FieldValueResource.ChoiceShowsLabel | app/Http/Resources/AdFieldValueResource.php:34-36 | a saved option id displays that option's label |
| FieldValueResource.CheckboxShowsCheckedLabels | app/Http/Resources/AdFieldValueResource.php:38-45 | a saved array of ids displays exactly the labels of the field's listed options, in option order |
| FieldValueResource.CheckboxNullShowsNothing | app/Http/Resources/AdFieldValueResource.php:38-45 | a checkbox saved as null reads back `[null]` and displays no labels |
| FieldValueResource.DateDisplay | app/Http/Resources/AdFieldValueResource.php:47-48 | a null date displays null; a stored one is formatted |
| FieldValueResource.PlainDisplay | app/Http/Resources/AdFieldValueResource.php:50-51 | text-like values display as themselves |
| Ads.IsActive | app/Models/Ad.php:94-101 | only an `active` ad can be active; no ad is active at or after its expiry; an active ad without expiry always is |
| Ads.ActiveAds | app/Models/Ad.php:94-101 | exactly the ads with status `active` and no expiry or one after `now`, with multiplicity |
| Ads.InCategory | app/Models/Ad.php:106-109 | exactly the ads of that category |
| Ads.ByUser | app/Models/Ad.php:114-117 | exactly the ads of that user |
| Ads.ExpiryBoundary | app/Models/Ad.php:94-101 | an ad is active just before its expiry and never at or after it |
| Ads.ScopesCommute | app/Models/Ad.php:94-109 | active ads of a category are the category's ads that are active |
| Ads.IncrementViews | app/Models/Ad.php:122-125 | that ad's counter goes up by one and nothing else changes |
| Ads.IncrementViewsProps | app/Models/Ad.php:122-125 | viewing keeps the invariants, two views count two, and the number of active ads is unchanged |
| Ads.FieldOf | app/Models/AdFieldValue.php:44-47 | the row's field, or none exactly when no field has its id |
| Ads.ValuesOf | app/Models/Ad.php:53-56 | exactly the ad's value rows |
| Ads.Entries | app/Models/Ad.php:76-89 | one entry per name that some row's field carries |
| Ads.DynamicFields | app/Models/Ad.php:76-89 | the names are exactly those of the fields of the ad's value rows |
| Ads.EntriesLastWins | app/Models/Ad.php:80-86 | the entry under a name is that of the last row carrying it |
| Ads.GetFieldValue | app/Models/Ad.php:61-71 | null when no value row of the ad has a field of that name; otherwise the value of the first such row |
| Ads.GetFieldValueAgrees | app/Models/Ad.php:61-89 | with one row carrying a name, `getFieldValue` and `dynamic_fields` agree on it |
| Ads.FirstReadLastListed | app/Models/Ad.php:61-89 | with two rows carrying a name, `getFieldValue` reads the first and `dynamic_fields` keeps the last, so they disagree whenever the two values differ |
| AdService.ServiceKey | app/Services/AdService.php:143-154 | equals the canonical key of the new-ad request for every field |
| AdService.Normalize | app/Services/AdService.php:107-110 | null exactly for null or a string that trims to nothing; every other value is kept |
| AdService.SaveField | app/Services/AdService.php:113-129 | the pair's row, found or appended, holds the set columns; no other row changes, and no row changes id or pair |
| AdService.SaveFieldKeepsValid | app/Services/AdService.php:113-119 | saving keeps the invariants, and every row of the pair holds the set columns |
| AdService.SaveFields | app/Services/AdService.php:96-130 | only rows of supplied fields of this ad change; none is removed; new rows belong to supplied fields of this ad |
| AdService.SaveFieldsKeepsValid | app/Services/AdService.php:96-130 | the loop keeps the invariants |
| AdService.SaveFieldsWrites | app/Services/AdService.php:96-130 | every supplied field gets a row holding its normalised value |
| AdService.SaveDynamicFields | app/Services/AdService.php:86-138 | nothing is saved when the category cannot be loaded; other ads' rows and unsupplied fields' rows are untouched; the invariants are kept |
| AdService.SaveDynamicFieldsWrites | app/Services/AdService.php:113-119 | each supplied field ends with a row of its normalised value, and each pair has exactly one row |
| AdService.IgnoredKeys | app/Services/AdService.php:96-103 | payload keys that are no field's key change nothing |
| AdService.ExplicitNullKeepsRow | app/Services/AdService.php:125-129 | an explicit null or blank string keeps the row, written through `setValue(null)`: all NULL for text-like, date and option types, 0 for a number, `[null]` for a checkbox |
| AdService.ApplyPatch | app/Services/AdService.php:58-63 | each given column overwrites the ad's, each missing one is kept |
| AdService.PatchAds | app/Services/AdService.php:58-63 | the rows with the ad's id get the patch, all others stay as they were, and no row changes id, owner or category |
| AdService.UpdateAd | app/Services/AdService.php:53-78 | only the updated ad changes among the ads; without field data the values are untouched; the invariants are kept |
| AdService.InsertAd | app/Services/AdService.php:23-31 | the new ad takes the next id and the invariants are kept |
| AdService.CreateAd | app/Services/AdService.php:18-48 | a new active, unviewed ad published at `now` in the given category; only its own value rows are written |

## Left out

- HTTP fetches, the response cache, logging and the metadata JSON columns are not modelled. The fetched category records and the fields response are inputs.
- CategorySync.SyncAll: the fields response is a plain input, not a function of the collected ids, so the model does not say which ids the request names.
- CategorySync.SyncAll: the transaction is modelled as "a failure commits nothing" (`Commit`); the rethrow is the `Failure` result.
- Upstream slots hold strings, integers or booleans already converted to the receiving column's type. A slot of another type, the database's own coercion of it, and a `fields` response entry of another shape are not modelled.
- `Str::slug` is a function parameter, and Carbon date parsing and formatting is the opaque `FormattedDate` display.
- Floats are not modelled: prices are opaque decimal text, and the `decimal` and `boolean` value columns are never written.
- Laravel's validator is only evaluated for `required`. What `email`, `url`, `date`, `numeric`, `min`, `max`, `in` and `exists` accept is not modelled, and wildcard paths such as `fields.x.*` are never expanded.
- StoreAdRequest.RequestCategory: a `category_id` that is neither an integer nor a string of decimal digits finds no category, and validation goes on. PHP would also accept forms such as `" 7"` or `"7.0"`. A non-empty list is worse: `find` then returns a collection, which is truthy, and reading its `fields` throws, so the source answers with a server error before any validation. The model does not represent that failure.
- StoreAdRequest.Lookup: a `fields` entry holding an object, and `*` or an escaped `.` inside a payload key, are not modelled; payload values are null, booleans, integers, strings and lists.
- Php.ToInt: `(int)` of a string reads the leading digits only. The exponent and fraction forms PHP 8 also reads are not modelled, and neither is the saturation at the 64-bit limits: integers are unbounded.
- FieldValues.RoundTripText: `value_date` has the `date` cast (app/Models/AdFieldValue.php:28). Writing goes through date parsing, which throws on an unparsable string, and reading gives a date at the start of the day rather than the submitted text. Dates are opaque values here, so the round trip holds for the value as written.
- FieldValues.RoundTripNumber: integers are unbounded. PHP's 64-bit `(int)` and the 32-bit `value_integer` column (app/Models/AdFieldValue.php:114, ad_field_values migration line 21), which refuses an out-of-range write, are not modelled, so the round trip is promised for every integer.
- FieldValueResource.ListsId: `whereIn('id', ...)` matches an integer id or its decimal string only, not other spellings the database would coerce.
- Ads.GetFieldValue: neither `first()` nor the `fieldValues` relation orders its rows, so the database may return them in any order. The model reads the rows in table (primary-key) order, which decides the first match and the last entry.
- Ads.Entries: a value row whose field no longer exists contributes nothing. The source would fail on the missing relation.
- Ads.IncrementViews: does not model the 32-bit unsigned limit of `views_count`, because the column's overflow is a database error outside the model.
- Schema.Valid: foreign-key existence is not part of the invariant. A value row may name an ad, field or option that no longer exists; the cascade and set-null deletes are modelled instead.
- AdService.SaveField: the option id of a select or radio is written as given. The database would refuse an id with no option and roll the transaction back; the model records the id.
- UpdateAdRequest.Authorize: user ids are plain numbers, so PHP's strict `===` between differently typed ids is not modelled.
- `deleteAd` is a soft delete, which does not trigger the database cascade. Schema.DeleteAd models the cascade of a hard delete, as the migration declares it.
- The `attributes()`, `messages()` and `getValidatedFields()` helpers of the requests only shape messages. They are not modelled.
- The HTTP controller, policies, seeders, console commands and routes are not modelled. They are outside the engine.

=== FILE: ad_service.dfy ===
/**
 * Persisting an ad's dynamic values: the payload keyed by canonical field
 * keys is folded over the fields of the ad's category, each supplied value is
 * normalised and written through `setValue` into the one row of its
 * (ad, field) pair. Also the creation and update of the ad row around it.
 */
module AdService {
  import opened Wrappers
  import opened Php
  import opened FieldTypes
  import opened Tables
  import opened Schema
  import opened Taxonomy
  import opened FieldValues
  import StoreAdRequest

  /** `getFieldKey`: external id if non-empty, else name if non-empty, else
      the id as a string. It is the key the new-ad request validates under. */
  function ServiceKey(f: CategoryField): (k: string)
    ensures k == StoreAdRequest.CanonicalKey(f)
  {
    if Truthy(f.externalId) then f.externalId
    else if Truthy(f.name) then f.name
    else NatToString(f.id)
  }

  /** A string that trims to nothing becomes null; everything else is kept. */
  function Normalize(v: Json): (r: Json)
    ensures r == JNull <==> v == JNull || (v.JStr? && IsBlank(v.s))
    ensures r != JNull ==> r == v
  {
    if v.JStr? && IsBlank(v.s) then JNull else v
  }

  /** Some row of the table holds `cols` for the pair. */
  predicate HoldsValue(values: seq<ValueRow>, adId: nat, fieldId: nat, cols: Columns) {
    exists i :: 0 <= i < |values| && ValuePair(values[i]) == (adId, fieldId) && values[i].cols == cols
  }

  function PairIs(adId: nat, fieldId: nat): ValueRow -> bool {
    (row: ValueRow) => ValuePair(row) == (adId, fieldId)
  }

  /** `updateOrCreate` on the pair, then `setValue` and `save`: the pair's row
      (found or appended) ends up holding the set columns; every other row is
      left alone. */
  function SaveField(s: Store, adId: nat, f: CategoryField, v: Json): (r: Store)
    ensures r == s.(values := r.values, nextValue := r.nextValue)
    ensures |r.values| >= |s.values|
    ensures forall i :: 0 <= i < |s.values| ==>
      ValuePair(r.values[i]) == ValuePair(s.values[i]) && r.values[i].id == s.values[i].id
    ensures forall i :: 0 <= i < |s.values| && ValuePair(s.values[i]) != (adId, f.id) ==> r.values[i] == s.values[i]
    ensures forall i :: |s.values| <= i < |r.values| ==> ValuePair(r.values[i]) == (adId, f.id)
    ensures HoldsValue(r.values, adId, f.id, SetValue(f.fieldType, v))
  {
    var cols := SetValue(f.fieldType, v);
    var p := PairIs(adId, f.id);
    var created := ValueRow(s.nextValue, adId, f.id, cols);
    match FindFirst(s.values, p)
    case Some(i) =>
      var r := s.(values := Upsert(s.values, p, WithColumns(cols), created));
      assert r.values[i] == s.values[i].(cols := cols);
      r
    case None =>
      var r := s.(values := Upsert(s.values, p, WithColumns(cols), created), nextValue := s.nextValue + 1);
      assert r.values[|s.values|] == created;
      r
  }

  function WithColumns(cols: Columns): ValueRow -> ValueRow {
    (row: ValueRow) => row.(cols := cols)
  }

  /** Saving a value keeps the database invariants, and the pair's single row
      holds the set columns. */
  lemma SaveFieldKeepsValid(s: Store, adId: nat, f: CategoryField, v: Json)
    requires Valid(s)
    ensures var r := SaveField(s, adId, f, v);
      && Valid(r)
      && forall i :: 0 <= i < |r.values| && ValuePair(r.values[i]) == (adId, f.id) ==>
        r.values[i].cols == SetValue(f.fieldType, v)
  {
    var cols := SetValue(f.fieldType, v);
    var p := PairIs(adId, f.id);
    var created := ValueRow(s.nextValue, adId, f.id, cols);
    var r := SaveField(s, adId, f, v);
    assert r.values == Upsert(s.values, p, WithColumns(cols), created);
    UpsertKeepsIds(s.values, ValueId, s.nextValue, p, WithColumns(cols), created);
    UpsertKeepsKeysUnique(s.values, ValuePair, (adId, f.id), p, WithColumns(cols), created);
  }

  /** Whether some field of `fs` with that id has its key in the payload. */
  predicate Supplied(fs: seq<CategoryField>, payload: map<string, Json>, fieldId: nat) {
    exists j :: 0 <= j < |fs| && fs[j].id == fieldId && ServiceKey(fs[j]) in payload
  }

  /** The loop of `saveDynamicFields` over the fields `fs`: a field whose key
      the payload lacks is skipped; otherwise its normalised value is saved.
      Only rows of supplied fields of this ad change, none is removed, and
      new rows belong to supplied fields of this ad. */
  function SaveFields(s: Store, adId: nat, fs: seq<CategoryField>, payload: map<string, Json>): (r: Store)
    ensures r == s.(values := r.values, nextValue := r.nextValue)
    ensures |r.values| >= |s.values|
    ensures forall i :: 0 <= i < |s.values| ==>
      ValuePair(r.values[i]) == ValuePair(s.values[i]) && r.values[i].id == s.values[i].id
    ensures forall i :: 0 <= i < |s.values| && !(s.values[i].adId == adId && Supplied(fs, payload, s.values[i].fieldId)) ==>
      r.values[i] == s.values[i]
    ensures forall i :: |s.values| <= i < |r.values| ==>
      r.values[i].adId == adId && Supplied(fs, payload, r.values[i].fieldId)
    decreases |fs|
  {
    if |fs| == 0 then s
    else
      var init := fs[..|fs| - 1];
      var f := fs[|fs| - 1];
      var s1 := SaveFields(s, adId, init, payload);
      SuppliedSplit(fs, payload);
      var key := ServiceKey(f);
      if key in payload then SaveField(s1, adId, f, Normalize(payload[key])) else s1
  }

  /** A field id is supplied by a non-empty list when it is supplied by all
      but the last field, or by the last one. */
  lemma SuppliedSplit(fs: seq<CategoryField>, payload: map<string, Json>)
    requires |fs| > 0
    ensures var last := fs[|fs| - 1];
      forall fieldId :: Supplied(fs, payload, fieldId) <==>
        Supplied(fs[..|fs| - 1], payload, fieldId) || (last.id == fieldId && ServiceKey(last) in payload)
  {
    var init := fs[..|fs| - 1];
    var last := fs[|fs| - 1];
    forall fieldId ensures Supplied(fs, payload, fieldId) <==>
      Supplied(init, payload, fieldId) || (last.id == fieldId && ServiceKey(last) in payload)
    {
      if Supplied(init, payload, fieldId) {
        var j :| 0 <= j < |init| && init[j].id == fieldId && ServiceKey(init[j]) in payload;
        assert fs[j] == init[j];
      }
      if Supplied(fs, payload, fieldId) {
        var j :| 0 <= j < |fs| && fs[j].id == fieldId && ServiceKey(fs[j]) in payload;
        if j < |fs| - 1 {
          assert init[j] == fs[j];
        }
      }
    }
  }

  /** The loop keeps the database invariants. */
  lemma {:induction false} SaveFieldsKeepsValid(s: Store, adId: nat, fs: seq<CategoryField>, payload: map<string, Json>)
    requires Valid(s)
    ensures Valid(SaveFields(s, adId, fs, payload))
    decreases |fs|
  {
    if |fs| > 0 {
      var init := fs[..|fs| - 1];
      var f := fs[|fs| - 1];
      SaveFieldsKeepsValid(s, adId, init, payload);
      if ServiceKey(f) in payload {
        SaveFieldKeepsValid(SaveFields(s, adId, init, payload), adId, f, Normalize(payload[ServiceKey(f)]));
      }
    }
  }

  /** After the loop, every supplied field of `fs` (ids unique) has a row
      for this ad holding its normalised value. */
  lemma {:induction false} SaveFieldsWrites(s: Store, adId: nat, fs: seq<CategoryField>, payload: map<string, Json>, j: nat)
    requires KeysUnique(fs, FieldId)
    requires j < |fs| && ServiceKey(fs[j]) in payload
    ensures HoldsValue(SaveFields(s, adId, fs, payload).values, adId, fs[j].id,
                       SetValue(fs[j].fieldType, Normalize(payload[ServiceKey(fs[j])])))
    decreases |fs|
  {
    var init := fs[..|fs| - 1];
    var f := fs[|fs| - 1];
    var s1 := SaveFields(s, adId, init, payload);
    var r := SaveFields(s, adId, fs, payload);
    if j < |fs| - 1 {
      assert init[j] == fs[j];
      assert KeysUnique(init, FieldId) by {
        forall a, b | 0 <= a < b < |init| ensures FieldId(init[a]) != FieldId(init[b]) {
          assert init[a] == fs[a] && init[b] == fs[b];
        }
      }
      SaveFieldsWrites(s, adId, init, payload, j);
      assert FieldId(fs[j]) != FieldId(fs[|fs| - 1]);
      if ServiceKey(f) in payload {
        var cols := SetValue(fs[j].fieldType, Normalize(payload[ServiceKey(fs[j])]));
        var k :| 0 <= k < |s1.values| && ValuePair(s1.values[k]) == (adId, fs[j].id) && s1.values[k].cols == cols;
        assert r.values[k] == s1.values[k];
      }
    }
  }

  /** `saveDynamicFields`: nothing when the ad's category cannot be loaded,
      else the loop over that category's fields in `order`. */
  function SaveDynamicFields(s: Store, ad: Ad, payload: map<string, Json>): (r: Store)
    ensures FindCategory(s, ad.categoryId).None? ==> r == s
    ensures r == s.(values := r.values, nextValue := r.nextValue)
    ensures |r.values| >= |s.values|
    ensures Valid(s) ==> Valid(r)
    ensures forall i :: 0 <= i < |s.values| && s.values[i].adId != ad.id ==> r.values[i] == s.values[i]
    ensures FindCategory(s, ad.categoryId).Some? ==>
      var fs := FieldsOf(s, FindCategory(s, ad.categoryId).value.id);
      forall i :: 0 <= i < |s.values| && !Supplied(fs, payload, s.values[i].fieldId) ==> r.values[i] == s.values[i]
  {
    match FindCategory(s, ad.categoryId)
    case None => s
    case Some(c) =>
      var fs := FieldsOf(s, c.id);
      if Valid(s) then
        SaveFieldsKeepsValid(s, ad.id, fs, payload);
        SaveFields(s, ad.id, fs, payload)
      else
        SaveFields(s, ad.id, fs, payload)
  }

  /** Every field of the ad's category whose canonical key is in the payload
      ends with exactly one row for the ad, holding its normalised value. */
  lemma SaveDynamicFieldsWrites(s: Store, ad: Ad, payload: map<string, Json>, c: Category, f: CategoryField)
    requires Valid(s) && FindCategory(s, ad.categoryId) == Some(c)
    requires f in FieldsOf(s, c.id) && ServiceKey(f) in payload
    ensures var r := SaveDynamicFields(s, ad, payload);
      && HoldsValue(r.values, ad.id, f.id, SetValue(f.fieldType, Normalize(payload[ServiceKey(f)])))
      && forall i, k :: 0 <= i < |r.values| && 0 <= k < |r.values| && i != k ==> ValuePair(r.values[i]) != ValuePair(r.values[k])
  {
    var fs := FieldsOf(s, c.id);
    var r := SaveFields(s, ad.id, fs, payload);
    assert SaveDynamicFields(s, ad, payload) == r;
    var j :| 0 <= j < |fs| && fs[j] == f;
    SaveFieldsWrites(s, ad.id, fs, payload, j);
    SaveFieldsKeepsValid(s, ad.id, fs, payload);
    assert KeysUnique(r.values, ValuePair);
    KeysDistinct(r.values, ValuePair);
  }

  /** Payload keys that are no field's canonical key change nothing. */
  lemma {:induction false} IgnoredKeys(s: Store, adId: nat, fs: seq<CategoryField>, payload: map<string, Json>, key: string, v: Json)
    requires forall f :: f in fs ==> ServiceKey(f) != key
    ensures SaveFields(s, adId, fs, payload[key := v]) == SaveFields(s, adId, fs, payload)
    decreases |fs|
  {
    if |fs| > 0 {
      var init := fs[..|fs| - 1];
      assert forall f :: f in init ==> f in fs;
      IgnoredKeys(s, adId, init, payload, key, v);
      assert fs[|fs| - 1] in fs;
    }
  }

  /** An explicit null is written, not deleted: the row stays, with the
      columns `setValue(null)` gives (all NULL for text-like types, 0 for a
      number, `[null]` for a checkbox). A blank string counts as null. */
  lemma ExplicitNullKeepsRow(s: Store, adId: nat, f: CategoryField, blank: string)
    requires IsBlank(blank)
    ensures Normalize(JStr(blank)) == JNull
    ensures var r := SaveField(s, adId, f, Normalize(JStr(blank)));
      && |r.values| >= |s.values|
      && HoldsValue(r.values, adId, f.id, SetValue(f.fieldType, JNull))
    ensures f.fieldType in {Text, Textarea, Email, Url, Date, Select, Radio} ==> SetValue(f.fieldType, JNull) == NoColumns
    ensures f.fieldType == Number ==> SetValue(f.fieldType, JNull).integer == Some(0)
    ensures f.fieldType == Checkbox ==> SetValue(f.fieldType, JNull).json == Some([JNull])
  {
  }

  // ---------------------------------------------------------------------------
  // The ad row
  // ---------------------------------------------------------------------------

  /** The listing columns an update may set; `None` leaves a column as it is. */
  datatype AdPatch = AdPatch(title: Option<string>, description: Option<string>, price: Option<string>, status: Option<string>)

  function ApplyPatch(a: Ad, p: AdPatch): (r: Ad)
    ensures r == a.(title := r.title, description := r.description, price := r.price, status := r.status)
    ensures p.title.Some? ==> r.title == p.title.value
    ensures p.title.None? ==> r.title == a.title
    ensures p.description.Some? ==> r.description == p.description.value
    ensures p.description.None? ==> r.description == a.description
    ensures p.price.Some? ==> r.price == p.price
    ensures p.price.None? ==> r.price == a.price
    ensures p.status.Some? ==> r.status == p.status.value
    ensures p.status.None? ==> r.status == a.status
  {
    a.(title := p.title.GetOr(a.title),
       description := p.description.GetOr(a.description),
       price := if p.price.Some? then p.price else a.price,
       status := p.status.GetOr(a.status))
  }

  /** `updateAd`: the non-null listing columns overwrite the ad's, and the
      dynamic values are saved only when field data was given. */
  function UpdateAd(s: Store, ad: Ad, patch: AdPatch, fieldData: Option<map<string, Json>>): (r: Store)
    ensures r.categories == s.categories && r.fields == s.fields && r.options == s.options
    ensures |r.ads| == |s.ads|
    ensures forall i :: 0 <= i < |s.ads| ==>
      r.ads[i] == if s.ads[i].id == ad.id then ApplyPatch(s.ads[i], patch) else s.ads[i]
    ensures fieldData.None? ==> r.values == s.values
    ensures Valid(s) ==> Valid(r)
  {
    var s1 := s.(ads := PatchAds(s.ads, ad.id, patch));
    PatchKeepsValid(s, ad.id, patch);
    match fieldData
    case None => s1
    case Some(payload) => SaveDynamicFields(s1, ApplyPatch(ad, patch), payload)
  }

  /** The ads table with the patch applied to the rows of one id. */
  function PatchAds(ads: seq<Ad>, adId: nat, patch: AdPatch): (r: seq<Ad>)
    ensures |r| == |ads|
    ensures forall i :: 0 <= i < |ads| ==> r[i] == if ads[i].id == adId then ApplyPatch(ads[i], patch) else ads[i]
    ensures forall i :: 0 <= i < |ads| ==>
      r[i].id == ads[i].id && r[i].userId == ads[i].userId && r[i].categoryId == ads[i].categoryId
  {
    seq(|ads|, i requires 0 <= i < |ads| => if ads[i].id == adId then ApplyPatch(ads[i], patch) else ads[i])
  }

  /** Patching keeps the ids of the ads table, and so the invariants. */
  lemma PatchKeepsValid(s: Store, adId: nat, patch: AdPatch)
    ensures Valid(s) ==> Valid(s.(ads := PatchAds(s.ads, adId, patch)))
  {
    var ads := PatchAds(s.ads, adId, patch);
    assert forall i :: 0 <= i < |ads| ==> AdId(ads[i]) == AdId(s.ads[i]);
  }

  /** The insert of a new ad row under the next auto-increment id. */
  function InsertAd(s: Store, ad: Ad): (r: Store)
    requires ad.id == s.nextAd
    ensures r.ads == s.ads + [ad] && r.nextAd == s.nextAd + 1
    ensures r == s.(ads := r.ads, nextAd := r.nextAd)
    ensures Valid(s) ==> Valid(r)
  {
    var r := s.(ads := s.ads + [ad], nextAd := s.nextAd + 1);
    assert forall i :: 0 <= i < |s.ads| ==> r.ads[i] == s.ads[i];
    r
  }

  /** `createAd`: a new active ad, published at `now`, never viewed, then its
      dynamic values saved. */
  function CreateAd(s: Store, userId: nat, category: Category, title: string, description: string,
                    price: Option<string>, now: int, fieldData: map<string, Json>): (r: (Store, Ad))
    ensures r.1.id == s.nextAd && r.1.userId == userId && r.1.categoryId == category.id
    ensures r.1.status == "active" && r.1.publishedAt == Some(now) && r.1.expiresAt.None? && r.1.viewsCount == 0
    ensures r.0.ads == s.ads + [r.1]
    ensures r.0.categories == s.categories && r.0.fields == s.fields && r.0.options == s.options
    ensures Valid(s) ==> Valid(r.0)
    ensures |r.0.values| >= |s.values|
    ensures forall i :: 0 <= i < |s.values| && s.values[i].adId != s.nextAd ==> r.0.values[i] == s.values[i]
  {
    var ad := Ad(s.nextAd, userId, category.id, title, description, price, "active", Some(now), None, 0);
    var s1 := InsertAd(s, ad);
    (SaveDynamicFields(s1, ad, fieldData), ad)
  }
}

=== FILE: ads.dfy ===
/**
 * The read side of an ad: its listing scopes, the view counter, and its
 * dynamic values read back by field name.
 */
module Ads {
  import opened Wrappers
  import opened FieldTypes
  import opened Tables
  import opened Schema
  import opened FieldValues

  /** The `active` scope: status `active` and no expiry, or one still ahead
      of `now`. */
  predicate IsActive(ad: Ad, now: int)
    ensures ad.status != "active" ==> !IsActive(ad, now)
    ensures ad.expiresAt.Some? && now >= ad.expiresAt.value ==> !IsActive(ad, now)
    ensures ad.status == "active" && ad.expiresAt.None? ==> IsActive(ad, now)
  {
    ad.status == "active" && (ad.expiresAt.None? || ad.expiresAt.value > now)
  }

  /** `Ad::active()`: the active ads in table order. */
  function ActiveAds(s: Store, now: int): (r: seq<Ad>)
    ensures forall a :: a in r <==> a in s.ads && a.status == "active" && (a.expiresAt.None? || a.expiresAt.value > now)
    ensures forall a :: multiset(r)[a] == if IsActive(a, now) then multiset(s.ads)[a] else 0
  {
    Filter(s.ads, (a: Ad) => IsActive(a, now))
  }

  /** `Ad::inCategory($categoryId)`. */
  function InCategory(s: Store, categoryId: nat): (r: seq<Ad>)
    ensures forall a :: a in r <==> a in s.ads && a.categoryId == categoryId
    ensures forall a :: multiset(r)[a] == if a.categoryId == categoryId then multiset(s.ads)[a] else 0
  {
    Filter(s.ads, (a: Ad) => a.categoryId == categoryId)
  }

  /** `Ad::byUser($userId)`. */
  function ByUser(s: Store, userId: nat): (r: seq<Ad>)
    ensures forall a :: a in r <==> a in s.ads && a.userId == userId
    ensures forall a :: multiset(r)[a] == if a.userId == userId then multiset(s.ads)[a] else 0
  {
    Filter(s.ads, (a: Ad) => a.userId == userId)
  }

  /** An ad expires at the instant its expiry is reached: it is active just
      before and not at or after it. */
  lemma ExpiryBoundary(ad: Ad, t: int)
    requires ad.status == "active" && ad.expiresAt == Some(t)
    ensures IsActive(ad, t - 1)
    ensures forall now :: now >= t ==> !IsActive(ad, now)
  {
  }

  /** Combined scopes commute: active ads of a category are the category's
      ads that are active. */
  lemma ScopesCommute(s: Store, categoryId: nat, now: int)
    ensures forall a :: a in ActiveAds(s, now) && a.categoryId == categoryId <==> a in InCategory(s, categoryId) && IsActive(a, now)
  {
  }

  /** `incrementViews`: that ad's counter goes up by one; nothing else
      changes. */
  function IncrementViews(s: Store, adId: nat): (r: Store)
    ensures r == s.(ads := r.ads)
    ensures |r.ads| == |s.ads|
    ensures forall i :: 0 <= i < |s.ads| && s.ads[i].id == adId ==>
      r.ads[i] == s.ads[i].(viewsCount := s.ads[i].viewsCount + 1)
    ensures forall i :: 0 <= i < |s.ads| && s.ads[i].id != adId ==> r.ads[i] == s.ads[i]
  {
    s.(ads := seq(|s.ads|, i requires 0 <= i < |s.ads| =>
      if s.ads[i].id == adId then s.ads[i].(viewsCount := s.ads[i].viewsCount + 1) else s.ads[i]))
  }

  /** Viewing keeps the invariants, counts every view, and leaves the
      listing scopes as they were. */
  lemma IncrementViewsProps(s: Store, adId: nat, now: int)
    ensures Valid(s) ==> Valid(IncrementViews(s, adId))
    ensures var r := IncrementViews(IncrementViews(s, adId), adId);
      forall i :: 0 <= i < |s.ads| && s.ads[i].id == adId ==> r.ads[i].viewsCount == s.ads[i].viewsCount + 2
    ensures |ActiveAds(IncrementViews(s, adId), now)| == |ActiveAds(s, now)|
  {
    IncrementViewsKeepsValid(s, adId);
    var r := IncrementViews(s, adId);
    FilterLengthOnSameVerdicts(s.ads, r.ads, (a: Ad) => IsActive(a, now));
  }

  lemma IncrementViewsKeepsValid(s: Store, adId: nat)
    ensures Valid(s) ==> Valid(IncrementViews(s, adId))
  {
    var r := IncrementViews(s, adId);
    assert forall i :: 0 <= i < |s.ads| ==> AdId(r.ads[i]) == AdId(s.ads[i]);
  }

  /** Two tables whose rows agree pointwise on `p` keep the same number of
      rows under `p`. */
  lemma {:induction false} FilterLengthOnSameVerdicts<R(!new)>(xs: seq<R>, ys: seq<R>, p: R -> bool)
    requires |xs| == |ys| && forall i :: 0 <= i < |xs| ==> p(xs[i]) == p(ys[i])
    ensures |Filter(xs, p)| == |Filter(ys, p)|
  {
    if |xs| > 0 {
      FilterLengthOnSameVerdicts(xs[1..], ys[1..], p);
      assert Filter(xs, p) == (if p(xs[0]) then [xs[0]] else []) + Filter(xs[1..], p);
      assert Filter(ys, p) == (if p(ys[0]) then [ys[0]] else []) + Filter(ys[1..], p);
    }
  }

  // ---------------------------------------------------------------------------
  // Dynamic values of one ad
  // ---------------------------------------------------------------------------

  /** The `categoryField` relation of a value row. */
  function FieldOf(s: Store, row: ValueRow): (r: Option<CategoryField>)
    ensures r.Some? ==> r.value in s.fields && r.value.id == row.fieldId
    ensures r.None? <==> forall f :: f in s.fields ==> f.id != row.fieldId
  {
    match FindFirst(s.fields, (f: CategoryField) => f.id == row.fieldId)
    case None => None
    case Some(i) => Some(s.fields[i])
  }

  /** `Ad::fieldValues`: the ad's value rows in table order. */
  function ValuesOf(s: Store, adId: nat): (r: seq<ValueRow>)
    ensures forall v :: v in r <==> v in s.values && v.adId == adId
  {
    Filter(s.values, (v: ValueRow) => v.adId == adId)
  }

  /** Whether a row's field exists and carries that name. */
  predicate NamedRow(s: Store, row: ValueRow, name: string) {
    FieldOf(s, row).Some? && FieldOf(s, row).value.name == name
  }

  /** One entry of `dynamic_fields`. */
  datatype Entry = Entry(labelText: string, value: Value, fieldType: string)

  function EntryOf(s: Store, row: ValueRow, f: CategoryField): Entry {
    Entry(f.labelText, GetValue(f.fieldType, row.cols, s.options), Name(f.fieldType))
  }

  /** Some row of `rows` has a field carrying that name. */
  predicate HasNamedRow(s: Store, rows: seq<ValueRow>, name: string) {
    exists v :: v in rows && NamedRow(s, v, name)
  }

  /** `getDynamicFieldsAttribute` over the rows `rows`: keyed by field name,
      a later row overwriting an earlier one of the same name. Rows whose
      field no longer exists contribute nothing. */
  function Entries(s: Store, rows: seq<ValueRow>): (r: map<string, Entry>)
    ensures forall name :: name in r <==> HasNamedRow(s, rows, name)
    decreases |rows|
  {
    if |rows| == 0 then map[]
    else
      var init := rows[..|rows| - 1];
      var last := rows[|rows| - 1];
      var before := Entries(s, init);
      NamedRowSplit(s, rows);
      match FieldOf(s, last)
      case None => before
      case Some(f) => before[f.name := EntryOf(s, last, f)]
  }

  /** A name is carried by a non-empty list of rows when it is carried by
      all but the last row, or by the last one. */
  lemma NamedRowSplit(s: Store, rows: seq<ValueRow>)
    requires |rows| > 0
    ensures forall name :: HasNamedRow(s, rows, name) <==>
      HasNamedRow(s, rows[..|rows| - 1], name) || NamedRow(s, rows[|rows| - 1], name)
  {
    var init := rows[..|rows| - 1];
    assert rows == init + [rows[|rows| - 1]];
    forall name ensures HasNamedRow(s, rows, name) <==> HasNamedRow(s, init, name) || NamedRow(s, rows[|rows| - 1], name) {
      if NamedRow(s, rows[|rows| - 1], name) {
        assert rows[|rows| - 1] in rows;
      }
    }
  }

  /** The `dynamic_fields` attribute of an ad. */
  function DynamicFields(s: Store, adId: nat): (r: map<string, Entry>)
    ensures forall name :: name in r <==> exists v :: v in s.values && v.adId == adId && NamedRow(s, v, name)
  {
    Entries(s, ValuesOf(s, adId))
  }

  /** The entry under a name is that of the last row carrying the name. */
  lemma {:induction false} EntriesLastWins(s: Store, rows: seq<ValueRow>, k: nat)
    requires k < |rows| && FieldOf(s, rows[k]).Some?
    requires forall j :: k < j < |rows| ==> !NamedRow(s, rows[j], FieldOf(s, rows[k]).value.name)
    ensures var f := FieldOf(s, rows[k]).value;
      f.name in Entries(s, rows) && Entries(s, rows)[f.name] == EntryOf(s, rows[k], f)
    decreases |rows|
  {
    var f := FieldOf(s, rows[k]).value;
    var init := rows[..|rows| - 1];
    if k < |rows| - 1 {
      assert init[k] == rows[k];
      forall j | k < j < |init| ensures !NamedRow(s, init[j], f.name) {
        assert init[j] == rows[j];
      }
      EntriesLastWins(s, init, k);
      assert !NamedRow(s, rows[|rows| - 1], f.name);
    }
  }

  /** `getFieldValue`: the first of the ad's rows whose field has that name,
      read back through `getValue`; null when there is none. */
  function GetFieldValue(s: Store, adId: nat, name: string): (r: Value)
    ensures (forall v :: v in s.values && v.adId == adId ==> !NamedRow(s, v, name)) ==> r == NullValue
    ensures var rows := ValuesOf(s, adId);
      forall i :: 0 <= i < |rows| && NamedRow(s, rows[i], name) && (forall j :: 0 <= j < i ==> !NamedRow(s, rows[j], name)) ==>
        r == GetValue(FieldOf(s, rows[i]).value.fieldType, rows[i].cols, s.options)
  {
    var rows := ValuesOf(s, adId);
    match FindFirst(rows, (v: ValueRow) => NamedRow(s, v, name))
    case None => NullValue
    case Some(i) =>
      assert rows[i] in rows;
      FindFirstUnique(rows, (v: ValueRow) => NamedRow(s, v, name), i);
      var f := FieldOf(s, rows[i]).value;
      GetValue(f.fieldType, rows[i].cols, s.options)
  }

  /** When only one of the ad's rows carries a name, `getFieldValue` and
      `dynamic_fields` agree on it. */
  lemma GetFieldValueAgrees(s: Store, adId: nat, name: string, k: nat)
    requires var rows := ValuesOf(s, adId);
      k < |rows| && NamedRow(s, rows[k], name)
      && forall j :: 0 <= j < |rows| && j != k ==> !NamedRow(s, rows[j], name)
    ensures name in DynamicFields(s, adId)
    ensures DynamicFields(s, adId)[name].value == GetFieldValue(s, adId, name)
  {
    var rows := ValuesOf(s, adId);
    EntriesLastWins(s, rows, k);
  }

  /** The value a row holds, read through its field's type. */
  function RowValue(s: Store, row: ValueRow): Value
    requires FieldOf(s, row).Some?
  {
    GetValue(FieldOf(s, row).value.fieldType, row.cols, s.options)
  }

  /** When two of the ad's rows carry one name, `getFieldValue` reads the
      first and `dynamic_fields` keeps the last, so the two disagree as soon
      as those rows hold different values. */
  lemma FirstReadLastListed(s: Store, adId: nat, name: string, i: nat, k: nat)
    requires var rows := ValuesOf(s, adId);
      && i < k < |rows| && NamedRow(s, rows[i], name) && NamedRow(s, rows[k], name)
      && (forall j :: 0 <= j < i ==> !NamedRow(s, rows[j], name))
      && (forall j :: k < j < |rows| ==> !NamedRow(s, rows[j], name))
    ensures var rows := ValuesOf(s, adId);
      && GetFieldValue(s, adId, name) == RowValue(s, rows[i])
      && name in DynamicFields(s, adId)
      && DynamicFields(s, adId)[name].value == RowValue(s, rows[k])
      && (RowValue(s, rows[i]) != RowValue(s, rows[k]) ==> DynamicFields(s, adId)[name].value != GetFieldValue(s, adId, name))
  {
    var rows := ValuesOf(s, adId);
    EntriesLastWins(s, rows, k);
  }
}

=== FILE: category_field.dfy ===
/**
 * What a category field says about itself: whether it takes options, whether
 * it takes several, and the rule list `CategoryField::getValidationRules`
 * derives from it.
 */
module CategoryFieldRules {
  import opened Wrappers
  import opened Php
  import opened FieldTypes
  import opened Schema
  import opened RuleTokens
  import CategorySync

  /** The type names `hasOptions` lists. */
  const OptionTypeNames: seq<string> := ["select", "radio", "checkbox"]

  /** `hasOptions`: the stored type name is one of select, radio, checkbox. */
  function HasOptions(t: FieldType): (r: bool)
    ensures r <==> t == Select || t == Radio || t == Checkbox
  {
    FromNameOfName(t);
    Name(t) in OptionTypeNames
  }

  /** `isMultiple`: the stored type name is checkbox. */
  function IsMultiple(t: FieldType): (r: bool)
    ensures r <==> t == Checkbox
  {
    FromNameOfName(t);
    Name(t) == "checkbox"
  }

  /** A field taking several values takes options. */
  lemma MultipleHasOptions(t: FieldType)
    ensures IsMultiple(t) ==> HasOptions(t)
    ensures HasOptions(t) && !IsMultiple(t) <==> t == Select || t == Radio
  {
  }

  /** The type rule of `getValidationRules`: one token for each of the nine
      enum types, none for any other type. */
  function ModelTypeTokens(t: FieldType, fieldId: nat): (r: seq<RuleToken>)
    ensures |r| <= 1
    ensures |r| == 1 <==> InEnum(t)
    ensures forall i :: 0 <= i < |r| ==> (r[i].ExistsOption? <==> HasOptions(t) && !IsMultiple(t))
    ensures forall i :: 0 <= i < |r| && r[i].ExistsOption? ==> r[i].fieldId == fieldId
  {
    match t
    case Text => [StringRule]
    case Textarea => [StringRule]
    case Number => [IntegerRule]
    case Email => [EmailRule]
    case Url => [UrlRule]
    case Date => [DateRule]
    case Select => [ExistsOption(fieldId)]
    case Radio => [ExistsOption(fieldId)]
    case Checkbox => [ArrayRule]
    case Other(_) => []
  }

  /** `getValidationRules`: `required` or `nullable`, then at most one type
      token, then the field's own rules in their written order. */
  function GetValidationRules(f: CategoryField): (r: seq<RuleToken>)
    ensures |r| >= 1
    ensures r[0] == Required <==> f.isRequired
    ensures r[0] == Required || r[0] == Nullable
    ensures var custom := CustomTokens(f.validationRules);
      var k := |r| - |custom|;
      && k == (if InEnum(f.fieldType) then 2 else 1)
      && r[k..] == custom
    ensures forall i :: 0 <= i < |r| && r[i] == Nullable ==> i == 0 || r[i] in CustomTokens(f.validationRules)
    ensures forall i :: 1 <= i < |r| && r[i].ExistsOption? ==> r[i].fieldId == f.id
  {
    var base := if f.isRequired then Required else Nullable;
    var mid := ModelTypeTokens(f.fieldType, f.id);
    var custom := CustomTokens(f.validationRules);
    Concat3(base, mid, custom);
    [base] + mid + custom
  }

  /** Indexing into `[a] + mid + tail`. */
  lemma Concat3<T>(a: T, mid: seq<T>, tail: seq<T>)
    ensures var r := [a] + mid + tail;
      && |r| == 1 + |mid| + |tail| && r[0] == a && r[1 + |mid|..] == tail
      && (forall i :: 1 <= i < 1 + |mid| ==> r[i] == mid[i - 1])
      && (forall i :: 1 + |mid| <= i < |r| ==> r[i] == tail[i - 1 - |mid|])
  {
  }

  /** `implode` of non-empty pieces starts with the first piece's first
      character. */
  lemma JoinHead(parts: seq<string>, sep: char)
    requires |parts| >= 1 && |parts[0]| >= 1
    ensures |Join(parts, sep)| >= 1 && Join(parts, sep)[0] == parts[0][0]
  {
    if |parts| > 1 {
      assert Join(parts, sep) == parts[0] + [sep] + Join(parts[1..], sep);
    }
  }

  /** A field whose `validation_rules` came from the upstream bounds ends its
      rule list with exactly those bound rules, one custom token each. */
  lemma SyncedBoundsBecomeRules(f: CategoryField, raw: CategorySync.RawField)
    requires f.validationRules == CategorySync.ExtractValidationRules(raw)
    requires CategorySync.BoundsPipeFree(raw)
    ensures var bounds := CategorySync.BoundRules(raw);
      var r := GetValidationRules(f);
      |r| >= |bounds| && forall i :: 0 <= i < |bounds| ==> r[|r| - |bounds| + i] == Custom(bounds[i])
  {
    var bounds := CategorySync.BoundRules(raw);
    if |bounds| > 0 {
      var text := Join(bounds, '|');
      CategorySync.BoundRulesPipeFree(raw);
      assert |bounds[0]| >= 4 && bounds[0][0] == 'm';
      JoinHead(bounds, '|');
      assert Truthy(text) by {
        assert text != "0";
      }
      CustomTokensOfJoin(bounds);
    }
  }
}

=== FILE: category_sync.dfy ===
/**
 * The taxonomy sync: categories are upserted by external id, fields by
 * (category id, external id), options by (field id, external id); stale
 * options are pruned, and a whole pass either commits or leaves the store as
 * it was.
 *
 * Upstream records are PHP arrays decoded from JSON. Each slot the sync reads
 * is a `Raw` value: absent, present but null, or a scalar (already converted
 * to the type the column receives). Reading an absent slot without `??` or
 * `isset` raises (the framework turns the "undefined array key" warning into
 * an exception), which aborts the pass.
 */
module CategorySync {
  import opened Wrappers
  import opened Php
  import opened FieldTypes
  import opened Tables
  import opened Schema

  // ---------------------------------------------------------------------------
  // Upstream slots
  // ---------------------------------------------------------------------------

  /** One slot of an upstream PHP array. */
  datatype Raw<+T> = Absent | Null | Val(v: T)

  /** `$a[k] ?? d`: the value when the slot is set (present and not null). */
  function Or<T>(r: Raw<T>, d: T): T {
    if r.Val? then r.v else d
  }

  /** `$a[k] ?? null`. */
  function OrNull<T>(r: Raw<T>): Option<T> {
    if r.Val? then Some(r.v) else None
  }

  /** Why a pass aborted. */
  datatype SyncError =
    | UndefinedKey(key: string)        // a plain read of an absent slot
    | NullColumn(column: string)       // NULL written to a NOT NULL column
    | FetchFailed(message: string)     // the upstream fields request failed

  /** A plain read `$a[k]`: raises when the slot is absent. */
  function Read(r: Raw<string>, key: string): (res: Result<Option<string>, SyncError>)
    ensures res.Failure? <==> r.Absent?
    ensures res.Success? ==> res.value == OrNull(r)
  {
    match r
    case Absent => Failure(UndefinedKey(key))
    case Null => Success(None)
    case Val(v) => Success(Some(v))
  }

  /** `$a[k] ?? <fallback>` where the fallback is itself a read that may raise. */
  function Coalesce(r: Raw<string>, fallback: Result<Option<string>, SyncError>): Result<Option<string>, SyncError> {
    if r.Val? then Success(Some(r.v)) else fallback
  }

  /** `(string) $x` of a possibly-null scalar. */
  function AsString(x: Option<string>): string {
    x.GetOr("")
  }

  // ---------------------------------------------------------------------------
  // Categories
  // ---------------------------------------------------------------------------

  /** An upstream category record. */
  datatype RawCategory = RawCategory(
    id: Raw<string>,
    name: Raw<string>,
    slug: Raw<string>,
    description: Raw<string>,
    parentId: Raw<string>,
    order: Raw<int>)

  /** The external ids currently stored. */
  function ExternalIds(cats: seq<Category>): set<string> {
    set c | c in cats :: c.externalId
  }

  function HasExternalId(x: string): Category -> bool {
    (c: Category) => c.externalId == x
  }

  /** The local parent id: none when the upstream parent is unset or falsy, or
      when no stored category carries it as external id yet; otherwise the id
      of the first category that does. */
  function FindParentId(cats: seq<Category>, e: RawCategory): (r: Option<nat>)
    ensures r.None? <==>
      || !e.parentId.Val? || !Truthy(e.parentId.v)
      || e.parentId.v !in ExternalIds(cats)
    ensures r.Some? ==>
      exists i :: 0 <= i < |cats| && cats[i].id == r.value && cats[i].externalId == e.parentId.v
        && forall j :: 0 <= j < i ==> cats[j].externalId != e.parentId.v
  {
    if !e.parentId.Val? || !Truthy(e.parentId.v) then None
    else
      match FindFirst(cats, HasExternalId(e.parentId.v))
      case None =>
        assert e.parentId.v !in ExternalIds(cats);
        None
      case Some(i) => Some(cats[i].id)
  }

  /** The external id a category is upserted under: `(string) $data['id']`. */
  function CategoryKey(e: RawCategory): (r: Result<string, SyncError>)
    ensures r.Failure? <==> e.id.Absent?
    ensures r.Success? ==> r.value == AsString(OrNull(e.id))
  {
    var id :- Read(e.id, "id");
    Success(AsString(id))
  }

  /** What the sync relies on and keeps: the database invariants plus unique
      category external ids, unique (category, external id) field keys and
      unique (field, external id) option keys. */
  predicate SyncInvariant(s: Store) {
    && Valid(s)
    && KeysUnique(s.categories, CategoryExternalId)
    && KeysUnique(s.fields, FieldKey)
    && KeysUnique(s.options, OptionKey)
  }

  /** Under unique option keys, a field has at most one option with a given
      external id. */
  lemma OptionKeysDistinct(options: seq<FieldOption>)
    requires KeysUnique(options, OptionKey)
    ensures forall i, j ::
      (0 <= i < |options| && 0 <= j < |options| && options[i].externalId.Some?
        && options[i].fieldId == options[j].fieldId && options[i].externalId == options[j].externalId) ==> i == j
  {
    KeysDistinct(options, OptionKey);
  }

  /** The columns a category row holds after a record was written into it:
      the name or `Unknown`, the given slug or the slug of the name (of
      `unknown` without one), the description or null, the parent found in
      the categories stored before the write, and the order or 0. */
  predicate WrittenFrom(c: Category, cats: seq<Category>, e: RawCategory, slugify: string -> string) {
    && c.name == Or(e.name, "Unknown")
    && c.slug == (if e.slug.Val? then e.slug.v else slugify(Or(e.name, "unknown")))
    && c.description == OrNull(e.description)
    && c.parentId == FindParentId(cats, e)
    && c.order == Or(e.order, 0)
  }

  /** `Category::updateOrCreate` for one upstream record. The slug is the
      given one, or the slug of the name (`slugify` is the framework's
      `Str::slug`). The first row under the record's external id holds the
      record's columns; a matched row keeps its id, a created one takes the
      next id; every row under another external id is left as it was. */
  function UpsertCategory(s: Store, e: RawCategory, slugify: string -> string): (r: Result<Store, SyncError>)
    ensures r.Failure? <==> e.id.Absent?
    ensures r.Success? ==>
      var k := CategoryKey(e).value;
      var cats := r.value.categories;
      var j := FirstIndexOf(s.categories, k);
      && j < |cats| && cats[j].externalId == k && WrittenFrom(cats[j], s.categories, e, slugify)
      && (forall m :: 0 <= m < j ==> cats[m].externalId != k)
      && cats[j].id == (if j < |s.categories| then s.categories[j].id else s.nextCategory)
    ensures r.Success? ==> |s.categories| <= |r.value.categories| <= |s.categories| + 1
    ensures r.Success? ==>
      forall i :: 0 <= i < |s.categories| && s.categories[i].externalId != CategoryKey(e).value ==>
        r.value.categories[i] == s.categories[i]
    ensures r.Success? ==>
      var k := CategoryKey(e).value;
      && ExternalIds(r.value.categories) == ExternalIds(s.categories) + {k}
      && (k in ExternalIds(s.categories) ==> |r.value.categories| == |s.categories|)
      && r.value.fields == s.fields && r.value.options == s.options
      && r.value.ads == s.ads && r.value.values == s.values
    ensures r.Success? && SyncInvariant(s) ==> SyncInvariant(r.value)
  {
    var key :- CategoryKey(e);
    var name := Or(e.name, "Unknown");
    var slug := if e.slug.Val? then e.slug.v else slugify(Or(e.name, "unknown"));
    var description := OrNull(e.description);
    var parent := FindParentId(s.categories, e);
    var order := Or(e.order, 0);
    var update := (c: Category) =>
      c.(name := name, slug := slug, description := description, parentId := parent, order := order);
    var created := Category(s.nextCategory, key, name, slug, description, parent, order);
    var cats := Upsert(s.categories, HasExternalId(key), update, created);
    UpsertExternalIds(s.categories, key, update, created);
    UpsertCategoryRow(s.categories, key, update, created, s.nextCategory);
    var r := s.(categories := cats,
                nextCategory := if FindFirst(s.categories, HasExternalId(key)).None? then s.nextCategory + 1 else s.nextCategory);
    if SyncInvariant(s) then
      UpsertKeepsIds(s.categories, CategoryId, s.nextCategory, HasExternalId(key), update, created);
      UpsertKeepsKeysUnique(s.categories, CategoryExternalId, key, HasExternalId(key), update, created);
      Success(r)
    else
      Success(r)
  }

  /** The first category carrying the external id, or the position after
      the last one when none does: the row an upsert by external id writes,
      and the category `where(...)->first()` finds. */
  function FirstIndexOf(cats: seq<Category>, key: string): (j: nat)
    ensures j <= |cats|
    ensures j < |cats| <==> key in ExternalIds(cats)
  {
    match FindFirst(cats, HasExternalId(key))
    case Some(i) => assert cats[i] in cats; i
    case None => |cats|
  }

  /** Where an upsert by external id writes: the first row under the key is
      the updated match, or the created row appended after the others; rows
      under other keys stay as they were. */
  lemma UpsertCategoryRow(cats: seq<Category>, key: string, update: Category -> Category, created: Category, next: nat)
    requires forall c :: update(c).externalId == c.externalId && update(c).id == c.id
    requires created.externalId == key && created.id == next
    ensures var r := Upsert(cats, HasExternalId(key), update, created);
      var j := FirstIndexOf(cats, key);
      && j < |r| && r[j].externalId == key
      && (forall m :: 0 <= m < j ==> r[m].externalId != key)
      && r[j].id == (if j < |cats| then cats[j].id else next)
      && r[j] == (if j < |cats| then update(cats[j]) else created)
    ensures var r := Upsert(cats, HasExternalId(key), update, created);
      forall i :: 0 <= i < |cats| && cats[i].externalId != key ==> r[i] == cats[i]
  {
    var r := Upsert(cats, HasExternalId(key), update, created);
    match FindFirst(cats, HasExternalId(key))
    case Some(i) =>
      assert r[i].externalId == key;
    case None =>
      assert r[|cats|] == created;
  }

  /** How an upsert by external id changes the set of external ids. */
  lemma UpsertExternalIds(cats: seq<Category>, key: string, update: Category -> Category, created: Category)
    requires forall c :: update(c).externalId == c.externalId
    requires created.externalId == key
    ensures var r := Upsert(cats, HasExternalId(key), update, created);
      && ExternalIds(r) == ExternalIds(cats) + {key}
      && (key in ExternalIds(cats) ==> |r| == |cats|)
  {
    var r := Upsert(cats, HasExternalId(key), update, created);
    match FindFirst(cats, HasExternalId(key))
    case Some(i) =>
      forall x ensures x in ExternalIds(r) <==> x in ExternalIds(cats) + {key} {
        if x in ExternalIds(r) {
          var c :| c in r && c.externalId == x;
          var j :| 0 <= j < |r| && r[j] == c;
          assert cats[j].externalId == x;
        }
        if x in ExternalIds(cats) {
          var c :| c in cats && c.externalId == x;
          var j :| 0 <= j < |cats| && cats[j] == c;
          assert r[j].externalId == x;
        }
        if x == key {
          assert r[i].externalId == key;
        }
      }
    case None =>
      assert key !in ExternalIds(cats);
  }

  /** Record order decides the parent link: a child written after its parent
      points at the parent's row. */
  lemma ParentWrittenFirstLinks(s: Store, p: RawCategory, c: RawCategory, slugify: string -> string)
    requires !p.id.Absent? && !c.id.Absent?
    requires Truthy(CategoryKey(p).value) && c.parentId == Val(CategoryKey(p).value)
    ensures var s1 := UpsertCategory(s, p, slugify).value;
      var s2 := UpsertCategory(s1, c, slugify).value;
      var row := s2.categories[FirstIndexOf(s1.categories, CategoryKey(c).value)];
      && row.parentId.Some?
      && exists i :: 0 <= i < |s1.categories| && s1.categories[i].id == row.parentId.value
           && s1.categories[i].externalId == CategoryKey(p).value
  {
    var s1 := UpsertCategory(s, p, slugify).value;
    assert CategoryKey(p).value in ExternalIds(s1.categories);
  }

  /** A child written before any row carries its parent's external id gets
      no parent; a later write of the parent does not repair the link. */
  lemma ChildWrittenFirstUnlinked(s: Store, c: RawCategory, slugify: string -> string)
    requires !c.id.Absent? && c.parentId.Val? && c.parentId.v !in ExternalIds(s.categories)
    ensures UpsertCategory(s, c, slugify).value.categories[FirstIndexOf(s.categories, CategoryKey(c).value)].parentId.None?
  {
  }

  /** The categories pass: every record in order, each one seeing the writes of
      the ones before it. The count is the number of records, not of distinct
      external ids. */
  function SyncCategories(s: Store, es: seq<RawCategory>, slugify: string -> string): (r: Result<(Store, nat), SyncError>)
    ensures r.Failure? <==> exists i :: 0 <= i < |es| && es[i].id.Absent?
    ensures r.Success? ==> r.value.1 == |es|
    ensures r.Success? ==> ExternalIds(r.value.0.categories) == ExternalIds(s.categories) + EntryKeys(es)
    ensures r.Success? ==>
      r.value.0.fields == s.fields && r.value.0.options == s.options && r.value.0.ads == s.ads && r.value.0.values == s.values
    ensures r.Success? && EntryKeys(es) <= ExternalIds(s.categories) ==> |r.value.0.categories| == |s.categories|
    ensures r.Success? && SyncInvariant(s) ==> SyncInvariant(r.value.0)
    decreases |es|
  {
    if |es| == 0 then Success((s, 0))
    else
      var s1 :- UpsertCategory(s, es[0], slugify);
      var rest :- SyncCategories(s1, es[1..], slugify);
      EntryKeysCons(es);
      Success((rest.0, rest.1 + 1))
  }

  /** The external ids the records carry (records without an id are skipped). */
  function EntryKeys(es: seq<RawCategory>): set<string> {
    set i | 0 <= i < |es| && !es[i].id.Absent? :: AsString(OrNull(es[i].id))
  }

  lemma EntryKeysCons(es: seq<RawCategory>)
    requires |es| > 0
    ensures EntryKeys(es) == (if es[0].id.Absent? then {} else {AsString(OrNull(es[0].id))}) + EntryKeys(es[1..])
  {
    forall x ensures x in EntryKeys(es) <==> x in (if es[0].id.Absent? then {} else {AsString(OrNull(es[0].id))}) + EntryKeys(es[1..]) {
      if x in EntryKeys(es) {
        var i :| 0 <= i < |es| && !es[i].id.Absent? && AsString(OrNull(es[i].id)) == x;
        if i > 0 { assert es[1..][i - 1] == es[i]; }
      }
      if x in EntryKeys(es[1..]) {
        var i :| 0 <= i < |es[1..]| && !es[1..][i].id.Absent? && AsString(OrNull(es[1..][i].id)) == x;
        assert es[i + 1] == es[1..][i];
      }
    }
  }

  /** Re-running the categories pass on the same records creates no category:
      the external ids and the number of rows stay the same. */
  lemma SyncCategoriesRerun(s: Store, es: seq<RawCategory>, slugify: string -> string)
    requires SyncCategories(s, es, slugify).Success?
    ensures var s1 := SyncCategories(s, es, slugify).value.0;
      var r := SyncCategories(s1, es, slugify);
      && r.Success?
      && ExternalIds(r.value.0.categories) == ExternalIds(s1.categories)
      && |r.value.0.categories| == |s1.categories|
  {
  }

  // ---------------------------------------------------------------------------
  // Options
  // ---------------------------------------------------------------------------

  /** An upstream choice of a field. */
  datatype RawChoice = RawChoice(
    id: Raw<string>,
    value: Raw<string>,
    labelText: Raw<string>,
    order: Raw<int>,
    isDefault: Raw<bool>)

  /** The external id an option is upserted under: `(string) ($c['id'] ?? $c['value'])`. */
  function ChoiceKey(c: RawChoice): (r: Result<string, SyncError>)
    ensures r.Failure? <==> !c.id.Val? && c.value.Absent?
    ensures c.id.Val? ==> r == Success(c.id.v)
  {
    var k :- Coalesce(c.id, Read(c.value, "value"));
    Success(AsString(k))
  }

  /** The value and label columns: `value ?? label` and `label ?? value`. Both
      columns are NOT NULL, so the choice needs a value or a label. */
  function ChoiceColumns(c: RawChoice): (r: Result<(string, string), SyncError>)
    ensures r.Success? <==> c.value.Val? || c.labelText.Val?
    ensures r.Success? ==> r.value == (Or(c.value, Or(c.labelText, "")), Or(c.labelText, Or(c.value, "")))
  {
    var value :- Coalesce(c.value, Read(c.labelText, "label"));
    var lbl :- Coalesce(c.labelText, Read(c.value, "value"));
    if value.None? then Failure(NullColumn("value"))
    else if lbl.None? then Failure(NullColumn("label"))
    else Success((value.value, lbl.value))
  }

  /** A choice the option upsert accepts. */
  predicate GoodChoice(c: RawChoice) {
    ChoiceKey(c).Success? && ChoiceColumns(c).Success?
  }

  /** The external ids the accepted choices are upserted under. */
  function ChoiceKeys(cs: seq<RawChoice>): set<string> {
    set i | 0 <= i < |cs| && ChoiceKey(cs[i]).Success? :: ChoiceKey(cs[i]).value
  }

  /** The part of an option that an upsert never rewrites. */
  function Ident(o: FieldOption): (nat, nat, Option<string>) {
    (o.id, o.fieldId, o.externalId)
  }

  function OptionMatches(fieldId: nat, key: string): FieldOption -> bool {
    (o: FieldOption) => o.fieldId == fieldId && o.externalId == Some(key)
  }

  /** `CategoryFieldOption::updateOrCreate` for the choice at position
      `index`; its order defaults to that position. */
  function UpsertChoice(options: seq<FieldOption>, next: nat, fieldId: nat, c: RawChoice, index: nat)
    : (r: Result<(seq<FieldOption>, nat), SyncError>)
    ensures r.Success? <==> GoodChoice(c)
    ensures r.Success? ==>
      var (o, n) := r.value;
      && |o| >= |options| && n >= next
      && (forall i :: 0 <= i < |options| ==> Ident(o[i]) == Ident(options[i]))
      && (forall i :: |options| <= i < |o| ==>
            o[i].fieldId == fieldId && o[i].externalId == Some(ChoiceKey(c).value) && next <= o[i].id < n)
      && (exists i :: 0 <= i < |o| && OptionMatches(fieldId, ChoiceKey(c).value)(o[i]))
      && (KeysUnique(options, OptionId) && IdsBelow(options, OptionId, next) ==>
            KeysUnique(o, OptionId) && IdsBelow(o, OptionId, n))
      && n == next + (|o| - |options|)
      && (|o| == |options| <==> ChoiceKey(c).value in OptionExternalIds(options, fieldId))
      && (KeysUnique(options, OptionKey) ==> KeysUnique(o, OptionKey))
  {
    var key :- ChoiceKey(c);
    var cols :- ChoiceColumns(c);
    var order := Or(c.order, index);
    var isDefault := Or(c.isDefault, false);
    var p := OptionMatches(fieldId, key);
    var update := (o: FieldOption) => o.(value := cols.0, labelText := cols.1, order := order, isDefault := isDefault);
    var created := FieldOption(next, fieldId, Some(key), cols.0, cols.1, order, isDefault);
    var o := Upsert(options, p, update, created);
    var n := if FindFirst(options, p).None? then next + 1 else next;
    UpsertHasMatch(options, p, update, created);
    MatchIffExternalId(options, fieldId, key);
    UpsertKeepsOptionKeys(options, fieldId, key, update, created);
    if KeysUnique(options, OptionId) && IdsBelow(options, OptionId, next) then
      UpsertKeepsIds(options, OptionId, next, p, update, created);
      Success((o, n))
    else
      Success((o, n))
  }

  /** `updateOrCreate` finds a match for a key exactly when some option of
      the field already carries it. */
  lemma MatchIffExternalId(options: seq<FieldOption>, fieldId: nat, key: string)
    ensures FindFirst(options, OptionMatches(fieldId, key)).Some? <==> key in OptionExternalIds(options, fieldId)
  {
    var p := OptionMatches(fieldId, key);
    if key in OptionExternalIds(options, fieldId) {
      var x :| x in options && x.fieldId == fieldId && x.externalId == Some(key);
      var i :| 0 <= i < |options| && options[i] == x;
      assert p(options[i]);
    }
    if FindFirst(options, p).Some? {
      assert options[FindFirst(options, p).value] in options;
    }
  }

  /** An option upsert under a key keeps option keys unique. */
  lemma UpsertKeepsOptionKeys(options: seq<FieldOption>, fieldId: nat, key: string,
      update: FieldOption -> FieldOption, created: FieldOption)
    requires forall x :: OptionKey(update(x)) == OptionKey(x)
    requires created.fieldId == fieldId && created.externalId == Some(key)
    ensures KeysUnique(options, OptionKey) ==>
      KeysUnique(Upsert(options, OptionMatches(fieldId, key), update, created), OptionKey)
  {
    if KeysUnique(options, OptionKey) {
      UpsertKeepsKeysUnique(options, OptionKey, (fieldId, Some(key), 0), OptionMatches(fieldId, key), update, created);
    }
  }

  /** The choices in order, each upserted with its position as default order;
      the first choice the upsert refuses aborts the pass. */
  function UpsertChoices(options: seq<FieldOption>, next: nat, fieldId: nat, cs: seq<RawChoice>, index: nat)
    : (r: Result<(seq<FieldOption>, nat), SyncError>)
    ensures r.Success? <==> forall i :: 0 <= i < |cs| ==> GoodChoice(cs[i])
    decreases |cs|
  {
    if |cs| == 0 then Success((options, next))
    else
      assert forall i :: 0 <= i < |cs[1..]| ==> cs[1..][i] == cs[i + 1];
      var r1 :- UpsertChoice(options, next, fieldId, cs[0], index);
      UpsertChoices(r1.0, r1.1, fieldId, cs[1..], index + 1)
  }

  /** What the choice upserts do to the options table: existing rows keep
      their identity, new rows belong to the field and carry an accepted
      choice's key, every accepted key ends up present, and ids stay unique. */
  lemma {:induction false} UpsertChoicesSpec(options: seq<FieldOption>, next: nat, fieldId: nat, cs: seq<RawChoice>, index: nat)
    requires UpsertChoices(options, next, fieldId, cs, index).Success?
    ensures var (o, n) := UpsertChoices(options, next, fieldId, cs, index).value;
      && |o| >= |options| && n >= next
      && (forall i :: 0 <= i < |options| ==> Ident(o[i]) == Ident(options[i]))
      && (forall i :: |options| <= i < |o| ==>
            o[i].fieldId == fieldId && o[i].externalId.Some? && o[i].externalId.value in ChoiceKeys(cs)
            && next <= o[i].id < n)
      && (forall k :: k in ChoiceKeys(cs) ==> exists i :: 0 <= i < |o| && OptionMatches(fieldId, k)(o[i]))
      && (KeysUnique(options, OptionId) && IdsBelow(options, OptionId, next) ==>
            KeysUnique(o, OptionId) && IdsBelow(o, OptionId, n))
      && n == next + (|o| - |options|)
      && (forall i :: |options| <= i < |o| ==> o[i].externalId.value !in OptionExternalIds(options, fieldId))
      && (KeysUnique(options, OptionKey) ==> KeysUnique(o, OptionKey))
    decreases |cs|
  {
    if |cs| == 0 {
      assert ChoiceKeys(cs) == {};
    } else {
      var r1 := UpsertChoice(options, next, fieldId, cs[0], index).value;
      UpsertChoicesSpec(r1.0, r1.1, fieldId, cs[1..], index + 1);
      var r2 := UpsertChoices(r1.0, r1.1, fieldId, cs[1..], index + 1).value;
      assert UpsertChoices(options, next, fieldId, cs, index).value == r2;
      ChoiceKeysCons(cs);
      UpsertChoicesStep(options, next, fieldId, cs, r1.0, r1.1, r2.0, r2.1);
      UpsertChoicesFreshStep(options, next, fieldId, r1.0, r1.1, r2.0, r2.1);
    }
  }

  /** An option only ever created under a key the input table lacked, and the
      counter advanced once per created option, stay so across two upserts. */
  lemma UpsertChoicesFreshStep(options: seq<FieldOption>, next: nat, fieldId: nat,
                               o1: seq<FieldOption>, n1: nat, o2: seq<FieldOption>, n2: nat)
    requires |o1| >= |options| && n1 == next + (|o1| - |options|)
    requires forall i :: 0 <= i < |options| ==> Ident(o1[i]) == Ident(options[i])
    requires forall i :: |options| <= i < |o1| ==>
      o1[i].externalId.Some? && o1[i].externalId.value !in OptionExternalIds(options, fieldId)
    requires |o2| >= |o1| && n2 == n1 + (|o2| - |o1|)
    requires forall i :: 0 <= i < |o1| ==> Ident(o2[i]) == Ident(o1[i])
    requires forall i :: |o1| <= i < |o2| ==>
      o2[i].externalId.Some? && o2[i].externalId.value !in OptionExternalIds(o1, fieldId)
    ensures n2 == next + (|o2| - |options|)
    ensures forall i :: |options| <= i < |o2| ==>
      o2[i].externalId.Some? && o2[i].externalId.value !in OptionExternalIds(options, fieldId)
  {
    assert OptionExternalIds(options, fieldId) <= OptionExternalIds(o1, fieldId) by {
      forall k | k in OptionExternalIds(options, fieldId) ensures k in OptionExternalIds(o1, fieldId) {
        var x :| x in options && x.fieldId == fieldId && x.externalId == Some(k);
        var j :| 0 <= j < |options| && options[j] == x;
        assert Ident(o1[j]) == Ident(x);
        assert o1[j] in o1;
      }
    }
    forall i | |options| <= i < |o1|
      ensures o2[i].externalId.Some? && o2[i].externalId.value !in OptionExternalIds(options, fieldId)
    {
      assert Ident(o2[i]) == Ident(o1[i]);
    }
  }

  /** Choices whose keys the field's options all carry already create no
      option: the table keeps its length and the counter does not move. */
  lemma UpsertChoicesKnownKeys(options: seq<FieldOption>, next: nat, fieldId: nat, cs: seq<RawChoice>, index: nat)
    requires UpsertChoices(options, next, fieldId, cs, index).Success?
    requires ChoiceKeys(cs) <= OptionExternalIds(options, fieldId)
    ensures var (o, n) := UpsertChoices(options, next, fieldId, cs, index).value;
      |o| == |options| && n == next
  {
    var (o, n) := UpsertChoices(options, next, fieldId, cs, index).value;
    UpsertChoicesSpec(options, next, fieldId, cs, index);
    NoFreshOption(options, o, fieldId, ChoiceKeys(cs));
  }

  /** Rows appended under keys that are all known already cannot exist. */
  lemma NoFreshOption(options: seq<FieldOption>, o: seq<FieldOption>, fieldId: nat, keys: set<string>)
    requires |o| >= |options|
    requires forall i :: |options| <= i < |o| ==>
      o[i].externalId.Some? && o[i].externalId.value in keys && o[i].externalId.value !in OptionExternalIds(options, fieldId)
    requires keys <= OptionExternalIds(options, fieldId)
    ensures |o| == |options|
  {
    if |o| > |options| {
      InRange(o, |options|);
      assert false;
    }
  }

  /** Names the row at `k` when there is one. */
  lemma InRange<T>(rows: seq<T>, k: int)
    ensures 0 <= k < |rows| ==> rows[k] in rows
  {
  }

  /** Running the same choices again over the result creates no option. */
  lemma UpsertChoicesRerun(options: seq<FieldOption>, next: nat, fieldId: nat, cs: seq<RawChoice>, index: nat)
    requires UpsertChoices(options, next, fieldId, cs, index).Success?
    ensures var (o, n) := UpsertChoices(options, next, fieldId, cs, index).value;
      && UpsertChoices(o, n, fieldId, cs, index).Success?
      && |UpsertChoices(o, n, fieldId, cs, index).value.0| == |o|
      && UpsertChoices(o, n, fieldId, cs, index).value.1 == n
  {
    var (o, n) := UpsertChoices(options, next, fieldId, cs, index).value;
    UpsertChoicesSpec(options, next, fieldId, cs, index);
    forall k | k in ChoiceKeys(cs) ensures k in OptionExternalIds(o, fieldId) {
      var i :| 0 <= i < |o| && OptionMatches(fieldId, k)(o[i]);
      assert o[i] in o;
    }
    UpsertChoicesKnownKeys(o, n, fieldId, cs, index);
  }

  lemma ChoiceKeysCons(cs: seq<RawChoice>)
    requires |cs| > 0
    ensures ChoiceKeys(cs) == (if ChoiceKey(cs[0]).Success? then {ChoiceKey(cs[0]).value} else {}) + ChoiceKeys(cs[1..])
  {
    var head := if ChoiceKey(cs[0]).Success? then {ChoiceKey(cs[0]).value} else {};
    forall k ensures k in ChoiceKeys(cs) <==> k in head + ChoiceKeys(cs[1..]) {
      if k in ChoiceKeys(cs) {
        var i :| 0 <= i < |cs| && ChoiceKey(cs[i]).Success? && ChoiceKey(cs[i]).value == k;
        if i > 0 { assert cs[1..][i - 1] == cs[i]; }
      }
      if k in ChoiceKeys(cs[1..]) {
        var i :| 0 <= i < |cs[1..]| && ChoiceKey(cs[1..][i]).Success? && ChoiceKey(cs[1..][i]).value == k;
        assert cs[i + 1] == cs[1..][i];
      }
    }
  }

  /** Composes the contract of one upsert with that of the rest. */
  lemma UpsertChoicesStep(options: seq<FieldOption>, next: nat, fieldId: nat, cs: seq<RawChoice>,
                          o1: seq<FieldOption>, n1: nat, o2: seq<FieldOption>, n2: nat)
    requires |cs| > 0 && GoodChoice(cs[0])
    requires ChoiceKeys(cs) == {ChoiceKey(cs[0]).value} + ChoiceKeys(cs[1..])
    requires |o1| >= |options| && n1 >= next
    requires forall i :: 0 <= i < |options| ==> Ident(o1[i]) == Ident(options[i])
    requires forall i :: |options| <= i < |o1| ==>
      o1[i].fieldId == fieldId && o1[i].externalId == Some(ChoiceKey(cs[0]).value) && next <= o1[i].id < n1
    requires exists i :: 0 <= i < |o1| && OptionMatches(fieldId, ChoiceKey(cs[0]).value)(o1[i])
    requires |o2| >= |o1| && n2 >= n1
    requires forall i :: 0 <= i < |o1| ==> Ident(o2[i]) == Ident(o1[i])
    requires forall i :: |o1| <= i < |o2| ==>
      o2[i].fieldId == fieldId && o2[i].externalId.Some? && o2[i].externalId.value in ChoiceKeys(cs[1..])
      && n1 <= o2[i].id < n2
    requires forall k :: k in ChoiceKeys(cs[1..]) ==> exists i :: 0 <= i < |o2| && OptionMatches(fieldId, k)(o2[i])
    ensures forall i :: 0 <= i < |options| ==> Ident(o2[i]) == Ident(options[i])
    ensures forall i :: |options| <= i < |o2| ==>
      o2[i].fieldId == fieldId && o2[i].externalId.Some? && o2[i].externalId.value in ChoiceKeys(cs)
      && next <= o2[i].id < n2
    ensures forall k :: k in ChoiceKeys(cs) ==> exists i :: 0 <= i < |o2| && OptionMatches(fieldId, k)(o2[i])
  {
    forall k | k in ChoiceKeys(cs) ensures exists i :: 0 <= i < |o2| && OptionMatches(fieldId, k)(o2[i]) {
      if k !in ChoiceKeys(cs[1..]) {
        var i :| 0 <= i < |o1| && OptionMatches(fieldId, ChoiceKey(cs[0]).value)(o1[i]);
        assert Ident(o2[i]) == Ident(o1[i]);
        assert OptionMatches(fieldId, k)(o2[i]);
      }
    }
    forall i | |options| <= i < |o2|
      ensures o2[i].fieldId == fieldId && o2[i].externalId.Some? && o2[i].externalId.value in ChoiceKeys(cs)
      ensures next <= o2[i].id < n2
    {
      if i < |o1| {
        assert Ident(o2[i]) == Ident(o1[i]);
      }
    }
  }

  /** `array_filter(array_column($choices, 'id'))`: the truthy choice ids. */
  function TruthyIds(cs: seq<RawChoice>): (r: set<string>)
    ensures "" !in r && "0" !in r
    ensures forall i :: 0 <= i < |cs| && cs[i].id.Val? && Truthy(cs[i].id.v) ==> cs[i].id.v in r
    ensures forall x :: x in r ==> exists i :: 0 <= i < |cs| && cs[i].id == Val(x)
  {
    set i | 0 <= i < |cs| && cs[i].id.Val? && Truthy(cs[i].id.v) :: cs[i].id.v
  }

  /** `whereNotIn('external_id', ids)` on the field's options. SQL `NOT IN` is
      never true of a NULL external id, so such options are never stale. */
  function Stale(fieldId: nat, ids: set<string>): (r: FieldOption -> bool)
    ensures forall o: FieldOption :: o.fieldId != fieldId || o.externalId.None? ==> !r(o)
    ensures forall o: FieldOption :: o.fieldId == fieldId && o.externalId.Some? ==> (r(o) <==> o.externalId.value !in ids)
  {
    (o: FieldOption) => o.fieldId == fieldId && o.externalId.Some? && o.externalId.value !in ids
  }

  /** The options of a field that carry an external id, by that id. */
  function OptionExternalIds(options: seq<FieldOption>, fieldId: nat): set<string> {
    set o | o in options && o.fieldId == fieldId && o.externalId.Some? :: o.externalId.value
  }

  /** The options pass for one field: prune the options whose external id is
      not among the truthy choice ids (only when there is one), then upsert
      every choice. Returns the number of choices. */
  function SyncFieldOptions(s: Store, fieldId: nat, cs: seq<RawChoice>): (r: Result<(Store, nat), SyncError>)
    ensures r.Success? <==> forall i :: 0 <= i < |cs| ==> GoodChoice(cs[i])
    ensures r.Success? ==> r.value.1 == |cs|
    ensures r.Success? ==>
      r.value.0 == s.(options := r.value.0.options, values := r.value.0.values, nextOption := r.value.0.nextOption)
    ensures r.Success? && Valid(s) ==> Valid(r.value.0)
    ensures r.Success? && KeysUnique(s.options, OptionKey) ==> KeysUnique(r.value.0.options, OptionKey)
  {
    var ids := TruthyIds(cs);
    var s1 := if ids != {} then DeleteOptionsWhere(s, Stale(fieldId, ids)) else s;
    var u :- UpsertChoices(s1.options, s1.nextOption, fieldId, cs, 0);
    UpsertChoicesKeepsOptionKeys(s1.options, s1.nextOption, fieldId, cs);
    if Valid(s1) then
      UpsertChoicesKeepsValid(s1, fieldId, cs);
      Success((s1.(options := u.0, nextOption := u.1), |cs|))
    else
      Success((s1.(options := u.0, nextOption := u.1), |cs|))
  }

  /** Replacing the options table by the result of the choice upserts keeps
      the database invariants. */
  lemma UpsertChoicesKeepsValid(s: Store, fieldId: nat, cs: seq<RawChoice>)
    requires Valid(s) && UpsertChoices(s.options, s.nextOption, fieldId, cs, 0).Success?
    ensures var u := UpsertChoices(s.options, s.nextOption, fieldId, cs, 0).value;
      Valid(s.(options := u.0, nextOption := u.1))
  {
    UpsertChoicesSpec(s.options, s.nextOption, fieldId, cs, 0);
  }

  /** The choice upserts keep option keys unique. */
  lemma UpsertChoicesKeepsOptionKeys(options: seq<FieldOption>, next: nat, fieldId: nat, cs: seq<RawChoice>)
    requires UpsertChoices(options, next, fieldId, cs, 0).Success?
    ensures KeysUnique(options, OptionKey) ==> KeysUnique(UpsertChoices(options, next, fieldId, cs, 0).value.0, OptionKey)
  {
    UpsertChoicesSpec(options, next, fieldId, cs, 0);
  }

  /** Without a truthy choice id nothing is pruned: every option keeps
      existing, under the same id, field and external id. */
  lemma SyncFieldOptionsNoPrune(s: Store, fieldId: nat, cs: seq<RawChoice>)
    requires TruthyIds(cs) == {}
    requires SyncFieldOptions(s, fieldId, cs).Success?
    ensures var r := SyncFieldOptions(s, fieldId, cs).value.0;
      forall o :: o in s.options ==> exists o' :: o' in r.options && Ident(o') == Ident(o)
  {
    var r := SyncFieldOptions(s, fieldId, cs).value.0;
    UpsertChoicesSpec(s.options, s.nextOption, fieldId, cs, 0);
    forall o | o in s.options ensures exists o' :: o' in r.options && Ident(o') == Ident(o) {
      var i :| 0 <= i < |s.options| && s.options[i] == o;
      assert r.options[i] in r.options;
    }
  }

  /** Pruning and upserting only touch the field's own options: every option
      of another field keeps existing unchanged in identity, and so does every
      option of the field whose external id is NULL or one of the truthy ids
      (those are updated in place, not recreated). */
  lemma SyncFieldOptionsKeeps(s: Store, fieldId: nat, cs: seq<RawChoice>)
    requires SyncFieldOptions(s, fieldId, cs).Success?
    ensures var r := SyncFieldOptions(s, fieldId, cs).value.0;
      forall o :: o in s.options && (o.fieldId != fieldId || o.externalId.None? || o.externalId.value in TruthyIds(cs)) ==>
        exists o' :: o' in r.options && Ident(o') == Ident(o)
  {
    var ids := TruthyIds(cs);
    var s1 := if ids != {} then DeleteOptionsWhere(s, Stale(fieldId, ids)) else s;
    var r := SyncFieldOptions(s, fieldId, cs).value.0;
    UpsertChoicesSpec(s1.options, s1.nextOption, fieldId, cs, 0);
    forall o | o in s.options && (o.fieldId != fieldId || o.externalId.None? || o.externalId.value in ids)
      ensures exists o' :: o' in r.options && Ident(o') == Ident(o)
    {
      assert !Stale(fieldId, ids)(o);
      assert o in s1.options;
      var i :| 0 <= i < |s1.options| && s1.options[i] == o;
      assert r.options[i] in r.options;
    }
  }

  /** With every choice id truthy, the upsert keys are the truthy ids. */
  lemma ChoiceKeysAllTruthy(cs: seq<RawChoice>)
    requires forall i :: 0 <= i < |cs| ==> cs[i].id.Val? && Truthy(cs[i].id.v)
    ensures ChoiceKeys(cs) == TruthyIds(cs)
  {
    forall k ensures k in ChoiceKeys(cs) <==> k in TruthyIds(cs) {
      if k in TruthyIds(cs) {
        var i :| 0 <= i < |cs| && cs[i].id.Val? && Truthy(cs[i].id.v) && cs[i].id.v == k;
        assert ChoiceKey(cs[i]) == Success(k);
      }
    }
  }

  /** When every choice carries a truthy id, afterwards the field's options
      with an external id carry exactly the choice ids. */
  lemma SyncFieldOptionsExact(s: Store, fieldId: nat, cs: seq<RawChoice>)
    requires |cs| > 0
    requires forall i :: 0 <= i < |cs| ==> cs[i].id.Val? && Truthy(cs[i].id.v)
    requires SyncFieldOptions(s, fieldId, cs).Success?
    ensures OptionExternalIds(SyncFieldOptions(s, fieldId, cs).value.0.options, fieldId) == TruthyIds(cs)
  {
    var ids := TruthyIds(cs);
    assert cs[0].id.v in ids;
    var s1 := DeleteOptionsWhere(s, Stale(fieldId, ids));
    var u := UpsertChoices(s1.options, s1.nextOption, fieldId, cs, 0).value;
    assert SyncFieldOptions(s, fieldId, cs).value.0.options == u.0;
    UpsertChoicesSpec(s1.options, s1.nextOption, fieldId, cs, 0);
    ChoiceKeysAllTruthy(cs);
    PrunedThenUpserted(s1.options, u.0, fieldId, ids);
  }

  /** The set argument behind `SyncFieldOptionsExact`: after pruning to `ids`
      and upserting exactly the keys `ids`, the external ids are `ids`. */
  lemma PrunedThenUpserted(pruned: seq<FieldOption>, o: seq<FieldOption>, fieldId: nat, ids: set<string>)
    requires forall x :: x in pruned ==> !Stale(fieldId, ids)(x)
    requires |o| >= |pruned|
    requires forall i :: 0 <= i < |pruned| ==> Ident(o[i]) == Ident(pruned[i])
    requires forall i :: |pruned| <= i < |o| ==>
      o[i].fieldId == fieldId && o[i].externalId.Some? && o[i].externalId.value in ids
    requires forall k :: k in ids ==> exists i :: 0 <= i < |o| && OptionMatches(fieldId, k)(o[i])
    ensures OptionExternalIds(o, fieldId) == ids
  {
    forall k | k in OptionExternalIds(o, fieldId) ensures k in ids {
      var x :| x in o && x.fieldId == fieldId && x.externalId == Some(k);
      var i :| 0 <= i < |o| && o[i] == x;
      if i < |pruned| {
        assert Ident(o[i]) == Ident(pruned[i]);
        assert pruned[i] in pruned;
      }
    }
    forall k | k in ids ensures k in OptionExternalIds(o, fieldId) {
      var i :| 0 <= i < |o| && OptionMatches(fieldId, k)(o[i]);
      assert o[i] in o;
    }
  }

  // ---------------------------------------------------------------------------
  // Fields
  // ---------------------------------------------------------------------------

  /** An upstream field record (one entry of a group's `flatFields`). `choices`
      is `None` unless the slot is set and holds a list. */
  datatype RawField = RawField(
    id: Raw<string>,
    attribute: Raw<string>,
    name: Raw<string>,
    filterType: Raw<string>,
    typeName: Raw<string>,
    isMandatory: Raw<bool>,
    required: Raw<bool>,
    searchable: Raw<bool>,
    displayPriority: Raw<int>,
    order: Raw<int>,
    min: Raw<string>,
    max: Raw<string>,
    minLength: Raw<string>,
    maxLength: Raw<string>,
    placeholder: Raw<string>,
    helpText: Raw<string>,
    hint: Raw<string>,
    choices: Option<seq<RawChoice>>)

  /** 1 for a bound that is set, 0 otherwise. */
  function IsSet(b: Raw<string>): nat {
    if b.Val? then 1 else 0
  }

  /** The bound rules for the bounds that are set, in the order min, max,
      min_length, max_length (both lengths reuse the `min:`/`max:` names). */
  function BoundRules(f: RawField): (r: seq<string>)
    ensures |r| == IsSet(f.min) + IsSet(f.max) + IsSet(f.minLength) + IsSet(f.maxLength)
    ensures f.min.Val? ==> r[0] == "min:" + f.min.v
    ensures f.max.Val? ==> r[IsSet(f.min)] == "max:" + f.max.v
    ensures f.minLength.Val? ==> r[IsSet(f.min) + IsSet(f.max)] == "min:" + f.minLength.v
    ensures f.maxLength.Val? ==> r[|r| - 1] == "max:" + f.maxLength.v
    ensures forall i :: 0 <= i < |r| ==> |r[i]| >= 4 && (r[i][..4] == "min:" || r[i][..4] == "max:")
  {
    (if f.min.Val? then ["min:" + f.min.v] else [])
    + (if f.max.Val? then ["max:" + f.max.v] else [])
    + (if f.minLength.Val? then ["min:" + f.minLength.v] else [])
    + (if f.maxLength.Val? then ["max:" + f.maxLength.v] else [])
  }

  /** No bound value contains the rule separator. */
  predicate BoundsPipeFree(f: RawField) {
    && (f.min.Val? ==> '|' !in f.min.v)
    && (f.max.Val? ==> '|' !in f.max.v)
    && (f.minLength.Val? ==> '|' !in f.minLength.v)
    && (f.maxLength.Val? ==> '|' !in f.maxLength.v)
  }

  /** The bound rules joined by `|`, or null when no bound is set. Splitting
      the result on `|` gives the bound rules back. */
  function ExtractValidationRules(f: RawField): (r: Option<string>)
    ensures r.None? <==> !f.min.Val? && !f.max.Val? && !f.minLength.Val? && !f.maxLength.Val?
    ensures r.Some? && BoundsPipeFree(f) ==> Split(r.value, '|') == BoundRules(f)
  {
    var rules := BoundRules(f);
    if |rules| == 0 then None
    else if BoundsPipeFree(f) then
      BoundRulesPipeFree(f);
      SplitJoin(rules, '|');
      Some(Join(rules, '|'))
    else
      Some(Join(rules, '|'))
  }

  lemma BoundRulesPipeFree(f: RawField)
    requires BoundsPipeFree(f)
    ensures forall i :: 0 <= i < |BoundRules(f)| ==> '|' !in BoundRules(f)[i]
  {
    forall x: string, v: string | '|' !in v && (x == "min:" || x == "max:") ensures '|' !in x + v {
      assert forall j :: 0 <= j < |x| ==> (x + v)[j] == x[j];
      assert forall j :: |x| <= j < |x + v| ==> (x + v)[j] == v[j - |x|];
    }
  }

  /** The name a field is stored under: `attribute ?? name ?? 'unknown_field'`.
      Every field the pass syncs has an attribute, so that is its name. */
  function FieldName(f: RawField): (r: string)
    ensures f.attribute.Val? ==> r == f.attribute.v
    ensures !f.attribute.Val? && !f.name.Val? ==> r == "unknown_field"
  {
    Or(f.attribute, Or(f.name, "unknown_field"))
  }

  /** The external id a field is upserted under: `(string) (id ?? name)`,
      where the name is the one above. A synced field without an id is keyed
      by its attribute. */
  function FieldExternalId(f: RawField): (r: string)
    ensures f.id.Val? ==> r == f.id.v
    ensures !f.id.Val? && f.attribute.Val? ==> r == f.attribute.v
    ensures !f.id.Val? ==> r == FieldName(f)
  {
    Or(f.id, FieldName(f))
  }

  /** The field's type: the mapped `filterType ?? type ?? 'text'`. It is
      always one of the nine enum types; `filterType` wins over `type`, and
      with neither the field is a text field. */
  function SyncedType(f: RawField): (r: FieldType)
    ensures InEnum(r)
    ensures f.filterType.Val? ==> r == MapFieldType(f.filterType.v)
    ensures !f.filterType.Val? && f.typeName.Val? ==> r == MapFieldType(f.typeName.v)
    ensures !f.filterType.Val? && !f.typeName.Val? ==> r == Text
  {
    assert MapFieldType("text") == Text by { MapFieldTypeOnEnumName(Text); }
    MapFieldType(Or(f.filterType, Or(f.typeName, "text")))
  }

  function FieldMatches(categoryId: nat, key: string): CategoryField -> bool {
    (x: CategoryField) => x.categoryId == Some(categoryId) && x.externalId == key
  }

  /** `CategoryField::updateOrCreate` keyed by (category id, external id).
      Returns the store and the upserted row. */
  function SyncCategoryField(s: Store, categoryId: nat, f: RawField): (r: (Store, CategoryField))
    ensures var (s', field) := r;
      && field in s'.fields
      && FieldKey(field) == (Some(categoryId), FieldExternalId(f))
      && field.name == FieldName(f)
      && field.fieldType == SyncedType(f) && InEnum(field.fieldType)
      && field.validationRules == ExtractValidationRules(f)
      && s' == s.(fields := s'.fields, nextField := s'.nextField)
    ensures SyncInvariant(s) ==> SyncInvariant(r.0)
    ensures SyncInvariant(s) ==> forall x :: x in r.0.fields && FieldKey(x) == (Some(categoryId), FieldExternalId(f)) ==> x == r.1
  {
    var name := FieldName(f);
    var key := FieldExternalId(f);
    var t := SyncedType(f);
    var labelText := Or(f.name, name);
    var isRequired := Or(f.isMandatory, Or(f.required, false));
    var isSearchable := Or(f.searchable, false);
    var order := Or(f.displayPriority, Or(f.order, 0));
    var rules := ExtractValidationRules(f);
    var placeholder := OrNull(f.placeholder);
    var help := if f.helpText.Val? then Some(f.helpText.v) else OrNull(f.hint);
    var p := FieldMatches(categoryId, key);
    var update := (x: CategoryField) => x.(name := name, labelText := labelText, fieldType := t,
      isRequired := isRequired, isSearchable := isSearchable, order := order,
      validationRules := rules, placeholder := placeholder, helpText := help);
    var created := CategoryField(s.nextField, Some(categoryId), key, name, labelText, t,
      isRequired, isSearchable, order, rules, placeholder, help);
    var fields := Upsert(s.fields, p, update, created);
    var found := FindFirst(s.fields, p);
    var next := if found.None? then s.nextField + 1 else s.nextField;
    var field := if found.Some? then fields[found.value] else created;
    var s' := s.(fields := fields, nextField := next);
    assert field in fields by {
      if found.None? { assert fields[|s.fields|] == created; }
    }
    if SyncInvariant(s) then
      UpsertFieldKeepsInvariant(s, (Some(categoryId), key), p, update, created);
      (s', field)
    else
      (s', field)
  }

  /** An upsert keyed by a field's (category, external id) pair whose update
      keeps ids and keys and whose rows all carry an enum type keeps the sync
      invariant and leaves one field under the key. */
  lemma UpsertFieldKeepsInvariant(s: Store, k: (Option<nat>, string), p: CategoryField -> bool,
      update: CategoryField -> CategoryField, created: CategoryField)
    requires SyncInvariant(s)
    requires forall x :: p(x) <==> FieldKey(x) == k
    requires forall x :: update(x).id == x.id && FieldKey(update(x)) == FieldKey(x) && InEnum(update(x).fieldType)
    requires created.id == s.nextField && FieldKey(created) == k && InEnum(created.fieldType)
    ensures var fields := Upsert(s.fields, p, update, created);
      var found := FindFirst(s.fields, p);
      var s' := s.(fields := fields, nextField := if found.None? then s.nextField + 1 else s.nextField);
      && SyncInvariant(s')
      && forall x :: x in fields && FieldKey(x) == k ==> x == (if found.Some? then fields[found.value] else created)
  {
    var fields := Upsert(s.fields, p, update, created);
    var found := FindFirst(s.fields, p);
    UpsertKeepsIds(s.fields, FieldId, s.nextField, p, update, created);
    UpsertKeepsKeysUnique(s.fields, FieldKey, k, p, update, created);
    forall i | 0 <= i < |fields| ensures InEnum(fields[i].fieldType) {
      if i < |s.fields| {
        assert fields[i] == s.fields[i] || fields[i] == update(s.fields[i]);
      }
    }
    forall x | x in fields && FieldKey(x) == k
      ensures x == (if found.Some? then fields[found.value] else created)
    {
      var i :| 0 <= i < |fields| && fields[i] == x;
      if found.Some? {
        assert FieldKey(fields[found.value]) == k;
      }
    }
  }

  /** The options pass of a field runs only when `choices` is a list. Returns
      the number of options upserted. */
  function SyncFieldEntry(s: Store, categoryId: nat, f: RawField): (r: Result<(Store, nat), SyncError>)
    ensures r.Failure? <==> f.choices.Some? && exists i :: 0 <= i < |f.choices.value| && !GoodChoice(f.choices.value[i])
    ensures r.Success? ==> r.value.1 == if f.choices.Some? then |f.choices.value| else 0
    ensures r.Success? ==> r.value.0.categories == s.categories && r.value.0.ads == s.ads
    ensures r.Success? && SyncInvariant(s) ==> SyncInvariant(r.value.0)
  {
    var u := SyncCategoryField(s, categoryId, f);
    if f.choices.Some? then
      var o :- SyncFieldOptions(u.0, u.1.id, f.choices.value);
      Success(o)
    else
      Success((u.0, 0))
  }

  /** One entry of `flatFields`: a list or anything else. */
  datatype FieldEntry = NotArray | Entry(f: RawField)

  /** Only list entries with a set `attribute` describe a field. */
  predicate IsFieldEntry(e: FieldEntry) {
    e.Entry? && e.f.attribute.Val?
  }

  /** The number of entries that describe a field. */
  function CountFieldEntries(es: seq<FieldEntry>): nat {
    if |es| == 0 then 0 else (if IsFieldEntry(es[0]) then 1 else 0) + CountFieldEntries(es[1..])
  }

  /** The fields of one group, in order. Returns the numbers of fields and
      options upserted; the field count is the number of field entries. */
  function SyncEntries(s: Store, categoryId: nat, es: seq<FieldEntry>): (r: Result<(Store, nat, nat), SyncError>)
    ensures r.Success? ==> r.value.1 == CountFieldEntries(es)
    ensures r.Success? ==> r.value.0.categories == s.categories && r.value.0.ads == s.ads
    ensures r.Success? && SyncInvariant(s) ==> SyncInvariant(r.value.0)
    ensures (forall i :: 0 <= i < |es| ==> !IsFieldEntry(es[i])) ==> r == Success((s, 0, 0))
    decreases |es|
  {
    if |es| == 0 then Success((s, 0, 0))
    else
      assert forall i :: 0 <= i < |es[1..]| ==> es[1..][i] == es[i + 1];
      if IsFieldEntry(es[0]) then
        var a :- SyncFieldEntry(s, categoryId, es[0].f);
        var b :- SyncEntries(a.0, categoryId, es[1..]);
        Success((b.0, b.1 + 1, b.2 + a.1))
      else
        SyncEntries(s, categoryId, es[1..])
  }

  /** A group's value: a list holding `flatFields` (`None` unless that slot is
      set and holds a list), or anything else. */
  datatype GroupBody = NotAList | GroupList(flatFields: Option<seq<FieldEntry>>)

  /** One entry of the fields response, keyed by category external id. */
  datatype RawGroup = RawGroup(key: string, body: GroupBody)

  /** Group keys the pass ignores. */
  predicate SkippedKey(key: string) {
    key == "common_category_fields" || !IsNumeric(key)
  }

  /** A group the pass processes: a numeric key other than the common one, a
      category carrying it as external id, and a `flatFields` list. */
  predicate GroupKept(cats: seq<Category>, g: RawGroup) {
    !SkippedKey(g.key) && g.key in ExternalIds(cats) && g.body.GroupList? && g.body.flatFields.Some?
  }

  /** The number of field entries in the kept groups: what the fields pass
      reports as its field count. */
  function KeptFieldCount(cats: seq<Category>, gs: seq<RawGroup>): nat {
    if |gs| == 0 then 0
    else
      var here := if GroupKept(cats, gs[0]) then CountFieldEntries(gs[0].body.flatFields.value) else 0;
      here + KeptFieldCount(cats, gs[1..])
  }

  /** One group: skipped when its key is ignored, when no category carries the
      key as external id, or when it has no `flatFields` list; otherwise its
      entries are synced into the first category carrying the key. */
  function SyncGroup(s: Store, g: RawGroup): (r: Result<(Store, nat, nat), SyncError>)
    ensures !GroupKept(s.categories, g) ==> r == Success((s, 0, 0))
    ensures r.Success? ==> r.value.1 == (if GroupKept(s.categories, g) then CountFieldEntries(g.body.flatFields.value) else 0)
    ensures r.Success? ==> r.value.0.categories == s.categories && r.value.0.ads == s.ads
    ensures r.Success? && SyncInvariant(s) ==> SyncInvariant(r.value.0)
  {
    if SkippedKey(g.key) then Success((s, 0, 0))
    else
      match FindFirst(s.categories, HasExternalId(g.key))
      case None =>
        Success((s, 0, 0))
      case Some(i) =>
        assert g.key in ExternalIds(s.categories) by { assert s.categories[i] in s.categories; }
        if g.body.NotAList? || g.body.flatFields.None? then Success((s, 0, 0))
        else SyncEntries(s, s.categories[i].id, g.body.flatFields.value)
  }

  /** A kept group is synced into the first category carrying its key. */
  lemma SyncGroupKept(s: Store, g: RawGroup)
    requires GroupKept(s.categories, g)
    ensures SyncGroup(s, g) == SyncEntries(s, s.categories[FirstIndexOf(s.categories, g.key)].id, g.body.flatFields.value)
  {
  }

  /** The fields pass over every group, in response order. */
  function SyncGroups(s: Store, gs: seq<RawGroup>): (r: Result<(Store, nat, nat), SyncError>)
    ensures r.Success? ==> r.value.0.categories == s.categories && r.value.0.ads == s.ads
    ensures r.Success? ==> r.value.1 == KeptFieldCount(s.categories, gs)
    ensures r.Success? && SyncInvariant(s) ==> SyncInvariant(r.value.0)
    decreases |gs|
  {
    if |gs| == 0 then Success((s, 0, 0))
    else
      var a :- SyncGroup(s, gs[0]);
      var b :- SyncGroups(a.0, gs[1..]);
      Success((b.0, a.1 + b.1, a.2 + b.2))
  }

  // ---------------------------------------------------------------------------
  // The whole pass
  // ---------------------------------------------------------------------------

  /** The counters a successful pass reports. */
  datatype Stats = Stats(categories: nat, fields: nat, options: nat)

  /** `array_column($records, 'id')`: the ids of the records that have one. */
  function IdColumn(es: seq<RawCategory>): (r: seq<Option<string>>)
    ensures |r| <= |es|
    ensures (forall i :: 0 <= i < |es| ==> !es[i].id.Absent?) ==> |r| == |es|
  {
    if |es| == 0 then []
    else (if es[0].id.Absent? then [] else [OrNull(es[0].id)]) + IdColumn(es[1..])
  }

  /** The sync pass over the fetched category records. `response` is what the
      upstream fields request answers for the collected ids; the request is
      made (and its answer used) only when some id was collected. Any failure
      aborts the whole pass. */
  function SyncAll(s: Store, es: seq<RawCategory>, response: Result<seq<RawGroup>, string>,
                   slugify: string -> string): (r: Result<(Store, Stats), SyncError>)
    ensures r.Success? ==> r.value.1.categories == |es|
    ensures r.Success? ==> ExternalIds(r.value.0.categories) == ExternalIds(s.categories) + EntryKeys(es)
    ensures r.Success? && SyncInvariant(s) ==> SyncInvariant(r.value.0)
    ensures (exists i :: 0 <= i < |es| && es[i].id.Absent?) ==> r.Failure?
    ensures r.Success? && response.Success? && |IdColumn(es)| > 0 ==>
      r.value.1.fields == KeptFieldCount(r.value.0.categories, response.value)
  {
    var c :- SyncCategories(s, es, slugify);
    var ids := IdColumn(es);
    if |ids| == 0 then Success((c.0, Stats(c.1, 0, 0)))
    else
      var groups :- FieldsResponse(response);
      var f :- SyncGroups(c.0, groups);
      Success((f.0, Stats(c.1, f.1, f.2)))
  }

  /** A failed fields request surfaces as a sync failure carrying its message. */
  function FieldsResponse(response: Result<seq<RawGroup>, string>): (r: Result<seq<RawGroup>, SyncError>)
    ensures r.Success? <==> response.Success?
    ensures r.Success? ==> r.value == response.value
    ensures r.Failure? ==> r.error == FetchFailed(response.error)
  {
    match response
    case Success(groups) => Success(groups)
    case Failure(message) => Failure(FetchFailed(message))
  }

  /** The transaction: a successful pass commits its store, a failed one
      rolls back to the store it started from. */
  function Commit(s: Store, r: Result<(Store, Stats), SyncError>): (t: Store)
    ensures r.Failure? ==> t == s
    ensures r.Success? ==> t == r.value.0
  {
    if r.Success? then r.value.0 else s
  }

  /** Without category records the fields request is never made: the pass
      succeeds with zero counts and an unchanged store, whatever the request
      would have answered. */
  lemma SyncAllSkipsFetch(s: Store, response: Result<seq<RawGroup>, string>, slugify: string -> string)
    ensures SyncAll(s, [], response, slugify) == Success((s, Stats(0, 0, 0)))
  {
  }

  /** With records that all carry an id, a failed fields request aborts the
      pass and the store is rolled back. */
  lemma SyncAllFetchFailure(s: Store, es: seq<RawCategory>, message: string, slugify: string -> string)
    requires |es| > 0 && forall i :: 0 <= i < |es| ==> !es[i].id.Absent?
    ensures SyncAll(s, es, Failure(message), slugify) == Failure(FetchFailed(message))
    ensures Commit(s, SyncAll(s, es, Failure(message), slugify)) == s
  {
    assert SyncCategories(s, es, slugify).Success?;
    assert |IdColumn(es)| > 0;
  }

  /** All or nothing: the committed store is either the input store or one
      that keeps the sync invariant and holds every record's external id. */
  lemma SyncAllAtomic(s: Store, es: seq<RawCategory>, response: Result<seq<RawGroup>, string>, slugify: string -> string)
    requires SyncInvariant(s)
    ensures var r := SyncAll(s, es, response, slugify);
      && (r.Failure? ==> Commit(s, r) == s)
      && (r.Success? ==> SyncInvariant(Commit(s, r)) && EntryKeys(es) <= ExternalIds(Commit(s, r).categories))
  {
  }

  /** After a successful pass no field has two options with one external id,
      however often the pass has run before. */
  lemma SyncAllNoDuplicateOptions(s: Store, es: seq<RawCategory>, response: Result<seq<RawGroup>, string>,
                                  slugify: string -> string)
    requires SyncInvariant(s) && SyncAll(s, es, response, slugify).Success?
    ensures var o := SyncAll(s, es, response, slugify).value.0.options;
      forall i, j ::
        (0 <= i < |o| && 0 <= j < |o| && o[i].externalId.Some?
          && o[i].fieldId == o[j].fieldId && o[i].externalId == o[j].externalId) ==> i == j
  {
    OptionKeysDistinct(SyncAll(s, es, response, slugify).value.0.options);
  }
}

=== FILE: field_types.dfy ===
/**
 * Field types: the closed set of nine types the `category_fields.field_type`
 * enum column admits, an escape for any other tag a field model may carry
 * (`decimal`, `boolean`, ...), and the upstream type mapper.
 */
module FieldTypes {
  import opened Php

  /** A field's declared type. `Other` stands for any tag outside the nine
      enum values; its tag is never one of those nine names (see `FieldType`). */
  datatype FieldKind =
    | Text | Textarea | Number | Select | Radio | Checkbox | Date | Email | Url
    | Other(tag: string)

  /** The names of the nine values of the `field_type` enum column. */
  const EnumNames: seq<string> :=
    ["text", "textarea", "number", "select", "radio", "checkbox", "date", "email", "url"]

  /** A field type as a string tag has exactly one representation. */
  type FieldType = k: FieldKind | k.Other? ==> k.tag !in EnumNames witness Text

  /** True for the nine types the enum column can store. */
  predicate InEnum(t: FieldType) {
    !t.Other?
  }

  /** The string tag stored in `field_type`. */
  function Name(t: FieldType): string {
    match t
    case Text => "text"
    case Textarea => "textarea"
    case Number => "number"
    case Select => "select"
    case Radio => "radio"
    case Checkbox => "checkbox"
    case Date => "date"
    case Email => "email"
    case Url => "url"
    case Other(tag) => tag
  }

  /** Reads a stored `field_type` tag back as a type. */
  function FromName(s: string): (t: FieldType)
    ensures Name(t) == s
    ensures InEnum(t) <==> s in EnumNames
  {
    if s == "text" then Text
    else if s == "textarea" then Textarea
    else if s == "number" then Number
    else if s == "select" then Select
    else if s == "radio" then Radio
    else if s == "checkbox" then Checkbox
    else if s == "date" then Date
    else if s == "email" then Email
    else if s == "url" then Url
    else Other(s)
  }

  /** Tags and types are in one-to-one correspondence. */
  lemma FromNameOfName(t: FieldType)
    ensures FromName(Name(t)) == t
    ensures InEnum(t) <==> Name(t) in EnumNames
  {
  }

  /** The upstream type strings the mapper recognises (after lower-casing). */
  const RecognisedNames: seq<string> :=
    ["input", "string", "textarea", "integer", "number", "select", "dropdown",
     "radio", "checkbox", "multiselect", "date", "email", "url"]

  /** The lookup table of the mapper, on an already lower-cased string. */
  function MapLowered(s: string): (t: FieldType)
    ensures InEnum(t)
    ensures s !in RecognisedNames ==> t == Text
  {
    if s == "input" || s == "string" then Text
    else if s == "textarea" then Textarea
    else if s == "integer" || s == "number" then Number
    else if s == "select" || s == "dropdown" then Select
    else if s == "radio" then Radio
    else if s == "checkbox" || s == "multiselect" then Checkbox
    else if s == "date" then Date
    else if s == "email" then Email
    else if s == "url" then Url
    else Text
  }

  /** Maps an upstream field type to an internal one, ignoring case; anything
      unrecognised becomes `text`. The result always fits the enum column. */
  function MapFieldType(olxType: string): (t: FieldType)
    ensures InEnum(t)
    ensures Name(t) in EnumNames
    ensures Name(t) != "decimal" && Name(t) != "boolean"
    ensures Lower(olxType) !in RecognisedNames ==> t == Text
  {
    MapLowered(Lower(olxType))
  }

  /** The mapping ignores letter case. */
  lemma MapFieldTypeCaseInsensitive(s: string)
    ensures MapFieldType(s) == MapFieldType(Lower(s))
  {
    LowerIdempotent(s);
  }

  /** Upstream synonyms collapse onto one internal type, in any letter case. */
  lemma MapFieldTypeSynonyms(s: string)
    ensures Lower(s) == "input" || Lower(s) == "string" ==> MapFieldType(s) == Text
    ensures Lower(s) == "integer" || Lower(s) == "number" ==> MapFieldType(s) == Number
    ensures Lower(s) == "dropdown" || Lower(s) == "select" ==> MapFieldType(s) == Select
    ensures Lower(s) == "multiselect" || Lower(s) == "checkbox" ==> MapFieldType(s) == Checkbox
  {
  }

  /** Every enum name maps to the type it names. */
  lemma MapFieldTypeOnEnumName(t: FieldType)
    requires InEnum(t)
    ensures MapFieldType(Name(t)) == t
  {
    if t == Text || t == Textarea || t == Number || t == Select {
      MapsFirstNames(t);
    } else {
      MapsLastNames(t);
    }
  }

  lemma MapsFirstNames(t: FieldType)
    requires t == Text || t == Textarea || t == Number || t == Select
    ensures MapFieldType(Name(t)) == t
  {
    match t
    case Text => NameMaps("text", Text);
    case Textarea => NameMaps("textarea", Textarea);
    case Number => NameMaps("number", Number);
    case Select => NameMaps("select", Select);
  }

  lemma MapsLastNames(t: FieldType)
    requires t == Radio || t == Checkbox || t == Date || t == Email || t == Url
    ensures MapFieldType(Name(t)) == t
  {
    match t
    case Radio => NameMaps("radio", Radio);
    case Checkbox => NameMaps("checkbox", Checkbox);
    case Date => NameMaps("date", Date);
    case Email => NameMaps("email", Email);
    case Url => NameMaps("url", Url);
  }

  /** A lower-case name the lookup table sends to `t` maps to `t`. */
  lemma NameMaps(n: string, t: FieldType)
    requires forall i :: 0 <= i < |n| ==> !('A' <= n[i] <= 'Z')
    requires MapLowered(n) == t
    ensures MapFieldType(n) == t
  {
    LowerOfLower(n);
  }

  /** Mapping an already-mapped type's name changes nothing. */
  lemma MapFieldTypeIdempotent(s: string)
    ensures MapFieldType(Name(MapFieldType(s))) == MapFieldType(s)
  {
    MapFieldTypeOnEnumName(MapFieldType(s));
  }
}

=== FILE: field_value_resource.dfy ===
/**
 * The API shape of one stored dynamic value: the field's name, label and
 * type, the typed value, and a display form (an option's label, the labels
 * of the checked options, or a formatted date).
 */
module FieldValueResource {
  import opened Wrappers
  import opened Php
  import opened FieldTypes
  import opened Tables
  import opened Schema
  import opened Taxonomy
  import opened FieldValues

  /** What `getDisplayValue` returns. */
  datatype Display =
    | AsValue(v: Value)               // the value itself, null included
    | OptionLabel(labelText: string)  // the selected option's label
    | Labels(labels: seq<string>)     // the labels of the checked options
    | FormattedDate(raw: Json)        // a stored date rendered as Y-m-d

  datatype FieldResource = FieldResource(
    fieldName: string,
    fieldLabel: string,
    fieldType: string,
    value: Value,
    display: Display)

  /** `whereIn('id', $value)`: the array names the id as an integer or as
      its decimal string. A listed id is always one some item casts to. */
  predicate ListsId(items: seq<Json>, id: nat)
    ensures JInt(id) in items ==> ListsId(items, id)
    ensures ListsId(items, id) ==> exists x :: x in items && ToInt(x) == id
  {
    ToIntOfRenderedNat(id);
    JInt(id) in items || JStr(NatToString(id)) in items
  }

  function LabelsOf(options: seq<FieldOption>): (r: seq<string>)
    ensures |r| == |options|
    ensures forall k :: 0 <= k < |r| ==> r[k] == options[k].labelText
    ensures forall x :: x in r <==> exists o :: o in options && x == o.labelText
  {
    var r := seq(|options|, k requires 0 <= k < |options| => options[k].labelText);
    assert forall o :: o in options ==> o.labelText in r by {
      forall o | o in options ensures o.labelText in r {
        var k :| 0 <= k < |options| && options[k] == o;
        assert r[k] == o.labelText;
      }
    }
    r
  }

  /** The field's options (by `order`) that the array lists. */
  function CheckedOptions(s: Store, fieldId: nat, items: seq<Json>): (r: seq<FieldOption>)
    ensures SortedBy(r, OptionOrder)
    ensures forall o :: o in r <==> o in s.options && o.fieldId == fieldId && ListsId(items, o.id)
    ensures forall o :: multiset(r)[o] <= multiset(s.options)[o]
  {
    var all := OptionsOf(s, fieldId);
    FilterKeepsSorted(all, (o: FieldOption) => ListsId(items, o.id), OptionOrder);
    Filter(all, (o: FieldOption) => ListsId(items, o.id))
  }

  /** `getDisplayValue`: select and radio show the option's label (null when
      nothing is selected), a checkbox shows the labels of its checked
      options (none when the value is not an array), a date is formatted
      unless null, anything else shows the value itself. */
  function DisplayValue(s: Store, f: CategoryField, v: Value): (r: Display)
    ensures (f.fieldType == Select || f.fieldType == Radio) && v.Picked? ==> r == OptionLabel(v.labelText)
    ensures f.fieldType == Checkbox ==> r.Labels?
    ensures f.fieldType == Checkbox && !(v.Plain? && v.v.JList?) ==> r == Labels([])
    ensures f.fieldType == Checkbox && v.Plain? && v.v.JList? ==>
      forall x :: x in r.labels <==> exists o :: o in s.options && o.fieldId == f.id && ListsId(v.v.items, o.id) && x == o.labelText
    ensures f.fieldType == Date && v.Plain? ==> (r.FormattedDate? <==> v.v != JNull)
    ensures r.AsValue? ==> r.v == v
    ensures f.fieldType !in {Select, Radio, Checkbox, Date} ==> r == AsValue(v)
  {
    match f.fieldType
    case Select => ChoiceDisplay(v)
    case Radio => ChoiceDisplay(v)
    case Checkbox => CheckboxDisplay(s, f.id, v)
    case Date => if v.Plain? && v.v != JNull then FormattedDate(v.v) else AsValue(v)
    case _ => AsValue(v)
  }

  /** A checkbox's display: the labels of the checked options when the value
      is an array, none otherwise. */
  function CheckboxDisplay(s: Store, fieldId: nat, v: Value): (r: Display)
    ensures r.Labels?
    ensures !(v.Plain? && v.v.JList?) ==> r == Labels([])
    ensures v.Plain? && v.v.JList? ==>
      forall x :: x in r.labels <==> exists o :: o in s.options && o.fieldId == fieldId && ListsId(v.v.items, o.id) && x == o.labelText
  {
    if v.Plain? && v.v.JList? then Labels(LabelsOf(CheckedOptions(s, fieldId, v.v.items))) else Labels([])
  }

  /** `$value['label'] ?? $value`. */
  function ChoiceDisplay(v: Value): (r: Display)
    ensures v.Picked? ==> r == OptionLabel(v.labelText)
    ensures v.Plain? ==> r == AsValue(v)
  {
    match v
    case Picked(_, _, labelText) => OptionLabel(labelText)
    case Plain(_) => AsValue(v)
  }

  /** `toArray` of a value row whose field is `f`: the option relation
      resolves among all stored options. */
  function ToArray(s: Store, f: CategoryField, row: ValueRow): (r: FieldResource)
    ensures r.fieldName == f.name && r.fieldLabel == f.labelText && r.fieldType == Name(f.fieldType)
    ensures r.value == GetValue(f.fieldType, row.cols, s.options)
    ensures r.display == DisplayValue(s, f, r.value)
  {
    var v := GetValue(f.fieldType, row.cols, s.options);
    FieldResource(f.name, f.labelText, Name(f.fieldType), v, DisplayValue(s, f, v))
  }

  /** A select or radio value saved as an option's id displays that
      option's label. */
  lemma ChoiceShowsLabel(s: Store, f: CategoryField, o: FieldOption, row: ValueRow)
    requires f.fieldType == Select || f.fieldType == Radio
    requires o in s.options && KeysUnique(s.options, OptionId)
    requires row.cols == SetValue(f.fieldType, JInt(o.id))
    ensures ToArray(s, f, row).value == Picked(o.id, o.value, o.labelText)
    ensures ToArray(s, f, row).display == OptionLabel(o.labelText)
  {
    RoundTripChoice(f.fieldType, o, s.options);
  }

  /** A checkbox saved from an array of option ids displays exactly the
      labels of this field's options among them, each listed option once,
      in option order. */
  lemma CheckboxShowsCheckedLabels(s: Store, f: CategoryField, items: seq<Json>, row: ValueRow)
    requires f.fieldType == Checkbox
    requires row.cols == SetValue(Checkbox, JList(items))
    ensures var d := ToArray(s, f, row).display;
      && d == Labels(LabelsOf(CheckedOptions(s, f.id, items)))
      && forall x :: x in d.labels <==> exists o :: o in s.options && o.fieldId == f.id && ListsId(items, o.id) && x == o.labelText
  {
    RoundTripCheckbox(JList(items), s.options);
  }

  /** A checkbox submitted as null is stored as `[null]`, which lists no
      option: it displays no labels although its value is not null. */
  lemma CheckboxNullShowsNothing(s: Store, f: CategoryField, row: ValueRow)
    requires f.fieldType == Checkbox
    requires row.cols == SetValue(Checkbox, JNull)
    ensures ToArray(s, f, row).value == Plain(JList([JNull]))
    ensures ToArray(s, f, row).display == Labels([])
  {
    RoundTripCheckbox(JNull, s.options);
    var v := Plain(JList([JNull]));
    assert GetValue(Checkbox, row.cols, s.options) == v;
    assert ToArray(s, f, row).display == CheckboxDisplay(s, f.id, v);
    NullListsNothing(s, f.id);
  }

  lemma NullListsNothing(s: Store, fieldId: nat)
    ensures CheckedOptions(s, fieldId, [JNull]) == []
  {
    var checked := CheckedOptions(s, fieldId, [JNull]);
    if |checked| > 0 {
      var o := checked[0];
      assert o in checked;
      NullListsNoId(o.id);
    }
  }

  lemma NullListsNoId(id: nat)
    ensures !ListsId([JNull], id)
  {
    assert [JNull][0] == JNull;
  }

  /** A stored date is formatted; a missing one displays null. */
  lemma DateDisplay(s: Store, f: CategoryField, v: Json, row: ValueRow)
    requires f.fieldType == Date && row.cols == SetValue(Date, v)
    ensures v == JNull ==> ToArray(s, f, row).display == AsValue(NullValue)
    ensures v != JNull ==> ToArray(s, f, row).display == FormattedDate(v)
  {
    RoundTripText(Date, v, s.options);
  }

  /** Text-like values (text, textarea, email, url) display as themselves. */
  lemma PlainDisplay(s: Store, f: CategoryField, v: Json, row: ValueRow)
    requires f.fieldType in {Text, Textarea, Email, Url} && row.cols == SetValue(f.fieldType, v)
    ensures ToArray(s, f, row).value == Plain(v)
    ensures ToArray(s, f, row).display == AsValue(Plain(v))
  {
    RoundTripText(f.fieldType, v, s.options);
  }
}

=== FILE: field_values.dfy ===
/**
 * The typed value store of `ad_field_values`: `setValue` writes one logical
 * value into the one typed column its field type selects, after clearing all
 * seven; `getValue` reads it back by the same type.
 */
module FieldValues {
  import opened Wrappers
  import opened Php
  import opened FieldTypes
  import opened Tables
  import opened Schema

  /** The typed column a field type writes to; none for a type outside the
      nine. */
  function ColumnFor(t: FieldType): (c: Option<Column>)
    ensures c.Some? <==> InEnum(t)
    ensures c.Some? ==> c.value in {TextColumn, IntegerColumn, DateColumn, JsonColumn, OptionColumn}
  {
    match t
    case Text => Some(TextColumn)
    case Textarea => Some(TextColumn)
    case Email => Some(TextColumn)
    case Url => Some(TextColumn)
    case Number => Some(IntegerColumn)
    case Date => Some(DateColumn)
    case Checkbox => Some(JsonColumn)
    case Select => Some(OptionColumn)
    case Radio => Some(OptionColumn)
    case Other(_) => None
  }

  /** A dynamic value as a nullable column: PHP null is SQL NULL. */
  function AsColumn(v: Json): Option<Json> {
    if v == JNull then None else Some(v)
  }

  /** Whether a typed column of a row is not NULL. */
  predicate IsSet(c: Columns, col: Column) {
    match col
    case TextColumn => c.text.Some?
    case IntegerColumn => c.integer.Some?
    case DecimalColumn => c.decimal.Some?
    case DateColumn => c.date.Some?
    case BooleanColumn => c.boolean.Some?
    case JsonColumn => c.json.Some?
    case OptionColumn => c.optionId.Some?
  }

  /** `setValue`: all seven columns cleared, then the value written into the
      column of the field's type. A number is stored as `(int) value` (so
      null becomes 0); a checkbox keeps an array and wraps anything else in a
      one-element array. */
  function SetValue(t: FieldType, v: Json): (c: Columns)
    ensures forall col :: IsSet(c, col) ==> ColumnFor(t) == Some(col)
    ensures InEnum(t) && (v != JNull || t == Number || t == Checkbox) ==> IsSet(c, ColumnFor(t).value)
    ensures c.decimal.None? && c.boolean.None?
    ensures t.Other? ==> c == NoColumns
  {
    var cleared := NoColumns;
    match t
    case Text => cleared.(text := AsColumn(v))
    case Textarea => cleared.(text := AsColumn(v))
    case Email => cleared.(text := AsColumn(v))
    case Url => cleared.(text := AsColumn(v))
    case Number => cleared.(integer := Some(ToInt(v)))
    case Date => cleared.(date := AsColumn(v))
    case Checkbox => cleared.(json := Some(if v.JList? then v.items else [v]))
    case Select => cleared.(optionId := AsColumn(v))
    case Radio => cleared.(optionId := AsColumn(v))
    case Other(_) => cleared
  }

  /** What `getValue` returns: a plain value (null included), or the
      `{id, value, label}` triple of a selected option. */
  datatype Value = Plain(v: Json) | Picked(id: nat, value: string, labelText: string)

  const NullValue := Plain(JNull)

  /** The option a row's `category_field_option_id` points at, among all
      stored options (the `selectedOption` relation). */
  function SelectedOption(c: Columns, options: seq<FieldOption>): (r: Option<FieldOption>)
    ensures r.Some? ==> r.value in options && RefersToOption(c, r.value.id)
    ensures r.None? <==> forall o :: o in options ==> !RefersToOption(c, o.id)
  {
    match FindFirst(options, (o: FieldOption) => RefersToOption(c, o.id))
    case None => None
    case Some(i) => Some(options[i])
  }

  /** `getValue`: the column of the field's type; for select and radio the
      selected option's triple, or null when the reference resolves to no
      option; for a type outside the nine, `value_text`. */
  function GetValue(t: FieldType, c: Columns, options: seq<FieldOption>): (r: Value)
    ensures r.Picked? <==> (t == Select || t == Radio) && SelectedOption(c, options).Some?
    ensures r.Picked? ==> exists o :: o in options && RefersToOption(c, o.id) && r == Picked(o.id, o.value, o.labelText)
    ensures (t == Select || t == Radio) && SelectedOption(c, options).None? ==> r == NullValue
    ensures ColumnFor(t) == Some(TextColumn) || t.Other? ==> r == Plain(c.text.GetOr(JNull))
    ensures ColumnFor(t) == Some(DateColumn) ==> r == Plain(c.date.GetOr(JNull))
    ensures ColumnFor(t) == Some(IntegerColumn) ==> r == if c.integer.Some? then Plain(JInt(c.integer.value)) else NullValue
    ensures ColumnFor(t) == Some(JsonColumn) ==> r == if c.json.Some? then Plain(JList(c.json.value)) else NullValue
  {
    match t
    case Text => Plain(c.text.GetOr(JNull))
    case Textarea => Plain(c.text.GetOr(JNull))
    case Email => Plain(c.text.GetOr(JNull))
    case Url => Plain(c.text.GetOr(JNull))
    case Number => if c.integer.Some? then Plain(JInt(c.integer.value)) else NullValue
    case Date => Plain(c.date.GetOr(JNull))
    case Checkbox => if c.json.Some? then Plain(JList(c.json.value)) else NullValue
    case Select => PickedOrNull(SelectedOption(c, options))
    case Radio => PickedOrNull(SelectedOption(c, options))
    case Other(_) => Plain(c.text.GetOr(JNull))
  }

  function PickedOrNull(o: Option<FieldOption>): Value {
    match o
    case None => NullValue
    case Some(x) => Picked(x.id, x.value, x.labelText)
  }

  /** Text, textarea, email, url and date values come back unchanged. */
  lemma RoundTripText(t: FieldType, v: Json, options: seq<FieldOption>)
    requires t in {Text, Textarea, Email, Url, Date}
    ensures GetValue(t, SetValue(t, v), options) == Plain(v)
  {
  }

  /** A number comes back as the integer it was converted to. */
  lemma RoundTripNumber(v: Json, options: seq<FieldOption>)
    ensures GetValue(Number, SetValue(Number, v), options) == Plain(JInt(ToInt(v)))
    ensures v.JInt? ==> GetValue(Number, SetValue(Number, v), options) == Plain(v)
    ensures GetValue(Number, SetValue(Number, JNull), options) == Plain(JInt(0))
  {
  }

  /** A checkbox comes back as the stored array: the array itself, or the
      non-array value wrapped (so null comes back as `[null]`). */
  lemma RoundTripCheckbox(v: Json, options: seq<FieldOption>)
    ensures v.JList? ==> GetValue(Checkbox, SetValue(Checkbox, v), options) == Plain(v)
    ensures !v.JList? ==> GetValue(Checkbox, SetValue(Checkbox, v), options) == Plain(JList([v]))
  {
  }

  /** Selecting an option by its id reads back that option's triple. */
  lemma RoundTripChoice(t: FieldType, o: FieldOption, options: seq<FieldOption>)
    requires t == Select || t == Radio
    requires o in options && KeysUnique(options, OptionId)
    ensures GetValue(t, SetValue(t, JInt(o.id)), options) == Picked(o.id, o.value, o.labelText)
  {
    var c := SetValue(t, JInt(o.id));
    var x := SelectedOption(c, options).value;
    var i :| 0 <= i < |options| && options[i] == x;
    var j :| 0 <= j < |options| && options[j] == o;
    assert OptionId(options[i]) == OptionId(options[j]);
    assert i == j;
  }

  /** A type outside the nine stores nothing and so reads back null. */
  lemma RoundTripOther(t: FieldType, v: Json, options: seq<FieldOption>)
    requires t.Other?
    ensures SetValue(t, v) == NoColumns
    ensures GetValue(t, SetValue(t, v), options) == NullValue
  {
  }
}

=== FILE: php.dfy ===
/**
 * The handful of PHP runtime semantics the schema engine leans on: string
 * truthiness, `strtolower`, `explode`/`implode`, `trim(...) === ''`,
 * `is_numeric`, integer-to-string conversion, `(int)` casts and the dynamic
 * values a decoded JSON payload can hold.
 */
module Php {

  // ---------------------------------------------------------------------------
  // Truthiness and whitespace
  // ---------------------------------------------------------------------------

  /** PHP truthiness of a string (also what `empty` negates and `?:` tests):
      only "" and "0" are falsy. */
  predicate Truthy(s: string) {
    s != "" && s != "0"
  }

  /** The characters PHP's `trim` strips by default. */
  predicate IsTrimmed(c: char) {
    c == ' ' || c == '\t' || c == '\n' || c == '\r' || c == '\0' || c == '\U{000B}'
  }

  /** `trim($s) === ''`: the string holds nothing but trimmable characters. */
  predicate IsBlank(s: string) {
    forall i :: 0 <= i < |s| ==> IsTrimmed(s[i])
  }

  // ---------------------------------------------------------------------------
  // strtolower (ASCII only, as in PHP 8)
  // ---------------------------------------------------------------------------

  function LowerChar(c: char): char {
    if 'A' <= c <= 'Z' then (c as int + 32) as char else c
  }

  function Lower(s: string): (r: string)
    ensures |r| == |s|
    ensures forall i :: 0 <= i < |s| ==> r[i] == LowerChar(s[i])
  {
    if s == [] then [] else [LowerChar(s[0])] + Lower(s[1..])
  }

  /** Lower-casing twice is lower-casing once. */
  lemma LowerIdempotent(s: string)
    ensures Lower(Lower(s)) == Lower(s)
  {
  }

  /** A string with no upper-case ASCII letter is its own lower-case form. */
  lemma LowerOfLower(s: string)
    requires forall i :: 0 <= i < |s| ==> !('A' <= s[i] <= 'Z')
    ensures Lower(s) == s
  {
  }

  // ---------------------------------------------------------------------------
  // explode / implode on a one-character delimiter
  // ---------------------------------------------------------------------------

  /** Index of the first occurrence of `c` in `s`. */
  function IndexOf(s: string, c: char): (i: nat)
    requires c in s
    ensures i < |s| && s[i] == c
    ensures c !in s[..i]
  {
    if s[0] == c then 0
    else
      assert c in s[1..] by {
        var k :| 0 <= k < |s| && s[k] == c;
        assert s[1..][k - 1] == c;
      }
      var j := IndexOf(s[1..], c);
      assert s[..j + 1] == [s[0]] + s[1..][..j];
      j + 1
  }

  /** The first occurrence is the only one that has none before it. */
  lemma IndexOfIsFirst(s: string, c: char, k: nat)
    requires k < |s| && s[k] == c && c !in s[..k]
    ensures IndexOf(s, c) == k
  {
  }

  /** `implode(sep, parts)`. */
  function Join(parts: seq<string>, sep: char): string {
    if |parts| == 0 then ""
    else if |parts| == 1 then parts[0]
    else parts[0] + [sep] + Join(parts[1..], sep)
  }

  /** `explode(sep, s)`: the pieces between delimiters; never empty, and
      gluing them back together restores `s`. */
  function Split(s: string, sep: char): (parts: seq<string>)
    ensures |parts| >= 1
    ensures forall i :: 0 <= i < |parts| ==> sep !in parts[i]
    ensures Join(parts, sep) == s
    decreases |s|
  {
    if sep !in s then [s]
    else
      var i := IndexOf(s, sep);
      var rest := Split(s[i + 1..], sep);
      assert s == s[..i] + [sep] + s[i + 1..];
      assert ([s[..i]] + rest)[1..] == rest;
      [s[..i]] + rest
  }

  /** The converse round trip: splitting a join of delimiter-free pieces
      gives the pieces back. */
  lemma {:induction false} SplitJoin(parts: seq<string>, sep: char)
    requires |parts| >= 1
    requires forall i :: 0 <= i < |parts| ==> sep !in parts[i]
    ensures Split(Join(parts, sep), sep) == parts
    decreases |parts|
  {
    if |parts| == 1 {
      assert Join(parts, sep) == parts[0];
    } else {
      var s := Join(parts, sep);
      var rest := Join(parts[1..], sep);
      assert s == parts[0] + [sep] + rest;
      CutAtSeparator(parts[0], sep, rest);
      IndexOfIsFirst(s, sep, |parts[0]|);
      SplitJoin(parts[1..], sep);
      SplitAt(s, sep, parts[0], parts[1..]);
    }
  }

  /** Where a delimiter-free piece is followed by the delimiter. */
  lemma CutAtSeparator(a: string, sep: char, b: string)
    ensures var s := a + [sep] + b;
      && |a| < |s| && s[|a|] == sep && s[..|a|] == a && s[|a| + 1..] == b
  {
  }

  /** One step of `Split`: cutting at the first delimiter. */
  lemma SplitAt(s: string, sep: char, head: string, tail: seq<string>)
    requires sep in s && IndexOf(s, sep) == |head| && s[..|head|] == head
    requires Split(s[|head| + 1..], sep) == tail
    ensures Split(s, sep) == [head] + tail
  {
  }

  // ---------------------------------------------------------------------------
  // Decimal digits: (string) $int and back
  // ---------------------------------------------------------------------------

  predicate IsDigit(c: char) {
    '0' <= c <= '9'
  }

  predicate AllDigits(s: string) {
    forall i :: 0 <= i < |s| ==> IsDigit(s[i])
  }

  function DigitChar(d: nat): (c: char)
    requires d < 10
    ensures IsDigit(c)
  {
    ('0' as int + d) as char
  }

  function DigitValue(c: char): nat
    requires IsDigit(c)
  {
    c as int - '0' as int
  }

  /** The value of a run of decimal digits. */
  function ParseDigits(s: string): nat
    requires AllDigits(s)
  {
    if s == [] then 0 else ParseDigits(s[..|s| - 1]) * 10 + DigitValue(s[|s| - 1])
  }

  /** `(string) $n` for a non-negative integer. */
  function NatToString(n: nat): (s: string)
    ensures |s| >= 1 && AllDigits(s)
    ensures ParseDigits(s) == n
    ensures |s| > 1 ==> s[0] != '0'
    decreases n
  {
    if n < 10 then [DigitChar(n)]
    else
      var p := NatToString(n / 10);
      var s := p + [DigitChar(n % 10)];
      assert s[..|s| - 1] == p;
      s
  }

  /** Only the id 0 renders as a falsy string. */
  lemma NatToStringTruthy(n: nat)
    ensures Truthy(NatToString(n)) <==> n != 0
  {
    var s := NatToString(n);
    if n != 0 && |s| == 1 {
      assert ParseDigits(s) == DigitValue(s[0]) by {
        assert s[..0] == [];
      }
    }
  }

  // ---------------------------------------------------------------------------
  // is_numeric (PHP 8 grammar: whitespace, sign, digits, fraction, exponent)
  // ---------------------------------------------------------------------------

  predicate IsSpace(c: char) {
    c == ' ' || c == '\t' || c == '\n' || c == '\r' || c == '\U{000B}' || c == '\U{000C}'
  }

  /** First index at or after `i` that is not whitespace. */
  function SkipSpaces(s: string, i: nat): (j: nat)
    requires i <= |s|
    ensures i <= j <= |s|
    ensures forall k :: i <= k < j ==> IsSpace(s[k])
    ensures j < |s| ==> !IsSpace(s[j])
    decreases |s| - i
  {
    if i < |s| && IsSpace(s[i]) then SkipSpaces(s, i + 1) else i
  }

  /** First index at or after `i` that is not a digit. */
  function SkipDigits(s: string, i: nat): (j: nat)
    requires i <= |s|
    ensures i <= j <= |s|
    ensures forall k :: i <= k < j ==> IsDigit(s[k])
    ensures j < |s| ==> !IsDigit(s[j])
    decreases |s| - i
  {
    if i < |s| && IsDigit(s[i]) then SkipDigits(s, i + 1) else i
  }

  /** Index after an optional `+` or `-` at `i`. */
  function SkipSign(s: string, i: nat): (j: nat)
    requires i <= |s|
    ensures i <= j <= |s| && j <= i + 1
  {
    if i < |s| && (s[i] == '+' || s[i] == '-') then i + 1 else i
  }

  /** Index after an exponent `e[+-]digits` starting at `i`, or `i` itself
      when there is no complete exponent there. */
  function SkipExponent(s: string, i: nat): (j: nat)
    requires i <= |s|
    ensures i <= j <= |s|
  {
    if i < |s| && (s[i] == 'e' || s[i] == 'E') then
      var a := SkipSign(s, i + 1);
      var b := SkipDigits(s, a);
      if b > a then b else i
    else i
  }

  /** `is_numeric($s)` for a string. A non-empty run of digits is numeric;
      the empty string is not. */
  predicate IsNumeric(s: string)
    ensures |s| > 0 && AllDigits(s) ==> IsNumeric(s)
    ensures IsNumeric(s) ==> |s| > 0
  {
    var a := SkipSign(s, SkipSpaces(s, 0));
    var b := SkipDigits(s, a);
    var hasDot := b < |s| && s[b] == '.';
    var c := if hasDot then SkipDigits(s, b + 1) else b;
    var mantissaDigits := (b - a) + (if hasDot then c - b - 1 else 0);
    mantissaDigits > 0 && SkipSpaces(s, SkipExponent(s, c)) == |s|
  }

  /** Every rendered id is numeric. */
  lemma NatToStringIsNumeric(n: nat)
    ensures IsNumeric(NatToString(n))
  {
    var s := NatToString(n);
    assert SkipSpaces(s, 0) == 0;
    assert SkipSign(s, 0) == 0;
    assert SkipDigits(s, 0) == |s|;
  }

  /** The key PHP skips by name is also rejected by the numeric test. */
  lemma CommonFieldsKeyNotNumeric()
    ensures !IsNumeric("common_category_fields")
  {
    var s := "common_category_fields";
    assert SkipSpaces(s, 0) == 0;
    assert SkipSign(s, 0) == 0;
    assert SkipDigits(s, 0) == 0;
  }

  // ---------------------------------------------------------------------------
  // Decoded JSON / PHP dynamic values
  // ---------------------------------------------------------------------------

  /** A value of a decoded request payload (floats and objects are not modelled). */
  datatype Json = JNull | JBool(b: bool) | JInt(i: int) | JStr(s: string) | JList(items: seq<Json>)

  /** PHP truthiness of a dynamic value. */
  predicate JsonTruthy(v: Json) {
    match v
    case JNull => false
    case JBool(b) => b
    case JInt(i) => i != 0
    case JStr(s) => Truthy(s)
    case JList(items) => |items| > 0
  }

  /** PHP's `(int)` on a string: leading whitespace, an optional sign, then the
      longest run of digits (no digits gives 0). */
  function LeadingInt(s: string): int {
    var a := SkipSpaces(s, 0);
    var negative := a < |s| && s[a] == '-';
    var b := SkipSign(s, a);
    var c := SkipDigits(s, b);
    var magnitude: int := ParseDigits(s[b..c]);
    if negative then -magnitude else magnitude
  }

  /** A string of digits casts to the number it spells. */
  lemma LeadingIntOfDigits(s: string)
    ensures AllDigits(s) ==> LeadingInt(s) == ParseDigits(s)
  {
    if AllDigits(s) {
      assert SkipSpaces(s, 0) == 0;
      assert SkipSign(s, 0) == 0;
      assert SkipDigits(s, 0) == |s|;
      assert s[0..|s|] == s;
    }
  }

  /** PHP's `(int)` cast of a dynamic value. Apart from strings (where "0.5"
      is truthy but casts to 0), the cast is non-zero exactly on truthy
      values; every falsy value casts to 0, and a string of digits casts to
      the number it spells. */
  function ToInt(v: Json): (r: int)
    ensures !v.JStr? ==> (r != 0 <==> JsonTruthy(v))
    ensures !JsonTruthy(v) ==> r == 0
    ensures v.JStr? && AllDigits(v.s) ==> r == ParseDigits(v.s)
  {
    match v
    case JNull => 0
    case JBool(b) => if b then 1 else 0
    case JInt(i) => i
    case JStr(s) =>
      LeadingIntOfDigits(s);
      assert s == "0" ==> AllDigits(s) && ParseDigits(s) == 0 by {
        if s == "0" { assert s[..0] == []; }
      }
      LeadingInt(s)
    case JList(items) => if |items| == 0 then 0 else 1
  }

  /** Casting a rendered id back to an integer gives the id. */
  lemma ToIntOfRenderedNat(n: nat)
    ensures ToInt(JStr(NatToString(n))) == n
  {
  }
}

=== FILE: rule_comparison.dfy ===
/**
 * The three rule derivers side by side: the new-ad request, the update
 * request (for a field the ad holds no value for yet) and the field model's
 * own `getValidationRules`. They agree on text, textarea and date fields and
 * differ, type by type, in the ways stated here.
 */
module RuleComparison {
  import opened Php
  import opened FieldTypes
  import opened Schema
  import opened RuleTokens
  import opened CategoryFieldRules
  import opened StoreAdRequest
  import opened UpdateAdRequest

  /** The new-ad rules at a field's base path. */
  function StoreBase(f: CategoryField): seq<RuleToken> {
    StoreFieldRules(f)[BaseKey(CanonicalKey(f))]
  }

  /** The update rules at a field's base path. */
  function UpdateBase(f: CategoryField, hasStoredValue: bool): seq<RuleToken> {
    UpdateFieldRules(f, hasStoredValue)[BaseKey(CanonicalKey(f))]
  }

  /** The `required`/`nullable` head of the new-ad rules and of the model's. */
  function Head(f: CategoryField): RuleToken {
    if f.isRequired then Required else Nullable
  }

  /** The new-ad rules at the base path, written out. */
  lemma UnfoldStore(f: CategoryField)
    ensures StoreBase(f) == (if f.fieldType == Checkbox
      then [Head(f), ArrayRule] + ((if f.isRequired then [Min("1")] else []) + CustomTokens(f.validationRules))
      else [Head(f)] + (StoreTypeTokens(f.fieldType, f.id) + CustomTokens(f.validationRules)))
    ensures f.fieldType != Checkbox ==> StoreFieldRules(f) == map[BaseKey(CanonicalKey(f)) := StoreBase(f)]
  {
    var custom := CustomTokens(f.validationRules);
    if f.fieldType == Checkbox {
      var extra := if f.isRequired then [Min("1")] else [];
      assert [Head(f), ArrayRule] + extra + custom == [Head(f), ArrayRule] + (extra + custom);
    } else {
      var tokens := StoreTypeTokens(f.fieldType, f.id);
      assert [Head(f)] + tokens + custom == [Head(f)] + (tokens + custom);
    }
  }

  /** The update rules at the base path, written out. */
  lemma UnfoldUpdate(f: CategoryField, h: bool)
    ensures UpdateBase(f, h) ==
      [if f.isRequired && !h then Required else Nullable] + (UpdateTypeTokens(f.fieldType, f.id) + CustomTokens(f.validationRules))
    ensures f.fieldType != Checkbox ==> UpdateFieldRules(f, h) == map[BaseKey(CanonicalKey(f)) := UpdateBase(f, h)]
  {
    var custom := CustomTokens(f.validationRules);
    var base := if f.isRequired && !h then Required else Nullable;
    var tokens := UpdateTypeTokens(f.fieldType, f.id);
    assert [base] + tokens + custom == [base] + (tokens + custom);
  }

  /** The model's rules, written out. */
  lemma UnfoldModel(f: CategoryField)
    ensures GetValidationRules(f) == [Head(f)] + (ModelTypeTokens(f.fieldType, f.id) + CustomTokens(f.validationRules))
  {
    var custom := CustomTokens(f.validationRules);
    var tokens := ModelTypeTokens(f.fieldType, f.id);
    assert [Head(f)] + tokens + custom == [Head(f)] + (tokens + custom);
  }

  lemma Unfold(f: CategoryField, h: bool)
    ensures StoreBase(f) == (if f.fieldType == Checkbox
      then [Head(f), ArrayRule] + ((if f.isRequired then [Min("1")] else []) + CustomTokens(f.validationRules))
      else [Head(f)] + (StoreTypeTokens(f.fieldType, f.id) + CustomTokens(f.validationRules)))
    ensures UpdateBase(f, h) ==
      [if f.isRequired && !h then Required else Nullable] + (UpdateTypeTokens(f.fieldType, f.id) + CustomTokens(f.validationRules))
    ensures GetValidationRules(f) == [Head(f)] + (ModelTypeTokens(f.fieldType, f.id) + CustomTokens(f.validationRules))
    ensures f.fieldType != Checkbox ==>
      && StoreFieldRules(f) == map[BaseKey(CanonicalKey(f)) := StoreBase(f)]
      && UpdateFieldRules(f, h) == map[BaseKey(CanonicalKey(f)) := UpdateBase(f, h)]
  {
    UnfoldStore(f);
    UnfoldUpdate(f, h);
    UnfoldModel(f);
  }

  lemma InsertAt2<T>(a: T, b: T, x: T, c: seq<T>)
    ensures [a] + ([b, x] + c) == ([a, b] + c)[..2] + [x] + ([a, b] + c)[2..]
  {
    assert ([a, b] + c)[..2] == [a, b];
    assert ([a, b] + c)[2..] == c;
  }

  lemma Tail1<T>(a: T, c: seq<T>)
    ensures ([a] + c)[0] == a && ([a] + c)[1..] == c
  {
  }

  lemma Split2<T>(a: T, b: T, c: seq<T>)
    ensures ([a] + ([b] + c))[..2] == [a, b] && ([a] + ([b] + c))[2..] == c
    ensures [a] + ([b] + c) == [a, b] + c
  {
  }

  lemma Cons2<T>(a: T, b: T, d: T, c: seq<T>)
    ensures [a] + ([b, d] + c) == [a, b] + ([d] + c)
  {
  }

  /** Both requests key a field by the same canonical path, and an update
      for a field without a stored value starts with the same `required` or
      `nullable` as a new ad and as the model. */
  lemma SameKeyAndBase(f: CategoryField)
    ensures BaseKey(CanonicalKey(f)) in StoreFieldRules(f) && BaseKey(CanonicalKey(f)) in UpdateFieldRules(f, false)
    ensures StoreBase(f)[0] == UpdateBase(f, false)[0] == GetValidationRules(f)[0]
  {
    Unfold(f, false);
  }

  /** Text, textarea and date fields get identical rules from all three. */
  lemma AgreeOnPlainTypes(f: CategoryField)
    requires f.fieldType == Text || f.fieldType == Textarea || f.fieldType == Date
    ensures StoreFieldRules(f) == UpdateFieldRules(f, false)
    ensures StoreBase(f) == GetValidationRules(f)
  {
    Unfold(f, false);
    var t := if f.fieldType == Date then DateRule else StringRule;
    assert StoreTypeTokens(f.fieldType, f.id) == UpdateTypeTokens(f.fieldType, f.id) == ModelTypeTokens(f.fieldType, f.id) == [t];
  }

  /** Numbers: both requests say `numeric`, the model says `integer`. */
  lemma NumberDiffers(f: CategoryField)
    requires f.fieldType == Number
    ensures StoreFieldRules(f) == UpdateFieldRules(f, false)
    ensures var m := GetValidationRules(f);
      |m| >= 2 && m[1] == IntegerRule && StoreBase(f) == m[1 := NumericRule]
  {
    Unfold(f, false);
    var custom := CustomTokens(f.validationRules);
    assert StoreTypeTokens(f.fieldType, f.id) == UpdateTypeTokens(f.fieldType, f.id) == [NumericRule];
    assert ModelTypeTokens(f.fieldType, f.id) == [IntegerRule];
    Split2(Head(f), IntegerRule, custom);
    Split2(Head(f), NumericRule, custom);
  }

  /** Email and url: only the new-ad request adds a length bound, right after
      the type token. */
  lemma EmailUrlBounds(f: CategoryField)
    requires f.fieldType == Email || f.fieldType == Url
    ensures var m := GetValidationRules(f);
      var bound := if f.fieldType == Email then Max("255") else Max("2048");
      && UpdateBase(f, false) == m
      && StoreBase(f) == m[..2] + [bound] + m[2..]
  {
    Unfold(f, false);
    var custom := CustomTokens(f.validationRules);
    var t := if f.fieldType == Email then EmailRule else UrlRule;
    var bound := if f.fieldType == Email then Max("255") else Max("2048");
    assert StoreTypeTokens(f.fieldType, f.id) == [t, bound];
    assert UpdateTypeTokens(f.fieldType, f.id) == ModelTypeTokens(f.fieldType, f.id) == [t];
    Split2(Head(f), t, custom);
    InsertAt2(Head(f), t, bound, custom);
  }

  /** Select and radio: the requests demand an integer before the option
      check; the model has the option check only. All three check against
      this field's own options. */
  lemma ChoiceTypesDiffer(f: CategoryField)
    requires f.fieldType == Select || f.fieldType == Radio
    ensures StoreFieldRules(f) == UpdateFieldRules(f, false)
    ensures var m := GetValidationRules(f);
      |m| >= 2 && m[1] == ExistsOption(f.id) && StoreBase(f) == [m[0], IntegerRule] + m[1..]
  {
    Unfold(f, false);
    var custom := CustomTokens(f.validationRules);
    var e := ExistsOption(f.id);
    assert StoreTypeTokens(f.fieldType, f.id) == UpdateTypeTokens(f.fieldType, f.id) == [IntegerRule, e];
    assert ModelTypeTokens(f.fieldType, f.id) == [e];
    Tail1(Head(f), [e] + custom);
    Cons2(Head(f), IntegerRule, e, custom);
  }

  /** Checkboxes: the model and the update request say `array`; the new-ad
      request adds `min:1` when the field is required. Both requests check
      each element against the field's options. */
  lemma CheckboxDiffers(f: CategoryField)
    requires f.fieldType == Checkbox
    ensures var m := GetValidationRules(f);
      && UpdateBase(f, false) == m
      && StoreBase(f) == (if f.isRequired then m[..2] + [Min("1")] + m[2..] else m)
      && StoreFieldRules(f)[ElementKey(CanonicalKey(f))] == UpdateFieldRules(f, false)[ElementKey(CanonicalKey(f))]
  {
    Unfold(f, false);
    var custom := CustomTokens(f.validationRules);
    assert UpdateTypeTokens(f.fieldType, f.id) == ModelTypeTokens(f.fieldType, f.id) == [ArrayRule];
    Split2(Head(f), ArrayRule, custom);
    if f.isRequired {
      assert [Head(f), ArrayRule] + ([Min("1")] + custom) == [Head(f), ArrayRule] + [Min("1")] + custom;
    } else {
      assert [Head(f), ArrayRule] + ([] + custom) == [Head(f), ArrayRule] + custom;
    }
  }

  /** A type outside the nine: the model and the new-ad request give it no
      type token; the update request gives it `string`. */
  lemma OtherTypeDiffers(f: CategoryField)
    requires f.fieldType.Other?
    ensures var m := GetValidationRules(f);
      && StoreBase(f) == m
      && UpdateBase(f, false) == [m[0], StringRule] + m[1..]
  {
    Unfold(f, false);
    var custom := CustomTokens(f.validationRules);
    assert StoreTypeTokens(f.fieldType, f.id) == ModelTypeTokens(f.fieldType, f.id) == [];
    assert UpdateTypeTokens(f.fieldType, f.id) == [StringRule];
    assert [] + custom == custom;
    Tail1(Head(f), custom);
    Split2(Head(f), StringRule, custom);
  }

  /** A stored value relaxes only the update request: a required field is
      `required` for a new ad and in the model, `nullable` on update. */
  lemma StoredValueRelaxes(f: CategoryField)
    requires f.isRequired
    ensures StoreBase(f)[0] == Required && GetValidationRules(f)[0] == Required
    ensures UpdateBase(f, true)[0] == Nullable
    ensures UpdateBase(f, true)[1..] == UpdateBase(f, false)[1..]
  {
    Unfold(f, true);
    Unfold(f, false);
    var rest := UpdateTypeTokens(f.fieldType, f.id) + CustomTokens(f.validationRules);
    Tail1(Nullable, rest);
    Tail1(Required, rest);
  }
}

=== FILE: rule_tokens.dfy ===
/**
 * Validation rules as the three rule derivers produce them: opaque tokens
 * (what each token accepts is the validator's business, not modelled here),
 * rule lists, and rule maps keyed by request paths such as `fields.color`.
 */
module RuleTokens {
  import opened Wrappers
  import opened Php

  /** One Laravel validation rule. `ExistsOption(id)` is "an id of an option of
      field `id`", whether written as a rule object or as the equivalent
      `exists:category_field_options,id,category_field_id,<id>` string.
      `Custom` is a rule string taken verbatim from a field's `validation_rules`. */
  datatype RuleToken =
    | Required | Nullable | Sometimes
    | StringRule | NumericRule | IntegerRule | EmailRule | UrlRule | DateRule | ArrayRule
    | Min(bound: string) | Max(bound: string)
    | ExistsCategory
    | ExistsOption(fieldId: nat)
    | InSet(values: seq<string>)
    | Custom(text: string)

  /** Rule lists keyed by request path. PHP's `array_merge` on string keys is
      map union with the right operand winning. */
  type RuleMap = map<string, seq<RuleToken>>

  /** The texts of a list of custom tokens. */
  function Texts(ts: seq<RuleToken>): (r: seq<string>)
    requires forall i :: 0 <= i < |ts| ==> ts[i].Custom?
    ensures |r| == |ts|
    ensures forall i :: 0 <= i < |ts| ==> ts[i] == Custom(r[i])
  {
    if |ts| == 0 then [] else [ts[0].text] + Texts(ts[1..])
  }

  /** A field's own rules: `explode('|', validation_rules)` when that column is
      truthy, otherwise nothing. Every piece is kept, empty ones included. */
  function CustomTokens(validationRules: Option<string>): (r: seq<RuleToken>)
    ensures validationRules.None? || !Truthy(validationRules.value) ==> r == []
    ensures forall i :: 0 <= i < |r| ==> r[i].Custom? && '|' !in r[i].text
    ensures validationRules.Some? && Truthy(validationRules.value) ==>
      |r| >= 1 && Join(Texts(r), '|') == validationRules.value
  {
    match validationRules
    case None => []
    case Some(text) =>
      if !Truthy(text) then []
      else
        var parts := Split(text, '|');
        var r := seq(|parts|, i requires 0 <= i < |parts| => Custom(parts[i]));
        assert Texts(r) == parts;
        r
  }

  /** Delimiter-free rule strings joined by `|` come back as one custom token
      each, in order. */
  lemma CustomTokensOfJoin(parts: seq<string>)
    requires |parts| >= 1 && Truthy(Join(parts, '|'))
    requires forall i :: 0 <= i < |parts| ==> '|' !in parts[i]
    ensures var r := CustomTokens(Some(Join(parts, '|')));
      |r| == |parts| && forall i :: 0 <= i < |parts| ==> r[i] == Custom(parts[i])
  {
    SplitJoin(parts, '|');
  }

  /** Whether a token makes its key `required`, spelled as a token or as a
      custom rule string. */
  predicate IsRequiredToken(t: RuleToken) {
    t == Required || t == Custom("required")
  }

  predicate HasRequired(ts: seq<RuleToken>) {
    exists i :: 0 <= i < |ts| && IsRequiredToken(ts[i])
  }

  /** `required` followed by the rest of a list is required. */
  lemma RequiredHead(ts: seq<RuleToken>)
    requires |ts| > 0 && ts[0] == Required
    ensures HasRequired(ts)
  {
    assert IsRequiredToken(ts[0]);
  }
}

=== FILE: schema.dfy ===
/**
 * The persisted shape of the field schema engine: categories, category
 * fields, field options, ads and ad field values, held as tables of rows in
 * primary-key order, with the column defaults, uniqueness rules and foreign-key
 * actions the migrations declare.
 */
module Schema {
  import opened Wrappers
  import opened Php
  import opened FieldTypes
  import opened Tables

  // ---------------------------------------------------------------------------
  // Rows
  // ---------------------------------------------------------------------------

  /** A taxonomy node. The `metadata` JSON column is not modelled. */
  datatype Category = Category(
    id: nat,
    externalId: string,
    name: string,
    slug: string,
    description: Option<string>,
    parentId: Option<nat>,
    order: int)

  /** A schema slot of a category (`category_fields`). `metadata` is not modelled. */
  datatype CategoryField = CategoryField(
    id: nat,
    categoryId: Option<nat>,
    externalId: string,
    name: string,
    labelText: string,
    fieldType: FieldType,
    isRequired: bool,
    isSearchable: bool,
    order: int,
    validationRules: Option<string>,
    placeholder: Option<string>,
    helpText: Option<string>)

  /** One selectable choice of a field (`category_field_options`). The external
      id is nullable and not unique; value and label are required. */
  datatype FieldOption = FieldOption(
    id: nat,
    fieldId: nat,
    externalId: Option<string>,
    value: string,
    labelText: string,
    order: int,
    isDefault: bool)

  /** The seven nullable typed columns of an `ad_field_values` row; `None` is
      SQL NULL. A column holding a dynamic value never holds `Some(JNull)`. */
  datatype Columns = Columns(
    text: Option<Json>,
    integer: Option<int>,
    decimal: Option<string>,
    date: Option<Json>,
    boolean: Option<bool>,
    json: Option<seq<Json>>,
    optionId: Option<Json>)

  /** Names of the seven typed columns. */
  datatype Column = TextColumn | IntegerColumn | DecimalColumn | DateColumn | BooleanColumn | JsonColumn | OptionColumn

  /** A row with every typed column NULL: the shape `updateOrCreate` inserts
      before a value is set, admissible because all seven columns are nullable. */
  const NoColumns := Columns(None, None, None, None, None, None, None)

  /** One typed value of one (ad, field) pair. */
  datatype ValueRow = ValueRow(id: nat, adId: nat, fieldId: nat, cols: Columns)

  /** A listing. Prices are kept as opaque decimal text; timestamps as integers. */
  datatype Ad = Ad(
    id: nat,
    userId: nat,
    categoryId: nat,
    title: string,
    description: string,
    price: Option<string>,
    status: string,
    publishedAt: Option<int>,
    expiresAt: Option<int>,
    viewsCount: nat)

  /** The database: one table per entity plus its auto-increment counter. */
  datatype Store = Store(
    categories: seq<Category>,
    fields: seq<CategoryField>,
    options: seq<FieldOption>,
    ads: seq<Ad>,
    values: seq<ValueRow>,
    nextCategory: nat,
    nextField: nat,
    nextOption: nat,
    nextAd: nat,
    nextValue: nat)

  // Named key projections (shared by every statement about a table).
  function CategoryId(c: Category): nat { c.id }
  function CategoryExternalId(c: Category): string { c.externalId }
  function FieldId(f: CategoryField): nat { f.id }
  function FieldKey(f: CategoryField): (Option<nat>, string) { (f.categoryId, f.externalId) }
  function OptionId(o: FieldOption): nat { o.id }
  /** The key options are upserted under: (field, external id). SQL never
      matches a NULL external id, so an option without one is told apart by
      its own id and collides with no other. */
  function OptionKey(o: FieldOption): (nat, Option<string>, nat) {
    (o.fieldId, o.externalId, if o.externalId.None? then o.id else 0)
  }
  function AdId(a: Ad): nat { a.id }
  function ValueId(v: ValueRow): nat { v.id }
  function ValuePair(v: ValueRow): (nat, nat) { (v.adId, v.fieldId) }

  /** The primary keys of every table are unique and below their counters. */
  predicate IdsValid(s: Store) {
    && KeysUnique(s.categories, CategoryId) && IdsBelow(s.categories, CategoryId, s.nextCategory)
    && KeysUnique(s.fields, FieldId) && IdsBelow(s.fields, FieldId, s.nextField)
    && KeysUnique(s.options, OptionId) && IdsBelow(s.options, OptionId, s.nextOption)
    && KeysUnique(s.ads, AdId) && IdsBelow(s.ads, AdId, s.nextAd)
    && KeysUnique(s.values, ValueId) && IdsBelow(s.values, ValueId, s.nextValue)
  }

  /** `UNIQUE(ad_id, category_field_id)`: at most one value row per pair. */
  predicate ValuePairsUnique(s: Store) {
    KeysUnique(s.values, ValuePair)
  }

  /** Every stored field type is one of the nine enum values. */
  predicate FieldTypesInEnum(s: Store) {
    forall i :: 0 <= i < |s.fields| ==> InEnum(s.fields[i].fieldType)
  }

  /** The invariants the database itself enforces. */
  predicate Valid(s: Store) {
    IdsValid(s) && ValuePairsUnique(s) && FieldTypesInEnum(s)
  }

  // ---------------------------------------------------------------------------
  // Inserts with column defaults
  // ---------------------------------------------------------------------------

  /** The columns of a field insert; the three defaultable ones may be omitted. */
  datatype FieldInsert = FieldInsert(
    categoryId: Option<nat>,
    externalId: string,
    name: string,
    labelText: string,
    fieldType: FieldType,
    isRequired: Option<bool>,
    isSearchable: Option<bool>,
    order: Option<int>,
    validationRules: Option<string>)

  /** `INSERT INTO category_fields`: omitted flags default to false and the
      order to 0. Nothing checks (category_id, external_id) for duplicates,
      since that pair is only indexed. */
  function InsertField(s: Store, ins: FieldInsert): (r: Store)
    ensures |r.fields| == |s.fields| + 1 && r.fields[..|s.fields|] == s.fields
    ensures var f := r.fields[|s.fields|];
      && f.id == s.nextField
      && (f.categoryId, f.externalId, f.fieldType) == (ins.categoryId, ins.externalId, ins.fieldType)
      && (ins.isRequired.None? ==> !f.isRequired)
      && (ins.isSearchable.None? ==> !f.isSearchable)
      && (ins.order.None? ==> f.order == 0)
    ensures r.nextField == s.nextField + 1
  {
    var f := CategoryField(s.nextField, ins.categoryId, ins.externalId, ins.name, ins.labelText,
      ins.fieldType, ins.isRequired.GetOr(false), ins.isSearchable.GetOr(false),
      ins.order.GetOr(0), ins.validationRules, None, None);
    s.(fields := s.fields + [f], nextField := s.nextField + 1)
  }

  /** Two inserts of the same (category, external id) pair both succeed, so
      uniqueness of that pair is not a database guarantee. */
  lemma FieldKeyNotEnforced(s: Store, ins: FieldInsert)
    ensures var r := InsertField(InsertField(s, ins), ins);
      |r.fields| == |s.fields| + 2 && !KeysUnique(r.fields, FieldKey)
  {
    var r := InsertField(InsertField(s, ins), ins);
    var n := |s.fields|;
    assert FieldKey(r.fields[n]) == FieldKey(r.fields[n + 1]);
  }

  /** The columns of an option insert; order and is_default may be omitted. */
  datatype OptionInsert = OptionInsert(
    fieldId: nat,
    externalId: Option<string>,
    value: string,
    labelText: string,
    order: Option<int>,
    isDefault: Option<bool>)

  /** `INSERT INTO category_field_options`: order defaults to 0, is_default to
      false; external ids may be NULL or repeated. */
  function InsertOption(s: Store, ins: OptionInsert): (r: Store)
    ensures |r.options| == |s.options| + 1 && r.options[..|s.options|] == s.options
    ensures var o := r.options[|s.options|];
      && o.id == s.nextOption
      && (o.fieldId, o.externalId, o.value, o.labelText) == (ins.fieldId, ins.externalId, ins.value, ins.labelText)
      && (ins.order.None? ==> o.order == 0)
      && (ins.isDefault.None? ==> !o.isDefault)
    ensures r.nextOption == s.nextOption + 1
  {
    var o := FieldOption(s.nextOption, ins.fieldId, ins.externalId, ins.value, ins.labelText,
      ins.order.GetOr(0), ins.isDefault.GetOr(false));
    s.(options := s.options + [o], nextOption := s.nextOption + 1)
  }

  // ---------------------------------------------------------------------------
  // Foreign-key actions
  // ---------------------------------------------------------------------------

  /** The option a row's `category_field_option_id` points at, as the database
      reads the stored value. */
  predicate RefersToOption(c: Columns, optionId: nat) {
    c.optionId.Some? && ToInt(c.optionId.value) == optionId as int
  }

  /** True when a row points at one of the options in `doomed`. */
  predicate RefersToAny(c: Columns, doomed: set<nat>) {
    c.optionId.Some? && ToInt(c.optionId.value) >= 0 && ToInt(c.optionId.value) as nat in doomed
  }

  /** `ON DELETE SET NULL` on `category_field_option_id`. */
  function ClearOptionRef(v: ValueRow, doomed: set<nat>): (r: ValueRow)
    ensures r.id == v.id && ValuePair(r) == ValuePair(v)
    ensures forall id :: id in doomed ==> !RefersToOption(r.cols, id)
  {
    if RefersToAny(v.cols, doomed) then v.(cols := v.cols.(optionId := None)) else v
  }

  function ClearOptionRefs(values: seq<ValueRow>, doomed: set<nat>): (r: seq<ValueRow>)
    ensures |r| == |values|
    ensures forall i :: 0 <= i < |r| ==> r[i] == ClearOptionRef(values[i], doomed)
  {
    if |values| == 0 then [] else [ClearOptionRef(values[0], doomed)] + ClearOptionRefs(values[1..], doomed)
  }

  /** Deletes the options satisfying `p`; rows pointing at them keep existing
      with the option reference set to NULL. */
  function DeleteOptionsWhere(s: Store, p: FieldOption -> bool): (r: Store)
    ensures forall o :: o in r.options <==> o in s.options && !p(o)
    ensures |r.values| == |s.values|
    ensures forall i :: 0 <= i < |r.values| ==>
      && ValuePair(r.values[i]) == ValuePair(s.values[i])
      && r.values[i].id == s.values[i].id
      && forall o :: o in s.options && p(o) ==> !RefersToOption(r.values[i].cols, o.id)
    ensures r == s.(options := r.options, values := r.values)
    ensures Valid(s) ==> Valid(r)
    ensures KeysUnique(s.options, OptionKey) ==> KeysUnique(r.options, OptionKey)
  {
    var doomed := set o | o in s.options && p(o) :: o.id;
    var keep := (o: FieldOption) => !p(o);
    var r := s.(options := Filter(s.options, keep), values := ClearOptionRefs(s.values, doomed));
    assert forall o :: o in s.options && p(o) ==> o.id in doomed;
    FilterKeepsOptionKeys(s.options, keep);
    if Valid(s) then
      FilterOptionsKeepsValid(s, keep, doomed);
      r
    else
      r
  }

  lemma FilterKeepsOptionKeys(options: seq<FieldOption>, keep: FieldOption -> bool)
    ensures KeysUnique(options, OptionKey) ==> KeysUnique(Filter(options, keep), OptionKey)
  {
    if KeysUnique(options, OptionKey) {
      FilterKeepsKeysUnique(options, keep, OptionKey);
    }
  }

  lemma FilterOptionsKeepsValid(s: Store, keep: FieldOption -> bool, doomed: set<nat>)
    requires Valid(s)
    ensures Valid(s.(options := Filter(s.options, keep), values := ClearOptionRefs(s.values, doomed)))
  {
    var r := s.(options := Filter(s.options, keep), values := ClearOptionRefs(s.values, doomed));
    FilterKeepsKeysUnique(s.options, keep, OptionId);
    assert IdsBelow(r.options, OptionId, r.nextOption) by {
      forall i | 0 <= i < |r.options| ensures OptionId(r.options[i]) < r.nextOption {
        assert r.options[i] in s.options;
      }
    }
    assert forall i :: 0 <= i < |r.values| ==> ValueId(r.values[i]) == ValueId(s.values[i]) && ValuePair(r.values[i]) == ValuePair(s.values[i]);
  }

  /** Deleting one option: no row is removed, and none still points at it. */
  function DeleteOption(s: Store, optionId: nat): (r: Store)
    ensures forall o :: o in r.options <==> o in s.options && o.id != optionId
    ensures |r.values| == |s.values|
    ensures forall i :: 0 <= i < |r.values| ==> ValuePair(r.values[i]) == ValuePair(s.values[i])
    ensures (exists o :: o in s.options && o.id == optionId) ==>
      forall i :: 0 <= i < |r.values| ==> !RefersToOption(r.values[i].cols, optionId)
  {
    DeleteOptionsWhere(s, (o: FieldOption) => o.id == optionId)
  }

  /** Deletes the fields satisfying `p`, cascading to their options (which sets
      references to those options NULL) and to their value rows. */
  function DeleteFieldsWhere(s: Store, p: CategoryField -> bool): (r: Store)
    ensures forall f :: f in r.fields <==> f in s.fields && !p(f)
    ensures forall o :: o in r.options ==> o in s.options
    ensures forall o :: o in r.options ==> forall f :: f in s.fields && p(f) ==> o.fieldId != f.id
    ensures forall v :: v in r.values ==> forall f :: f in s.fields && p(f) ==> v.fieldId != f.id
    ensures r.categories == s.categories && r.ads == s.ads
  {
    var doomed := set f | f in s.fields && p(f) :: f.id;
    var s1 := DeleteOptionsWhere(s, (o: FieldOption) => o.fieldId in doomed);
    s1.(fields := Filter(s1.fields, (f: CategoryField) => !p(f)),
        values := Filter(s1.values, (v: ValueRow) => v.fieldId !in doomed))
  }

  /** Deleting a field deletes its options and every value row of the field. */
  function DeleteField(s: Store, fieldId: nat): (r: Store)
    ensures forall f :: f in r.fields <==> f in s.fields && f.id != fieldId
    ensures forall o :: o in r.options ==> o in s.options
    ensures (exists f :: f in s.fields && f.id == fieldId) ==>
      && (forall o :: o in r.options ==> o.fieldId != fieldId)
      && (forall v :: v in r.values ==> v.fieldId != fieldId)
  {
    var p := (f: CategoryField) => f.id == fieldId;
    DeleteFieldsWhere(s, p)
  }

  /** Deleting an ad deletes its value rows and nothing else. */
  function DeleteAd(s: Store, adId: nat): (r: Store)
    ensures forall a :: a in r.ads <==> a in s.ads && a.id != adId
    ensures forall v :: v in r.values <==> v in s.values && v.adId != adId
    ensures r.categories == s.categories && r.fields == s.fields && r.options == s.options
  {
    s.(ads := Filter(s.ads, (a: Ad) => a.id != adId), values := Filter(s.values, (v: ValueRow) => v.adId != adId))
  }

  datatype DeleteError = CategoryInUse(categoryId: nat)

  /** Deleting a category is refused while an ad references it (`restrict` on
      `ads.category_id`); otherwise its fields go with it, cascading further. */
  function DeleteCategory(s: Store, categoryId: nat): (r: Result<Store, DeleteError>)
    ensures r.Failure? <==> exists a :: a in s.ads && a.categoryId == categoryId
    ensures r.Success? ==>
      && (forall c :: c in r.value.categories <==> c in s.categories && c.id != categoryId)
      && (forall f :: f in r.value.fields <==> f in s.fields && f.categoryId != Some(categoryId))
  {
    if exists a :: a in s.ads && a.categoryId == categoryId then Failure(CategoryInUse(categoryId))
    else
      var s1 := DeleteFieldsWhere(s, (f: CategoryField) => f.categoryId == Some(categoryId));
      Success(s1.(categories := Filter(s1.categories, (c: Category) => c.id != categoryId)))
  }
}

=== FILE: store_ad_request.dfy ===
/**
 * Validation of a new ad: the fixed rules of the listing columns, the rules
 * derived from the chosen category's fields under their canonical payload
 * keys, and the 422 response a failed validation produces. Of the validator
 * itself only the `required` rule is evaluated.
 */
module StoreAdRequest {
  import opened Wrappers
  import opened Php
  import opened FieldTypes
  import opened Tables
  import opened Schema
  import opened RuleTokens
  import opened Taxonomy

  // ---------------------------------------------------------------------------
  // Canonical payload keys
  // ---------------------------------------------------------------------------

  /** `external_id ?: name ?: id`: the first truthy of the external id and
      the name, else the id rendered in decimal. "" and "0" fall through. */
  function CanonicalKey(f: CategoryField): (k: string)
    ensures |k| >= 1
    ensures k == f.externalId || k == f.name || k == NatToString(f.id)
    ensures Truthy(f.externalId) <==> k == f.externalId && Truthy(k)
    ensures !Truthy(f.externalId) ==> (Truthy(f.name) <==> k == f.name && Truthy(k))
    ensures Truthy(k) <==> Truthy(f.externalId) || Truthy(f.name) || f.id != 0
    ensures !Truthy(f.externalId) && !Truthy(f.name) ==> ToInt(JStr(k)) == f.id
  {
    NatToStringTruthy(f.id);
    ToIntOfRenderedNat(f.id);
    if Truthy(f.externalId) then f.externalId
    else if Truthy(f.name) then f.name
    else NatToString(f.id)
  }

  const FieldsPrefix: string := "fields."

  /** The request path of a dynamic field: `fields.<key>`. */
  function BaseKey(key: string): string {
    FieldsPrefix + key
  }

  /** The request path of each element of a checkbox field: `fields.<key>.*`. */
  function ElementKey(key: string): string {
    BaseKey(key) + ".*"
  }

  predicate HasFieldsPrefix(path: string) {
    |path| >= |FieldsPrefix| && path[..|FieldsPrefix|] == FieldsPrefix
  }

  /** Both dynamic paths of a key start with `fields.`, and they differ. */
  lemma DynamicPaths(key: string)
    ensures HasFieldsPrefix(BaseKey(key)) && HasFieldsPrefix(ElementKey(key))
    ensures BaseKey(key) != ElementKey(key)
  {
    assert BaseKey(key)[..|FieldsPrefix|] == FieldsPrefix;
    assert ElementKey(key)[..|FieldsPrefix|] == FieldsPrefix;
    assert |BaseKey(key)| != |ElementKey(key)|;
  }

  // ---------------------------------------------------------------------------
  // Rules of one field
  // ---------------------------------------------------------------------------

  /** The type tokens of a non-checkbox field; other (non-enum) types get none. */
  function StoreTypeTokens(t: FieldType, fieldId: nat): (r: seq<RuleToken>)
    ensures |r| <= 2
    ensures |r| == 0 <==> t.Other? || t == Checkbox
    ensures forall i :: 0 <= i < |r| && r[i].ExistsOption? ==> r[i].fieldId == fieldId
    ensures forall i :: 0 <= i < |r| ==> r[i] != Required && r[i] != Nullable && !r[i].Custom?
  {
    match t
    case Text => [StringRule]
    case Textarea => [StringRule]
    case Number => [NumericRule]
    case Email => [EmailRule, Max("255")]
    case Url => [UrlRule, Max("2048")]
    case Date => [DateRule]
    case Select => [IntegerRule, ExistsOption(fieldId)]
    case Radio => [IntegerRule, ExistsOption(fieldId)]
    case Checkbox => []
    case Other(_) => []
  }

  /** The paths a field's rules occupy: its base path, and for a checkbox
      also its element path. */
  function FieldPaths(f: CategoryField): set<string> {
    var key := CanonicalKey(f);
    if f.fieldType == Checkbox then {BaseKey(key), ElementKey(key)} else {BaseKey(key)}
  }

  /** `buildRulesForField`. A checkbox gets two paths: the array itself
      (`required` or `nullable`, `array`, `min:1` when required, then its own
      rules) and each element (an integer naming one of its options). Any
      other field gets one path: `required` or `nullable`, its type tokens,
      then its own rules. */
  function StoreFieldRules(f: CategoryField): (r: RuleMap)
    ensures BaseKey(CanonicalKey(f)) in r
    ensures r.Keys == FieldPaths(f)
    ensures forall p :: p in r ==> HasFieldsPrefix(p)
    ensures var rules := r[BaseKey(CanonicalKey(f))];
      var custom := CustomTokens(f.validationRules);
      && |rules| >= 1 + |custom|
      && (rules[0] == Required <==> f.isRequired)
      && (rules[0] == Required || rules[0] == Nullable)
      && rules[|rules| - |custom|..] == custom
    ensures f.fieldType == Checkbox ==>
      var rules := r[BaseKey(CanonicalKey(f))];
      && |rules| >= 2 && rules[1] == ArrayRule
      && (|rules| - |CustomTokens(f.validationRules)| == 3 <==> f.isRequired)
      && (f.isRequired ==> rules[2] == Min("1"))
      && r[ElementKey(CanonicalKey(f))] == [IntegerRule, ExistsOption(f.id)]
  {
    var key := CanonicalKey(f);
    DynamicPaths(key);
    var base := if f.isRequired then Required else Nullable;
    var custom := CustomTokens(f.validationRules);
    if f.fieldType == Checkbox then
      var arrayRules := [base, ArrayRule] + (if f.isRequired then [Min("1")] else []);
      var rules := arrayRules + custom;
      AppendParts(arrayRules, custom);
      map[BaseKey(key) := rules, ElementKey(key) := [IntegerRule, ExistsOption(f.id)]]
    else
      var head := [base] + StoreTypeTokens(f.fieldType, f.id);
      var rules := head + custom;
      AppendParts(head, custom);
      map[BaseKey(key) := rules]
  }

  // ---------------------------------------------------------------------------
  // Rules of a category
  // ---------------------------------------------------------------------------

  /** The per-field maps merged in field order; a later field's path replaces
      an earlier field's identical path. */
  function DynamicRules(fs: seq<CategoryField>): (r: RuleMap)
    ensures forall p :: p in r ==> HasFieldsPrefix(p)
    decreases |fs|
  {
    if |fs| == 0 then map[]
    else DynamicRules(fs[..|fs| - 1]) + StoreFieldRules(fs[|fs| - 1])
  }

  /** Some field of `fs` produces the path. */
  predicate Produces(fs: seq<CategoryField>, p: string) {
    exists i :: 0 <= i < |fs| && p in FieldPaths(fs[i])
  }

  /** The merged map has exactly the paths some field produces. */
  lemma {:induction false} DynamicRulesPaths(fs: seq<CategoryField>)
    ensures forall p :: p in DynamicRules(fs) <==> Produces(fs, p)
    decreases |fs|
  {
    if |fs| > 0 {
      var init := fs[..|fs| - 1];
      DynamicRulesPaths(init);
      forall p ensures p in DynamicRules(fs) <==> Produces(fs, p) {
        ProducesSplit(fs, p);
      }
    }
  }

  /** A path is produced by a non-empty list when it is produced by all but
      the last field, or by the last one. */
  lemma ProducesSplit(fs: seq<CategoryField>, p: string)
    requires |fs| > 0
    ensures Produces(fs, p) <==> Produces(fs[..|fs| - 1], p) || p in FieldPaths(fs[|fs| - 1])
  {
    var init := fs[..|fs| - 1];
    if Produces(init, p) {
      var i :| 0 <= i < |init| && p in FieldPaths(init[i]);
      assert init[i] == fs[i];
    }
    if Produces(fs, p) {
      var i :| 0 <= i < |fs| && p in FieldPaths(fs[i]);
      if i < |fs| - 1 {
        assert init[i] == fs[i];
      }
    }
  }

  /** The rules at a path are those of the last field that produces that path. */
  lemma {:induction false} DynamicRulesLastWins(fs: seq<CategoryField>, i: nat, p: string)
    requires i < |fs| && p in FieldPaths(fs[i])
    requires forall j :: i < j < |fs| ==> p !in FieldPaths(fs[j])
    ensures p in DynamicRules(fs) && DynamicRules(fs)[p] == StoreFieldRules(fs[i])[p]
    decreases |fs|
  {
    var init := fs[..|fs| - 1];
    if i < |fs| - 1 {
      assert init[i] == fs[i];
      forall j | i < j < |init| ensures p !in FieldPaths(init[j]) {
        assert init[j] == fs[j];
      }
      DynamicRulesLastWins(init, i, p);
    }
  }

  /** Two fields with the same canonical key: the later one's rules are the
      ones in force for that key. */
  lemma SharedKeyLaterWins(fs: seq<CategoryField>, i: nat, j: nat)
    requires i < j < |fs| && CanonicalKey(fs[i]) == CanonicalKey(fs[j])
    requires forall m :: j < m < |fs| ==> BaseKey(CanonicalKey(fs[j])) !in FieldPaths(fs[m])
    ensures var p := BaseKey(CanonicalKey(fs[i]));
      p in DynamicRules(fs) && DynamicRules(fs)[p] == StoreFieldRules(fs[j])[p]
  {
    DynamicRulesLastWins(fs, j, BaseKey(CanonicalKey(fs[j])));
  }

  // ---------------------------------------------------------------------------
  // The request
  // ---------------------------------------------------------------------------

  /** The `fields` entry of a request body: absent, a PHP array (a JSON
      object, or a list under its index keys `"0"`, `"1"`, ...), or any other
      value, null included. */
  datatype FieldsInput = NoFields | FieldsArray(entries: map<string, Json>) | FieldsOther(v: Json)

  /** A decoded request body: its top-level inputs other than `fields`, and
      its `fields` entry. */
  datatype Request = Request(input: map<string, Json>, fields: FieldsInput)

  /** `$this->has('fields')`: the body has a `fields` key, whatever its value. */
  predicate HasFields(req: Request) {
    !req.fields.NoFields?
  }

  /** `$this->input(name)`: the top-level value, or null when absent. */
  function Input(req: Request, name: string): Json {
    if name in req.input then req.input[name] else JNull
  }

  /** The id `Category::find` looks up for a submitted `category_id`: an
      integer, or a string of decimal digits. It is the id `(int)` reads
      from the value. */
  function SubmittedId(v: Json): (r: Option<int>)
    ensures v.JInt? ==> r == Some(v.i)
    ensures v.JStr? ==> (r.Some? <==> |v.s| > 0 && AllDigits(v.s))
    ensures !v.JInt? && !v.JStr? ==> r.None?
    ensures r.Some? ==> r.value == ToInt(v)
  {
    match v
    case JInt(i) => Some(i)
    case JStr(s) => if |s| > 0 && AllDigits(s) then Some(ParseDigits(s)) else None
    case _ => None
  }

  /** The category the request names, if any: none when `category_id` is
      falsy or names no stored category. */
  function RequestCategory(s: Store, req: Request): (r: Option<Category>)
    ensures r.Some? ==> r.value in s.categories && JsonTruthy(Input(req, "category_id"))
    ensures r.Some? ==> SubmittedId(Input(req, "category_id")) == Some(r.value.id)
    ensures !JsonTruthy(Input(req, "category_id")) ==> r.None?
    ensures var v := Input(req, "category_id");
      JsonTruthy(v) && SubmittedId(v).Some? && (exists c :: c in s.categories && c.id == SubmittedId(v).value) ==> r.Some?
  {
    var v := Input(req, "category_id");
    if !JsonTruthy(v) then None
    else
      match SubmittedId(v)
      case None => None
      case Some(id) => FindCategory(s, id)
  }

  /** `getDynamicFieldRules`: nothing without a category, else the merged
      rules of its fields in `order`. */
  function StoreDynamicRules(s: Store, req: Request): (r: RuleMap)
    ensures RequestCategory(s, req).None? ==> r == map[]
    ensures forall p :: p in r ==> HasFieldsPrefix(p)
    ensures RequestCategory(s, req).Some? ==>
      forall f :: f in FieldsOf(s, RequestCategory(s, req).value.id) ==> BaseKey(CanonicalKey(f)) in r
  {
    match RequestCategory(s, req)
    case None => map[]
    case Some(c) =>
      var fs := FieldsOf(s, c.id);
      BaseKeysPresent(fs);
      DynamicRules(fs)
  }

  /** Every field of the list has its base path in the merged map. */
  lemma BaseKeysPresent(fs: seq<CategoryField>)
    ensures forall f :: f in fs ==> BaseKey(CanonicalKey(f)) in DynamicRules(fs)
  {
    DynamicRulesPaths(fs);
    forall f | f in fs ensures BaseKey(CanonicalKey(f)) in DynamicRules(fs) {
      var i :| 0 <= i < |fs| && fs[i] == f;
      assert Produces(fs, BaseKey(CanonicalKey(f)));
    }
  }

  /** The fixed rules of the listing columns. */
  const StoreBaseRules: RuleMap := map[
    "category_id" := [Required, IntegerRule, ExistsCategory],
    "title" := [Required, StringRule, Min("5"), Max("100")],
    "description" := [Required, StringRule, Min("20"), Max("5000")],
    "price" := [Nullable, NumericRule, Min("0"), Max("999999999.99")]]

  /** None of the fixed paths starts with `fields.`. */
  lemma BaseRulesNotDynamic()
    ensures forall p :: p in StoreBaseRules ==> !HasFieldsPrefix(p)
  {
    assert !HasFieldsPrefix("category_id") by { assert "category_id"[..7][0] == 'c'; }
    assert !HasFieldsPrefix("title");
    assert !HasFieldsPrefix("description") by { assert "description"[..7][0] == 'd'; }
    assert !HasFieldsPrefix("price");
  }

  /** A listing needs a category, a title and a description; the price may
      be left out or null. */
  lemma StoreBaseRulesRequired()
    ensures StoreBaseRules.Keys == {"category_id", "title", "description", "price"}
    ensures forall p :: p in StoreBaseRules ==> (HasRequired(StoreBaseRules[p]) <==> p != "price")
  {
    assert IsRequiredToken(StoreBaseRules["category_id"][0]);
    assert IsRequiredToken(StoreBaseRules["title"][0]);
    assert IsRequiredToken(StoreBaseRules["description"][0]);
    var price := StoreBaseRules["price"];
    assert forall i :: 0 <= i < |price| ==> !IsRequiredToken(price[i]);
  }

  /** `rules()`: the fixed rules merged with the dynamic ones. No dynamic path
      can replace a fixed one. */
  function StoreRules(s: Store, req: Request): (r: RuleMap)
    ensures forall p :: p in StoreBaseRules ==> p in r && r[p] == StoreBaseRules[p]
    ensures forall p :: p in r <==> p in StoreBaseRules || p in StoreDynamicRules(s, req)
    ensures forall p :: p in r && !(p in StoreBaseRules) ==> r[p] == StoreDynamicRules(s, req)[p]
  {
    BaseRulesNotDynamic();
    StoreBaseRules + StoreDynamicRules(s, req)
  }

  // ---------------------------------------------------------------------------
  // Evaluating `required` and the 422 response
  // ---------------------------------------------------------------------------

  /** Whether a path segment names a position of a list: a decimal numeral
      without a leading zero, the form PHP normalises integer array keys to. */
  predicate IsIndex(seg: string) {
    |seg| > 0 && AllDigits(seg) && (|seg| == 1 || seg[0] != '0')
  }

  /** The walk below the first segment of a path: each further segment
      indexes a list; no other value has anything below it. */
  function Walk(v: Json, segs: seq<string>): (r: Option<Json>)
    ensures |segs| == 0 ==> r == Some(v)
    ensures |segs| > 0 && !v.JList? ==> r.None?
    decreases |segs|
  {
    if |segs| == 0 then Some(v)
    else
      match v
      case JList(items) =>
        if IsIndex(segs[0]) && ParseDigits(segs[0]) < |items| then Walk(items[ParseDigits(segs[0])], segs[1..])
        else None
      case _ => None
  }

  /** The value at a rule path, as the validator reads it. The path is split
      at every `.`: the first segment after `fields.` names an entry of the
      `fields` array and the others walk down into it; any other path names
      a top-level input. The validator escapes a `.` inside a payload key, so
      such a key never matches a segment. */
  function Lookup(req: Request, path: string): (r: Option<Json>)
    ensures HasFieldsPrefix(path) && !req.fields.FieldsArray? ==> r.None?
    ensures HasFieldsPrefix(path) && req.fields.FieldsArray? ==>
      var segs := Split(path[|FieldsPrefix|..], '.');
      r == if segs[0] in req.fields.entries then Walk(req.fields.entries[segs[0]], segs[1..]) else None
    ensures !HasFieldsPrefix(path) ==> (r.Some? <==> path in req.input)
  {
    if HasFieldsPrefix(path) then
      var segs := Split(path[|FieldsPrefix|..], '.');
      match req.fields
      case FieldsArray(entries) => if segs[0] in entries then Walk(entries[segs[0]], segs[1..]) else None
      case _ => None
    else if path in req.input then Some(req.input[path])
    else None
  }

  /** The payload holds nothing at `fields.<key>`: `fields` is no array, or
      has no entry under the key's first segment. */
  predicate Unsupplied(req: Request, key: string) {
    !req.fields.FieldsArray? || Split(key, '.')[0] !in req.fields.entries
  }

  /** A key without a `.` is read as the one entry of `fields` under it. */
  lemma LookupPlainKey(req: Request, key: string)
    requires '.' !in key
    ensures Lookup(req, BaseKey(key)) ==
      if req.fields.FieldsArray? && key in req.fields.entries then Some(req.fields.entries[key]) else None
    ensures Unsupplied(req, key) <==> !req.fields.FieldsArray? || key !in req.fields.entries
  {
    DynamicPaths(key);
    assert BaseKey(key)[|FieldsPrefix|..] == key;
    assert Split(key, '.') == [key];
  }

  /** An entry of `fields` under a key that holds a `.` is never read at that
      key's own path: changing it changes nothing the validator sees there. */
  lemma DottedKeyInvisible(req: Request, key: string, v: Json)
    requires '.' in key && req.fields.FieldsArray?
    ensures var changed := req.(fields := FieldsArray(req.fields.entries[key := v]));
      && Lookup(changed, BaseKey(key)) == Lookup(req, BaseKey(key))
      && (Unsupplied(changed, key) <==> Unsupplied(req, key))
  {
    DynamicPaths(key);
    assert BaseKey(key)[|FieldsPrefix|..] == key;
    var head := Split(key, '.')[0];
    assert '.' !in head;
    assert head != key;
  }

  /** Laravel's `required` fails on an absent value, null, a string that trims
      to nothing, and an empty array. It is not PHP truthiness: a present 0,
      `false` or "0" passes it. */
  predicate Missing(v: Option<Json>)
    ensures v.Some? && (v.value.JInt? || v.value.JBool?) ==> !Missing(v)
    ensures v.Some? && v.value.JList? ==> (Missing(v) <==> !JsonTruthy(v.value))
    ensures v.Some? && v.value.JStr? && Missing(v) ==> v.value.s != "0"
    ensures v.Some? && v.value.JStr? && !Missing(v) ==> v.value.s != ""
  {
    match v
    case None => true
    case Some(JNull) => true
    case Some(JStr(text)) =>
      assert text == "0" ==> !IsTrimmed(text[0]);
      IsBlank(text)
    case Some(JList(items)) => |items| == 0
    case Some(_) => false
  }

  /** The paths whose `required` rule fails. */
  function RequiredErrors(rules: RuleMap, req: Request): (r: set<string>)
    ensures forall p :: p in r <==> p in rules && HasRequired(rules[p]) && Missing(Lookup(req, p))
  {
    set p | p in rules && HasRequired(rules[p]) && Missing(Lookup(req, p))
  }

  /** The JSON response of the API: status, success flag, message, and the
      paths of the failed rules. */
  datatype Response = Response(status: nat, success: bool, message: string, errors: set<string>)

  /** `failedValidation`: status 422, `success` false, the fixed message, and
      the validator's errors. */
  function FailedValidation(errors: set<string>): (r: Response)
    ensures r.status == 422 && !r.success && r.message == "Validation failed" && r.errors == errors
  {
    Response(422, false, "Validation failed", errors)
  }

  datatype Validation = Passed | Rejected(response: Response)

  /** Validation of a new ad against its rules. */
  function ValidateStore(s: Store, req: Request): (r: Validation)
    ensures r.Rejected? <==> RequiredErrors(StoreRules(s, req), req) != {}
    ensures r.Rejected? ==> r.response == FailedValidation(RequiredErrors(StoreRules(s, req), req))
  {
    var errors := RequiredErrors(StoreRules(s, req), req);
    if errors == {} then Passed else Rejected(FailedValidation(errors))
  }

  /** The rules in force at a required field's path start with `required`,
      when no later field takes that path over. */
  lemma RequiredPathInForce(s: Store, req: Request, c: Category, fs: seq<CategoryField>, i: nat)
    requires RequestCategory(s, req) == Some(c) && fs == FieldsOf(s, c.id)
    requires i < |fs| && fs[i].isRequired
    requires forall j :: i < j < |fs| ==> BaseKey(CanonicalKey(fs[i])) !in FieldPaths(fs[j])
    ensures var p := BaseKey(CanonicalKey(fs[i]));
      p in StoreRules(s, req) && HasRequired(StoreRules(s, req)[p])
  {
    var p := BaseKey(CanonicalKey(fs[i]));
    DynamicRulesLastWins(fs, i, p);
    StoreDynamicIsMerged(s, req, c);
    StoreDynamicInForce(s, req, p);
    RequiredHead(StoreRules(s, req)[p]);
  }

  /** The dynamic rules of a request whose category loads are those merged
      over the category's fields. */
  lemma StoreDynamicIsMerged(s: Store, req: Request, c: Category)
    requires RequestCategory(s, req) == Some(c)
    ensures StoreDynamicRules(s, req) == DynamicRules(FieldsOf(s, c.id))
  {
  }

  /** A dynamic path is in force with its dynamic rules: no fixed path
      shadows it. */
  lemma StoreDynamicInForce(s: Store, req: Request, p: string)
    requires p in StoreDynamicRules(s, req)
    ensures p in StoreRules(s, req) && StoreRules(s, req)[p] == StoreDynamicRules(s, req)[p]
  {
    BaseRulesNotDynamic();
  }

  /** A path whose rules require a value the request lacks is an error. */
  lemma MissingPathIsError(rules: RuleMap, req: Request, key: string)
    requires BaseKey(key) in rules && HasRequired(rules[BaseKey(key)])
    requires Unsupplied(req, key)
    ensures BaseKey(key) in RequiredErrors(rules, req)
  {
    var p := BaseKey(key);
    DynamicPaths(key);
    assert p[|FieldsPrefix|..] == key;
    assert Lookup(req, p).None?;
  }

  /** A required field of the chosen category that the payload leaves out is
      rejected with status 422 and an error under `fields.<canonical key>`,
      unless a later field of the category takes over that path. */
  lemma MissingRequiredFieldRejected(s: Store, req: Request, c: Category, i: nat)
    requires RequestCategory(s, req) == Some(c)
    requires var fs := FieldsOf(s, c.id);
      && i < |fs| && fs[i].isRequired
      && forall j :: i < j < |fs| ==> BaseKey(CanonicalKey(fs[i])) !in FieldPaths(fs[j])
    requires Unsupplied(req, CanonicalKey(FieldsOf(s, c.id)[i]))
    ensures var r := ValidateStore(s, req);
      && r.Rejected?
      && r.response.status == 422 && !r.response.success
      && r.response.message == "Validation failed"
      && BaseKey(CanonicalKey(FieldsOf(s, c.id)[i])) in r.response.errors
  {
    var fs := FieldsOf(s, c.id);
    RequiredPathInForce(s, req, c, fs, i);
    MissingPathIsError(StoreRules(s, req), req, CanonicalKey(fs[i]));
  }

  /** A required field whose canonical key holds a `.` is rejected even when
      the payload sends a value under exactly that key. */
  lemma DottedKeySentLiterally(s: Store, req: Request, c: Category, i: nat, v: Json)
    requires RequestCategory(s, req) == Some(c)
    requires var fs := FieldsOf(s, c.id);
      && i < |fs| && fs[i].isRequired
      && forall j :: i < j < |fs| ==> BaseKey(CanonicalKey(fs[i])) !in FieldPaths(fs[j])
    requires var key := CanonicalKey(FieldsOf(s, c.id)[i]);
      '.' in key && req.fields == FieldsArray(map[key := v])
    ensures var r := ValidateStore(s, req);
      r.Rejected? && BaseKey(CanonicalKey(FieldsOf(s, c.id)[i])) in r.response.errors
  {
    var key := CanonicalKey(FieldsOf(s, c.id)[i]);
    var head := Split(key, '.')[0];
    assert '.' !in head;
    assert head != key;
    assert Unsupplied(req, key);
    MissingRequiredFieldRejected(s, req, c, i);
  }
}

=== FILE: tables.dfy ===
/**
 * Generic operations on a database table held as a sequence of rows in
 * primary-key order: the first-match lookup behind `where(...)->first()` and
 * `updateOrCreate`, `where` filters, and `orderBy` on an integer column.
 */
module Tables {
  import opened Wrappers

  // ---------------------------------------------------------------------------
  // Lookup and upsert
  // ---------------------------------------------------------------------------

  /** Index of the first row satisfying `p`. */
  function FindFirst<R>(rows: seq<R>, p: R -> bool): (r: Option<nat>)
    ensures r.Some? ==> r.value < |rows| && p(rows[r.value])
    ensures r.Some? ==> forall j :: 0 <= j < r.value ==> !p(rows[j])
    ensures r.None? <==> forall j :: 0 <= j < |rows| ==> !p(rows[j])
  {
    if |rows| == 0 then None
    else if p(rows[0]) then Some(0)
    else
      match FindFirst(rows[1..], p)
      case None => None
      case Some(i) => Some(i + 1)
  }

  /** `updateOrCreate`: rewrite the first row matching `p` with `update`, or
      append `created` when no row matches. */
  function Upsert<R>(rows: seq<R>, p: R -> bool, update: R -> R, created: R): (r: seq<R>)
    ensures FindFirst(rows, p).Some? ==>
      var i := FindFirst(rows, p).value;
      |r| == |rows| && r[i] == update(rows[i]) &&
      forall j :: 0 <= j < |rows| && j != i ==> r[j] == rows[j]
    ensures FindFirst(rows, p).None? ==> r == rows + [created]
  {
    match FindFirst(rows, p)
    case Some(i) => rows[i := update(rows[i])]
    case None => rows + [created]
  }

  /** No two rows share a key. */
  predicate KeysUnique<R, K(==)>(rows: seq<R>, key: R -> K) {
    forall i, j :: 0 <= i < j < |rows| ==> key(rows[i]) != key(rows[j])
  }

  /** Every row's id lies below the table's next auto-increment value. */
  predicate IdsBelow<R>(rows: seq<R>, id: R -> nat, next: nat) {
    forall i :: 0 <= i < |rows| ==> id(rows[i]) < next
  }

  /** The two parts of a concatenation, read back by position. */
  lemma AppendParts<T>(head: seq<T>, tail: seq<T>)
    ensures var r := head + tail;
      && |r| == |head| + |tail| && r[|head|..] == tail
      && forall i :: 0 <= i < |head| ==> r[i] == head[i]
  {
  }

  /** Unique keys differ at any two distinct positions, in either order. */
  lemma KeysDistinct<R, K>(rows: seq<R>, key: R -> K)
    requires KeysUnique(rows, key)
    ensures forall i, j :: 0 <= i < |rows| && 0 <= j < |rows| && i != j ==> key(rows[i]) != key(rows[j])
  {
    forall i, j | 0 <= i < |rows| && 0 <= j < |rows| && i != j ensures key(rows[i]) != key(rows[j]) {
      if j < i {
        assert key(rows[j]) != key(rows[i]);
      }
    }
  }

  /** Upserting by a key keeps that key unique, and the only row carrying it
      is the updated one or the created one. */
  lemma UpsertKeepsKeysUnique<R, K>(rows: seq<R>, key: R -> K, k: K, p: R -> bool, update: R -> R, created: R)
    requires KeysUnique(rows, key)
    requires forall x :: p(x) <==> key(x) == k
    requires forall x :: key(update(x)) == key(x)
    requires key(created) == k
    ensures var r := Upsert(rows, p, update, created);
      && KeysUnique(r, key)
      && (exists i :: 0 <= i < |r| && key(r[i]) == k)
      && forall i :: 0 <= i < |r| && key(r[i]) == k ==> r[i] == (if FindFirst(rows, p).Some? then update(rows[i]) else created)
  {
    var r := Upsert(rows, p, update, created);
    match FindFirst(rows, p)
    case Some(i) =>
      assert key(r[i]) == k;
      forall a, b | 0 <= a < b < |r|
        ensures key(r[a]) != key(r[b])
      {
        assert key(r[a]) == key(rows[a]);
        assert key(r[b]) == key(rows[b]);
      }
      forall j | 0 <= j < |r| && key(r[j]) == k ensures r[j] == update(rows[j]) {
        if j != i {
          assert false;
        }
      }
    case None =>
      assert key(r[|rows|]) == k;
  }

  /** The index `FindFirst` returns is the only one with a match and no match
      before it. */
  lemma FindFirstUnique<R>(rows: seq<R>, p: R -> bool, i: nat)
    requires FindFirst(rows, p) == Some(i)
    ensures forall k :: 0 <= k < |rows| && p(rows[k]) && (forall j :: 0 <= j < k ==> !p(rows[j])) ==> k == i
  {
  }

  /** After an upsert some row matches, when updating and creating both
      produce matching rows. */
  lemma UpsertHasMatch<R>(rows: seq<R>, p: R -> bool, update: R -> R, created: R)
    requires forall x :: p(x) ==> p(update(x))
    requires p(created)
    ensures var r := Upsert(rows, p, update, created);
      exists i :: 0 <= i < |r| && p(r[i])
  {
    var r := Upsert(rows, p, update, created);
    match FindFirst(rows, p)
    case Some(i) => assert p(r[i]);
    case None => assert p(r[|rows|]);
  }

  /** Upserting a created row whose id is the next auto-increment value keeps
      ids unique and below the (possibly bumped) counter. */
  lemma UpsertKeepsIds<R>(rows: seq<R>, id: R -> nat, next: nat, p: R -> bool, update: R -> R, created: R)
    requires KeysUnique(rows, id) && IdsBelow(rows, id, next)
    requires forall x :: id(update(x)) == id(x)
    requires id(created) == next
    ensures var r := Upsert(rows, p, update, created);
      var next' := if FindFirst(rows, p).None? then next + 1 else next;
      KeysUnique(r, id) && IdsBelow(r, id, next')
  {
    var r := Upsert(rows, p, update, created);
    match FindFirst(rows, p)
    case Some(i) =>
      forall a | 0 <= a < |r| ensures id(r[a]) == id(rows[a]) {
      }
    case None =>
  }

  // ---------------------------------------------------------------------------
  // where(...) filters
  // ---------------------------------------------------------------------------

  /** The rows satisfying `p`, in table order. */
  function Filter<R(!new)>(rows: seq<R>, p: R -> bool): (r: seq<R>)
    ensures |r| <= |rows|
    ensures forall x :: multiset(r)[x] == if p(x) then multiset(rows)[x] else 0
    ensures forall x :: x in r <==> x in rows && p(x)
  {
    if |rows| == 0 then []
    else
      var rest := Filter(rows[1..], p);
      assert rows == [rows[0]] + rows[1..];
      if p(rows[0]) then [rows[0]] + rest else rest
  }

  // ---------------------------------------------------------------------------
  // orderBy on an integer column
  // ---------------------------------------------------------------------------

  /** Rows appear in non-decreasing order of `key`. */
  predicate SortedBy<R>(rows: seq<R>, key: R -> int) {
    forall i, j :: 0 <= i < j < |rows| ==> key(rows[i]) <= key(rows[j])
  }

  /** Places `x` before the first row whose key is not smaller. */
  function Insert<R>(x: R, rows: seq<R>, key: R -> int): (r: seq<R>)
    requires SortedBy(rows, key)
    ensures SortedBy(r, key)
    ensures multiset(r) == multiset(rows) + multiset{x}
  {
    if |rows| == 0 then [x]
    else
      SortedTail(rows, key);
      if key(x) <= key(rows[0]) then
        SortedCons(x, rows, key);
        [x] + rows
      else
        var rest := Insert(x, rows[1..], key);
        assert rows == [rows[0]] + rows[1..];
        forall y | y in rest ensures key(rows[0]) <= key(y) {
          assert y in multiset(rest);
          if y != x {
            assert y in multiset(rows[1..]);
          }
        }
        SortedCons(rows[0], rest, key);
        [rows[0]] + rest
  }

  /** `orderBy(key)`: the same rows (as a multiset), sorted by `key`. Ties keep
      no particular order, as in SQL. */
  function SortBy<R>(rows: seq<R>, key: R -> int): (r: seq<R>)
    ensures SortedBy(r, key)
    ensures multiset(r) == multiset(rows)
  {
    if |rows| == 0 then []
    else
      assert rows == [rows[0]] + rows[1..];
      Insert(rows[0], SortBy(rows[1..], key), key)
  }

  /** `where(p)->orderBy(key)`: exactly the rows satisfying `p`, as many times as
      the table holds them, in `key` order. */
  function Select<R(!new)>(rows: seq<R>, p: R -> bool, key: R -> int): (r: seq<R>)
    ensures SortedBy(r, key)
    ensures forall x :: multiset(r)[x] == if p(x) then multiset(rows)[x] else 0
    ensures forall x :: x in r <==> x in rows && p(x)
  {
    var f := Filter(rows, p);
    var r := SortBy(f, key);
    assert forall x :: x in r <==> x in multiset(r);
    assert forall x :: x in f <==> x in multiset(f);
    r
  }

  // ---------------------------------------------------------------------------
  // Uniqueness survives filtering and sorting
  // ---------------------------------------------------------------------------

  lemma {:induction false} FilterKeepsKeysUnique<R(!new), K>(rows: seq<R>, p: R -> bool, key: R -> K)
    requires KeysUnique(rows, key)
    ensures KeysUnique(Filter(rows, p), key)
    decreases |rows|
  {
    if |rows| > 0 {
      var rest := Filter(rows[1..], p);
      assert KeysUnique(rows[1..], key) by {
        forall i, j | 0 <= i < j < |rows[1..]| ensures key(rows[1..][i]) != key(rows[1..][j]) {
          assert rows[1..][i] == rows[i + 1] && rows[1..][j] == rows[j + 1];
        }
      }
      FilterKeepsKeysUnique(rows[1..], p, key);
      if p(rows[0]) {
        var r := [rows[0]] + rest;
        forall i, j | 0 <= i < j < |r| ensures key(r[i]) != key(r[j]) {
          if i == 0 {
            assert r[j] in rows[1..];
            var k :| 0 <= k < |rows[1..]| && rows[1..][k] == r[j];
            assert rows[k + 1] == r[j];
          } else {
            assert r[i] == rest[i - 1] && r[j] == rest[j - 1];
          }
        }
      }
    }
  }

  lemma {:induction false} InsertKeepsKeysUnique<R, K>(x: R, rows: seq<R>, key: R -> int, k: R -> K)
    requires SortedBy(rows, key) && KeysUnique(rows, k)
    requires forall i :: 0 <= i < |rows| ==> k(rows[i]) != k(x)
    ensures KeysUnique(Insert(x, rows, key), k)
    decreases |rows|
  {
    var r := Insert(x, rows, key);
    if |rows| == 0 {
    } else if key(x) <= key(rows[0]) {
      forall i, j | 0 <= i < j < |r| ensures k(r[i]) != k(r[j]) {
        if i == 0 {
          assert r[j] == rows[j - 1];
        } else {
          assert r[i] == rows[i - 1] && r[j] == rows[j - 1];
        }
      }
    } else {
      var tail := rows[1..];
      assert KeysUnique(tail, k) by {
        forall i, j | 0 <= i < j < |tail| ensures k(tail[i]) != k(tail[j]) {
          assert tail[i] == rows[i + 1] && tail[j] == rows[j + 1];
        }
      }
      assert SortedBy(tail, key) by {
        forall i, j | 0 <= i < j < |tail| ensures key(tail[i]) <= key(tail[j]) {
          assert tail[i] == rows[i + 1] && tail[j] == rows[j + 1];
        }
      }
      assert forall i :: 0 <= i < |tail| ==> k(tail[i]) != k(x) by {
        forall i | 0 <= i < |tail| ensures k(tail[i]) != k(x) {
          assert tail[i] == rows[i + 1];
        }
      }
      InsertKeepsKeysUnique(x, tail, key, k);
      var rest := Insert(x, tail, key);
      assert r == [rows[0]] + rest;
      forall i, j | 0 <= i < j < |r| ensures k(r[i]) != k(r[j]) {
        if i == 0 {
          var y := rest[j - 1];
          assert y in multiset(rest);
          if y != x {
            assert y in multiset(tail);
            var m :| 0 <= m < |tail| && tail[m] == y;
            assert rows[m + 1] == y;
          }
        } else {
          assert r[i] == rest[i - 1] && r[j] == rest[j - 1];
        }
      }
    }
  }

  lemma {:induction false} SortKeepsKeysUnique<R, K>(rows: seq<R>, key: R -> int, k: R -> K)
    requires KeysUnique(rows, k)
    ensures KeysUnique(SortBy(rows, key), k)
    decreases |rows|
  {
    if |rows| > 0 {
      var tail := rows[1..];
      assert KeysUnique(tail, k) by {
        forall i, j | 0 <= i < j < |tail| ensures k(tail[i]) != k(tail[j]) {
          assert tail[i] == rows[i + 1] && tail[j] == rows[j + 1];
        }
      }
      SortKeepsKeysUnique(tail, key, k);
      var sorted := SortBy(tail, key);
      forall i | 0 <= i < |sorted| ensures k(sorted[i]) != k(rows[0]) {
        assert sorted[i] in multiset(sorted);
        assert sorted[i] in multiset(tail);
        var m :| 0 <= m < |tail| && tail[m] == sorted[i];
        assert rows[m + 1] == sorted[i];
      }
      InsertKeepsKeysUnique(rows[0], sorted, key, k);
    }
  }

  /** A `where(...)->orderBy(...)` over a table with a unique key is unique too. */
  lemma SelectKeepsKeysUnique<R(!new), K>(rows: seq<R>, p: R -> bool, key: R -> int, k: R -> K)
    requires KeysUnique(rows, k)
    ensures KeysUnique(Select(rows, p, key), k)
  {
    FilterKeepsKeysUnique(rows, p, k);
    SortKeepsKeysUnique(Filter(rows, p), key, k);
  }

  /** Filtering keeps the rows in the order they had. */
  lemma {:induction false} FilterKeepsSorted<R(!new)>(rows: seq<R>, p: R -> bool, key: R -> int)
    requires SortedBy(rows, key)
    ensures SortedBy(Filter(rows, p), key)
    decreases |rows|
  {
    if |rows| > 0 {
      var tail := rows[1..];
      SortedTail(rows, key);
      FilterKeepsSorted(tail, p, key);
      var rest := Filter(tail, p);
      if p(rows[0]) {
        assert forall y :: y in rest ==> y in tail;
        SortedCons(rows[0], rest, key);
      }
    }
  }

  /** A head no greater than anything in a sorted tail keeps it sorted. */
  lemma SortedCons<R>(x: R, rest: seq<R>, key: R -> int)
    requires SortedBy(rest, key) && forall y :: y in rest ==> key(x) <= key(y)
    ensures SortedBy([x] + rest, key)
  {
    var r := [x] + rest;
    forall i, j | 0 <= i < j < |r| ensures key(r[i]) <= key(r[j]) {
      assert r[j] == rest[j - 1];
      if i > 0 {
        assert r[i] == rest[i - 1];
      } else {
        assert r[j] in rest;
      }
    }
  }

  /** The tail of a sorted sequence is sorted, and nothing in it is smaller
      than the head. */
  lemma SortedTail<R>(rows: seq<R>, key: R -> int)
    requires |rows| > 0 && SortedBy(rows, key)
    ensures SortedBy(rows[1..], key)
    ensures forall y :: y in rows[1..] ==> key(rows[0]) <= key(y)
  {
    var tail := rows[1..];
    forall i, j | 0 <= i < j < |tail| ensures key(tail[i]) <= key(tail[j]) {
      assert tail[i] == rows[i + 1] && tail[j] == rows[j + 1];
    }
    forall y | y in tail ensures key(rows[0]) <= key(y) {
      var m :| 0 <= m < |tail| && tail[m] == y;
      assert rows[m + 1] == y;
    }
  }
}

=== FILE: taxonomy.dfy ===
/**
 * The read-side relations of the taxonomy: a category's children and fields,
 * its required fields, root categories, lookup by external id, and a field's
 * options. Each is a `where` filter over one table followed, where the
 * relation says so, by `orderBy('order')`.
 */
module Taxonomy {
  import opened Wrappers
  import opened Tables
  import opened Schema

  function CategoryOrder(c: Category): int { c.order }
  function FieldOrder(f: CategoryField): int { f.order }
  function OptionOrder(o: FieldOption): int { o.order }

  /** `Category::children`: the categories whose parent is `c`, by `order`. */
  function Children(s: Store, c: Category): (r: seq<Category>)
    ensures SortedBy(r, CategoryOrder)
    ensures forall x :: x in r <==> x in s.categories && x.parentId == Some(c.id)
    ensures forall x :: multiset(r)[x] == if x.parentId == Some(c.id) then multiset(s.categories)[x] else 0
  {
    Select(s.categories, (x: Category) => x.parentId == Some(c.id), CategoryOrder)
  }

  /** `Category::scopeRoots`: the categories without a parent, by `order`. */
  function Roots(s: Store): (r: seq<Category>)
    ensures SortedBy(r, CategoryOrder)
    ensures forall x :: x in r <==> x in s.categories && x.parentId.None?
    ensures forall x :: multiset(r)[x] == if x.parentId.None? then multiset(s.categories)[x] else 0
  {
    Select(s.categories, (x: Category) => x.parentId.None?, CategoryOrder)
  }

  /** A category is either a root or the child of the category its parent
      link names, never both. */
  lemma RootOrChild(s: Store, x: Category, c: Category)
    requires x in s.categories
    ensures x in Roots(s) ==> x !in Children(s, c)
    ensures x.parentId == Some(c.id) ==> x in Children(s, c) && x !in Roots(s)
  {
  }

  /** `Category::byExternalId(x)`: exactly the categories with that external
      id, in table order. */
  function ByExternalId(s: Store, x: string): (r: seq<Category>)
    ensures forall c :: c in r <==> c in s.categories && c.externalId == x
    ensures forall c :: multiset(r)[c] == if c.externalId == x then multiset(s.categories)[c] else 0
  {
    Filter(s.categories, (c: Category) => c.externalId == x)
  }

  /** `Category::fields` and `CategoryField::forCategory`: the fields of a
      category, by `order`. */
  function FieldsOf(s: Store, categoryId: nat): (r: seq<CategoryField>)
    ensures SortedBy(r, FieldOrder)
    ensures forall f :: f in r <==> f in s.fields && f.categoryId == Some(categoryId)
    ensures forall f :: multiset(r)[f] == if f.categoryId == Some(categoryId) then multiset(s.fields)[f] else 0
    ensures KeysUnique(s.fields, FieldId) ==> KeysUnique(r, FieldId)
  {
    var p := (f: CategoryField) => f.categoryId == Some(categoryId);
    if KeysUnique(s.fields, FieldId) then
      SelectKeepsKeysUnique(s.fields, p, FieldOrder, FieldId);
      Select(s.fields, p, FieldOrder)
    else
      Select(s.fields, p, FieldOrder)
  }

  /** `Category::requiredFields`: the category's fields restricted to the
      required ones, still by `order`. */
  function RequiredFields(s: Store, categoryId: nat): (r: seq<CategoryField>)
    ensures SortedBy(r, FieldOrder)
    ensures forall f :: f in r <==> f in s.fields && f.categoryId == Some(categoryId) && f.isRequired
    ensures forall f: CategoryField :: f.categoryId == Some(categoryId) && f.isRequired ==> multiset(r)[f] == multiset(s.fields)[f]
    ensures forall f: CategoryField :: !(f.categoryId == Some(categoryId) && f.isRequired) ==> multiset(r)[f] == 0
  {
    var all := FieldsOf(s, categoryId);
    FilterKeepsSorted(all, (f: CategoryField) => f.isRequired, FieldOrder);
    Filter(all, (f: CategoryField) => f.isRequired)
  }

  /** The required fields are a part of the fields: every required field of a
      category is one of its fields, no more often than there. */
  lemma RequiredFieldsWithinFields(s: Store, categoryId: nat)
    ensures multiset(RequiredFields(s, categoryId)) <= multiset(FieldsOf(s, categoryId))
  {
    var r := RequiredFields(s, categoryId);
    var all := FieldsOf(s, categoryId);
    forall f ensures multiset(r)[f] <= multiset(all)[f] {
    }
  }

  /** `CategoryField::options`: the options of a field, by `order`. */
  function OptionsOf(s: Store, fieldId: nat): (r: seq<FieldOption>)
    ensures SortedBy(r, OptionOrder)
    ensures forall o :: o in r <==> o in s.options && o.fieldId == fieldId
    ensures forall o :: multiset(r)[o] == if o.fieldId == fieldId then multiset(s.options)[o] else 0
  {
    Select(s.options, (o: FieldOption) => o.fieldId == fieldId, OptionOrder)
  }

  /** `Category::find`: the category with that id, if any. */
  function FindCategory(s: Store, id: int): (r: Option<Category>)
    ensures r.Some? ==> r.value in s.categories && r.value.id == id
    ensures r.None? <==> forall c :: c in s.categories ==> c.id != id
  {
    match FindFirst(s.categories, (c: Category) => c.id == id)
    case None => None
    case Some(i) => Some(s.categories[i])
  }
}

=== FILE: update_ad_request.dfy ===
/**
 * Validation of an ad update: ownership, the fixed rules (all `sometimes`),
 * and the rules derived from the ad's category, where a field already
 * holding a value for this ad is no longer required.
 */
module UpdateAdRequest {
  import opened Wrappers
  import opened Php
  import opened FieldTypes
  import opened Tables
  import opened Schema
  import opened RuleTokens
  import opened Taxonomy
  import opened StoreAdRequest
  import Ads

  /** `authorize`: an ad is bound to the route and the user owns it. */
  function Authorize(userId: nat, routeAd: Option<Ad>): (r: bool)
    ensures r ==> routeAd.Some?
    ensures routeAd.Some? ==> (r <==> routeAd.value.userId == userId)
  {
    match routeAd
    case None => false
    case Some(ad) => userId == ad.userId
  }

  /** At most one user may update a given ad. */
  lemma AuthorizeOwnerOnly(u1: nat, u2: nat, ad: Ad)
    requires Authorize(u1, Some(ad)) && Authorize(u2, Some(ad))
    ensures u1 == u2
  {
  }

  /** The fixed rules: every listing column is optional on update, and the
      status must be one of four values. */
  const UpdateBaseRules: RuleMap := map[
    "title" := [Sometimes, StringRule, Min("5"), Max("100")],
    "description" := [Sometimes, StringRule, Min("20"), Max("5000")],
    "price" := [Sometimes, Nullable, NumericRule, Min("0"), Max("999999999.99")],
    "status" := [Sometimes, InSet(["draft", "active", "sold", "expired"])]]

  const Statuses: seq<string> := ["draft", "active", "sold", "expired"]

  /** Every fixed rule list starts with `sometimes`, none requires a value,
      `rejected` is not an accepted status, and no fixed path is dynamic. */
  lemma UpdateBaseRulesShape()
    ensures forall p :: p in UpdateBaseRules ==> |UpdateBaseRules[p]| >= 2 && UpdateBaseRules[p][0] == Sometimes
    ensures forall p :: p in UpdateBaseRules ==> !HasRequired(UpdateBaseRules[p])
    ensures UpdateBaseRules["status"][1] == InSet(Statuses) && "rejected" !in Statuses
    ensures forall p :: p in UpdateBaseRules ==> !HasFieldsPrefix(p)
  {
    assert !HasFieldsPrefix("status") by { assert "status"[..|FieldsPrefix| - 1][0] == 's'; }
    assert !HasFieldsPrefix("description") by { assert "description"[..7][0] == 'd'; }
    assert !HasFieldsPrefix("title");
    assert !HasFieldsPrefix("price");
    forall p | p in UpdateBaseRules ensures !HasRequired(UpdateBaseRules[p]) {
      var ts := UpdateBaseRules[p];
      forall i | 0 <= i < |ts| ensures !IsRequiredToken(ts[i]) {
      }
    }
  }

  /** The type tokens of the update deriver: no length bounds on email and
      url, and `string` for any type it does not list. */
  function UpdateTypeTokens(t: FieldType, fieldId: nat): (r: seq<RuleToken>)
    ensures 1 <= |r| <= 2
    ensures forall i :: 0 <= i < |r| && r[i].ExistsOption? ==> r[i].fieldId == fieldId
    ensures forall i :: 0 <= i < |r| ==> r[i] != Required && r[i] != Nullable && !r[i].Custom? && !r[i].Max?
  {
    match t
    case Text => [StringRule]
    case Textarea => [StringRule]
    case Number => [NumericRule]
    case Email => [EmailRule]
    case Url => [UrlRule]
    case Date => [DateRule]
    case Select => [IntegerRule, ExistsOption(fieldId)]
    case Radio => [IntegerRule, ExistsOption(fieldId)]
    case Checkbox => [ArrayRule]
    case Other(_) => [StringRule]
  }

  /** The rules of one field on update. The base token is `required` only for
      a required field the ad has no stored value for. A checkbox also gets
      the element path; custom rules go on the base path for every type. */
  function UpdateFieldRules(f: CategoryField, hasStoredValue: bool): (r: RuleMap)
    ensures var key := CanonicalKey(f);
      && BaseKey(key) in r
      && r.Keys == if f.fieldType == Checkbox then {BaseKey(key), ElementKey(key)} else {BaseKey(key)}
    ensures forall p :: p in r ==> HasFieldsPrefix(p)
    ensures var rules := r[BaseKey(CanonicalKey(f))];
      var custom := CustomTokens(f.validationRules);
      && |rules| >= 2 + |custom|
      && (rules[0] == Required <==> f.isRequired && !hasStoredValue)
      && (rules[0] == Required || rules[0] == Nullable)
      && rules[|rules| - |custom|..] == custom
    ensures f.fieldType == Checkbox ==>
      var rules := r[BaseKey(CanonicalKey(f))];
      && rules[1] == ArrayRule && |rules| == 2 + |CustomTokens(f.validationRules)|
      && r[ElementKey(CanonicalKey(f))] == [IntegerRule, ExistsOption(f.id)]
  {
    var key := CanonicalKey(f);
    DynamicPaths(key);
    var base := if f.isRequired && !hasStoredValue then Required else Nullable;
    var custom := CustomTokens(f.validationRules);
    var rules := [base] + UpdateTypeTokens(f.fieldType, f.id) + custom;
    assert rules[|rules| - |custom|..] == custom;
    if f.fieldType == Checkbox then
      map[BaseKey(key) := rules, ElementKey(key) := [IntegerRule, ExistsOption(f.id)]]
    else
      map[BaseKey(key) := rules]
  }

  /** Whether the ad already has a value row for the field: some row of the
      ad's `fieldValues` relation names it. */
  predicate HasStoredValue(s: Store, adId: nat, fieldId: nat)
    ensures HasStoredValue(s, adId, fieldId) <==> exists v :: v in Ads.ValuesOf(s, adId) && v.fieldId == fieldId
  {
    exists i :: 0 <= i < |s.values| && ValuePair(s.values[i]) == (adId, fieldId)
  }

  /** The per-field maps merged in field order, later paths winning. */
  function UpdateMerged(s: Store, adId: nat, fs: seq<CategoryField>): (r: RuleMap)
    ensures forall p :: p in r ==> HasFieldsPrefix(p)
    decreases |fs|
  {
    if |fs| == 0 then map[]
    else
      var f := fs[|fs| - 1];
      UpdateMerged(s, adId, fs[..|fs| - 1]) + UpdateFieldRules(f, HasStoredValue(s, adId, f.id))
  }

  /** The rules at a path are those of the last field producing it. */
  lemma {:induction false} UpdateMergedLastWins(s: Store, adId: nat, fs: seq<CategoryField>, i: nat, p: string)
    requires i < |fs|
    requires p in UpdateFieldRules(fs[i], HasStoredValue(s, adId, fs[i].id))
    requires forall j :: i < j < |fs| ==> p !in UpdateFieldRules(fs[j], HasStoredValue(s, adId, fs[j].id))
    ensures p in UpdateMerged(s, adId, fs)
    ensures UpdateMerged(s, adId, fs)[p] == UpdateFieldRules(fs[i], HasStoredValue(s, adId, fs[i].id))[p]
    decreases |fs|
  {
    var init := fs[..|fs| - 1];
    if i < |fs| - 1 {
      assert init[i] == fs[i];
      forall j | i < j < |init| ensures p !in UpdateFieldRules(init[j], HasStoredValue(s, adId, init[j].id)) {
        assert init[j] == fs[j];
      }
      UpdateMergedLastWins(s, adId, init, i, p);
    }
  }

  /** `getDynamicFieldRules`: nothing when the ad's category is missing, else
      the merged rules of its fields in `order`. */
  function UpdateDynamicRules(s: Store, ad: Ad): (r: RuleMap)
    ensures FindCategory(s, ad.categoryId).None? ==> r == map[]
    ensures forall p :: p in r ==> HasFieldsPrefix(p)
  {
    match FindCategory(s, ad.categoryId)
    case None => map[]
    case Some(c) => UpdateMerged(s, ad.id, FieldsOf(s, c.id))
  }

  /** `rules()`: the fixed rules, merged with the dynamic ones only when the
      body has a `fields` key, whatever its value, and an ad is bound. */
  function UpdateRules(s: Store, req: Request, routeAd: Option<Ad>): (r: RuleMap)
    ensures !HasFields(req) || routeAd.None? ==> r == UpdateBaseRules
    ensures forall p :: p in UpdateBaseRules ==> p in r && r[p] == UpdateBaseRules[p]
    ensures HasFields(req) && routeAd.Some? ==>
      forall p :: p in r <==> p in UpdateBaseRules || p in UpdateDynamicRules(s, routeAd.value)
    ensures HasFields(req) && routeAd.Some? ==>
      forall p :: p in UpdateDynamicRules(s, routeAd.value) ==> r[p] == UpdateDynamicRules(s, routeAd.value)[p]
  {
    UpdateBaseRulesShape();
    if HasFields(req) && routeAd.Some? then UpdateBaseRules + UpdateDynamicRules(s, routeAd.value)
    else UpdateBaseRules
  }

  /** The base rules of a field with a stored value require nothing, unless
      the field's own rules say `required`. */
  lemma StoredFieldRulesOptional(f: CategoryField)
    requires Custom("required") !in CustomTokens(f.validationRules)
    ensures var ts := UpdateFieldRules(f, true)[BaseKey(CanonicalKey(f))];
      ts[0] == Nullable && !HasRequired(ts)
  {
    var custom := CustomTokens(f.validationRules);
    var types := UpdateTypeTokens(f.fieldType, f.id);
    var ts := UpdateFieldRules(f, true)[BaseKey(CanonicalKey(f))];
    assert ts == [Nullable] + types + custom;
    forall k | 0 <= k < |ts| ensures !IsRequiredToken(ts[k]) {
      if 0 < k <= |types| {
        assert ts[k] == types[k - 1];
      } else if k > |types| {
        assert ts[k] == custom[k - 1 - |types|];
      }
    }
  }

  /** The rules in force at the path of a field with a stored value. */
  lemma StoredPathInForce(s: Store, req: Request, ad: Ad, c: Category, fs: seq<CategoryField>, i: nat)
    requires FindCategory(s, ad.categoryId) == Some(c) && HasFields(req) && fs == FieldsOf(s, c.id)
    requires i < |fs| && HasStoredValue(s, ad.id, fs[i].id)
    requires forall j :: i < j < |fs| ==>
      BaseKey(CanonicalKey(fs[i])) !in UpdateFieldRules(fs[j], HasStoredValue(s, ad.id, fs[j].id))
    ensures var p := BaseKey(CanonicalKey(fs[i]));
      p in UpdateRules(s, req, Some(ad)) && UpdateRules(s, req, Some(ad))[p] == UpdateFieldRules(fs[i], true)[p]
  {
    var p := BaseKey(CanonicalKey(fs[i]));
    UpdateMergedLastWins(s, ad.id, fs, i, p);
    DynamicIsMerged(s, ad, c);
    DynamicInForce(s, req, ad, p);
  }

  /** The dynamic rules of an ad whose category loads are those merged over
      the category's fields. */
  lemma DynamicIsMerged(s: Store, ad: Ad, c: Category)
    requires FindCategory(s, ad.categoryId) == Some(c)
    ensures UpdateDynamicRules(s, ad) == UpdateMerged(s, ad.id, FieldsOf(s, c.id))
  {
  }

  /** A dynamic path is in force with its dynamic rules when the body has
      `fields`. */
  lemma DynamicInForce(s: Store, req: Request, ad: Ad, p: string)
    requires HasFields(req) && p in UpdateDynamicRules(s, ad)
    ensures p in UpdateRules(s, req, Some(ad))
    ensures UpdateRules(s, req, Some(ad))[p] == UpdateDynamicRules(s, ad)[p]
  {
  }

  /** On update, a required field the ad already has a value for is
      `nullable`: leaving it out of the payload raises no error for it. */
  lemma StoredRequiredFieldNotRequired(s: Store, req: Request, ad: Ad, c: Category, i: nat)
    requires FindCategory(s, ad.categoryId) == Some(c) && HasFields(req)
    requires var fs := FieldsOf(s, c.id);
      && i < |fs| && HasStoredValue(s, ad.id, fs[i].id)
      && forall j :: i < j < |fs| ==> BaseKey(CanonicalKey(fs[i])) !in UpdateFieldRules(fs[j], HasStoredValue(s, ad.id, fs[j].id))
    requires Custom("required") !in CustomTokens(FieldsOf(s, c.id)[i].validationRules)
    ensures var p := BaseKey(CanonicalKey(FieldsOf(s, c.id)[i]));
      && p in UpdateRules(s, req, Some(ad))
      && |UpdateRules(s, req, Some(ad))[p]| > 0 && UpdateRules(s, req, Some(ad))[p][0] == Nullable
      && p !in RequiredErrors(UpdateRules(s, req, Some(ad)), req)
  {
    var fs := FieldsOf(s, c.id);
    var p := BaseKey(CanonicalKey(fs[i]));
    StoredPathInForce(s, req, ad, c, fs, i);
    StoredFieldRulesOptional(fs[i]);
    var rules := UpdateRules(s, req, Some(ad));
    NotRequiredNoError(rules, req, p);
  }

  lemma NotRequiredNoError(rules: RuleMap, req: Request, p: string)
    requires p in rules && !HasRequired(rules[p])
    ensures p !in RequiredErrors(rules, req)
  {
  }

  /** On update, a required field the ad holds no value for yet stays
      required as soon as the body has a `fields` key: an empty `fields`
      array, a null one, or one without the field fails at its path. */
  lemma UnstoredRequiredFieldRejected(s: Store, req: Request, ad: Ad, c: Category, i: nat)
    requires FindCategory(s, ad.categoryId) == Some(c) && HasFields(req)
    requires var fs := FieldsOf(s, c.id);
      && i < |fs| && fs[i].isRequired && !HasStoredValue(s, ad.id, fs[i].id)
      && forall j :: i < j < |fs| ==> BaseKey(CanonicalKey(fs[i])) !in UpdateFieldRules(fs[j], HasStoredValue(s, ad.id, fs[j].id))
    requires Unsupplied(req, CanonicalKey(FieldsOf(s, c.id)[i]))
    ensures BaseKey(CanonicalKey(FieldsOf(s, c.id)[i])) in RequiredErrors(UpdateRules(s, req, Some(ad)), req)
  {
    var fs := FieldsOf(s, c.id);
    var p := BaseKey(CanonicalKey(fs[i]));
    UpdateMergedLastWins(s, ad.id, fs, i, p);
    DynamicIsMerged(s, ad, c);
    DynamicInForce(s, req, ad, p);
    var rules := UpdateRules(s, req, Some(ad));
    RequiredHead(rules[p]);
    MissingPathIsError(rules, req, CanonicalKey(fs[i]));
  }
}

=== FILE: wrappers.dfy ===
/** Failure-compatible Option and Result datatypes used throughout the model. */
module Wrappers {

  datatype Option<+T> = None | Some(value: T) {

    /** The wrapped value, or `default` when there is none. */
    function GetOr(default: T): T {
      match this
      case Some(v) => v
      case None => default
    }
  }

  /** The outcome of an operation that may raise: PHP exceptions become `Failure`. */
  datatype Result<+R, +E> = Success(value: R) | Failure(error: E) {

    predicate IsFailure() {
      Failure?
    }

    function PropagateFailure<U>(): Result<U, E>
      requires Failure?
    {
      Failure(error)
    }

    function Extract(): R
      requires Success?
    {
      value
    }
  }
}
